=== FILE: README.md ===
# DVF loading core, modelled in Dafny

This project models the part of the DVF pipeline that turns the open
"Demandes de valeurs foncières" CSV files into rows of the MUTATION,
LOCALISATION, BIEN, MUTATION_BIEN and LOT tables. It covers:

- the cleaner, `process_csv_files`, in its three copies: the MySQL bulk
  script, the standalone `clean_dvfFiles.py` and the SQLite test suite.
  It reads each CSV file, normalizes the column names, runs
  `clean_numeric`, `to_numeric` and `convert_date`, drops rows without a
  date, skips a file that raises, and concatenates the rest;
- the MySQL bulk loader `insert_data_to_db` of `db/populate_db.py`, and
  the first pass `insert_main_data` of `db/insert_data.py`. Both thread
  three caches (mutation ids seen, location key to id, bien key to id)
  through the rows, upsert or insert one row per table on a cache miss,
  catch a failing row, commit every 10000 successful rows, and roll back
  when a commit raises;
- the second pass `insert_lots_data` of `db/insert_lots.py`. It rebuilds
  the serialized location and bien keys, looks them up in the caches the
  first pass saved, and upserts up to five lots per row;
- the test suite's SQLite loader `insert_data_to_db` of
  `tests/populate_db_sqlite.py`. Its location key has no address fields,
  its bien key has no location id, it commits every 1000 rows, and any
  error ends the run.

The database is an immutable value, `Store.Db`. Auto-increment ids are
1-based positions in the LOCALISATION and BIEN sequences. Whether a
statement or a commit raises is an oracle: a per-row set of failing
operations, plus a flag for the final commit. The model never decides
that on its own.

Modules:

| module | models |
|---|---|
| `Text`, `Numbers`, `Dates` | `str.strip` (on every character Python counts as whitespace), `str.lower` (on ASCII and Latin-1 capitals), `str.replace`, `"|".join`, Python `float()`/`int()`/`str()` on fixed-point decimals, `pd.to_datetime` on `YYYY-MM-DD` (section 4.1.2.2 of ISO 8601:2004) and `%d/%m/%Y` |
| `Values` | DataFrame cells, `clean_numeric` (both variants), `convert_date` (both variants), `to_numeric(...).astype('Int64')` |
| `Cleaner` | `process_csv_files` of the three scripts |
| `Store` | the five tables and the SQL statements the loaders issue |
| `Keys` | the location and bien cache keys and their `"|"` serialization |
| `Loader`, `LoaderProps`, `LoaderFacts` | the MySQL loaders, the invariants they keep, and the properties of a whole run |
| `Lots` | the lot pass |
| `SqliteLoader`, `SqliteFacts`, `SqliteDims` | the test suite's loader and its properties |

`Loader.Policy` picks the MySQL variant:

- `PopulateDb` is the bulk script;
- `InsertData(false)` is `insert_main_data` as written;
- `InsertData(true)` is the same loader with the location membership test
  done on the serialized key that the cache is written with (see Findings).

A cell with grouped digits such as `"1 234,56"` becomes `"1 234.56"` after
the comma replacement, and `float("1 234.56")` raises at
db/clean_dvfFiles.py:36, so `clean_numeric` returns `None`
(`Values.GroupedDigitsRejected`).

## Model

| member | source | states |
|---|---|---|
| Text.Strip | db/clean_dvfFiles.py:29 | the stripped text is the slice of the cell that starts after its leading whitespace and is followed only by whitespace; it is empty exactly when the cell is blank, and otherwise starts and ends with a non-space |
| Text.StripDetermined | db/clean_dvfFiles.py:29 | those facts determine the stripped text: any slice after the leading whitespace, followed only by whitespace and not ending in whitespace, is the stripped text |
| Text.ReplaceCommas | db/clean_dvfFiles.py:33 | every comma becomes a point, every other character is kept, and no comma remains |
| Text.Lower | db/clean_dvfFiles.py:88 | lower-casing keeps the length and maps every character on its own, lowering the ASCII and Latin-1 capitals |
| Text.IndexOf | db/clean_dvfFiles.py:48-51 | the position of the first occurrence of a character, or the length when it does not occur |
| Text.ReplaceCommasBlank | db/clean_dvfFiles.py:29-33 | replacing commas never changes whether a cell is blank |
| Text.JoinSnoc | db/insert_data.py:96 | joining one more field appends the separator and that field |
| Text.LastFieldAfterSep | db/insert_data.py:117-119 | the text after the last separator is the last field when that field has no separator |
| Text.DigitsOf | db/insert_data.py:119 | the decimal rendering of a natural number is a digit string without leading zeros that reads back as the number |
| Numbers.Normalize | db/clean_dvfFiles.py:36 | the canonical form of a decimal has the same value, no trailing fractional zero, and the same sign |
| Numbers.CanonicalUnique | tests/populate_db_sqlite.py:243 | two canonical decimals are equal exactly when their values are equal, so float key equality is value equality |
| Numbers.ParseFloat | db/clean_dvfFiles.py:36 | `float()` accepts no blank text and returns canonical decimals |
| Numbers.ParseShowCanonical | db/clean_dvfFiles.py:36 | `float(str(x))` gives back `x` for every canonical decimal |
| Numbers.ParseShow | db/clean_dvfFiles.py:36 | `float(str(x))` gives back the canonical form of any decimal |
| Numbers.IntRoundTrip | db/insert_data.py:117-119 | `int(str(i))` gives back `i` for every integer |
| Numbers.Trunc | db/insert_data.py:109 | `int()` of a float truncates toward zero: its magnitude is the integral part and it keeps the sign |
| Numbers.ShowRespectsValue | db/insert_data.py:119 | two decimals of equal value print the same |
| Dates.Checked | db/clean_dvfFiles.py:49-51 | a date is returned exactly when it is a valid calendar date inside the span of a pandas timestamp |
| Dates.IsoRoundTrip | tests/populate_db_sqlite.py:217 | every representable date printed as `%Y-%m-%d` parses back to itself |
| Dates.IsoCanonical | db/clean_dvfFiles.py:48-49 | the ISO branch accepts only the exact ten-character text of the date it returns |
| Dates.ParseIso | db/clean_dvfFiles.py:48-49 | any date the ISO layout yields is representable |
| Dates.ParseDmy | db/clean_dvfFiles.py:50-51 | any date the `%d/%m/%Y` layout yields is representable |
| Dates.DmyRoundTrip | db/clean_dvfFiles.py:50-51 | every representable date printed as `%d/%m/%Y` parses back to itself |
| Dates.DmyFields | db/clean_dvfFiles.py:51 | a day and month of one or two digits and a four-digit year parse to that date when it is valid |
| Dates.DmyPaddedDay | db/clean_dvfFiles.py:51 | a day written as a space and a non-zero digit, as `%d` allows, parses to that digit's day when the date is valid |
| Dates.ConvertDateText | db/clean_dvfFiles.py:45-56 | blank text and text with neither `-` nor `/` give no date; any date returned is representable |
| Dates.MixedSeparators | db/clean_dvfFiles.py:48-51 | text with both `-` and `/` gives no date, because the ISO branch is tried first and rejects `/` |
| Dates.LayoutsAgree | db/populate_db.py:94-99 | both layouts of the same date convert to that date |
| Dates.ConvertIsoExactly | db/populate_db.py:95-96 | text with a `-` converts to `d` exactly when it is the ISO text of a representable `d` |
| Values.CleanNumeric | db/populate_db.py:67-78 | a missing or blank cell gives `None`; any number returned is canonical |
| Values.SqliteCleanNumeric | tests/populate_db_sqlite.py:106-116 | a missing cell or the empty text gives `None` |
| Values.SqliteCleanAgrees | tests/populate_db_sqlite.py:106-116 | the test suite's `clean_numeric`, which only checks for `''`, agrees with the stripping version on every cell |
| Values.CommaInsensitive | db/clean_dvfFiles.py:32-33 | "44,5" and "44.5" clean to the same number |
| Values.CleanPrinted | db/clean_dvfFiles.py:29-36 | the printed form of a number, with a point or with a French decimal comma, cleans back to that number |
| Values.CleanIdempotent | tests/populate_db_sqlite.py:239-240 | cleaning an already cleaned cell again gives the same number |
| Values.GroupedDigitsRejected | db/clean_dvfFiles.py:33-38 | "1 234,56" cleans to `None`, since `float()` rejects the space |
| Values.ConvertDate | db/populate_db.py:91-104 | a missing cell gives no date, and any date returned is representable |
| Values.SqliteConvertDate | tests/populate_db_sqlite.py:154-167 | a missing cell gives no date |
| Values.SqliteConvertAgrees | tests/populate_db_sqlite.py:154-167 | the test suite's `convert_date` agrees with the production one on every cell |
| Values.ToNumeric | db/clean_dvfFiles.py:101 | `to_numeric(errors='coerce')` yields a number or missing, and missing for text exactly when `float()` rejects it |
| Values.CastInt64 | db/clean_dvfFiles.py:102 | the Int64 cast keeps missing values, turns a float into an integer exactly when it has no fractional part, and that integer has the float's value |
| Values.PyFloat | db/insert_data.py:111 | `float()` of a float cell succeeds with a canonical number of the same value |
| Values.StrOrNone | db/insert_data.py:113 | a missing cell stays missing, and any other cell becomes its `str()` text |
| Values.PyInt | db/insert_data.py:109 | `int()` keeps an integer cell, truncates a float cell toward zero, reads a text cell as integer text, and raises on a missing cell or a timestamp |
| Values.PyIntRoundTrip | tests/populate_db_sqlite.py:272 | `int()` gives `i` back from `str(i)` and from the float `i` |
| Cleaner.NumericColumns | db/clean_dvfFiles.py:91-93 | the numeric columns are distinct and include neither the room count nor the date |
| Cleaner.NormNameIdempotent | db/clean_dvfFiles.py:88 | normalizing an already normalized column name changes nothing |
| Cleaner.Columns | db/populate_db.py:152 | the test suite keeps the header as read; the other scripts strip and lower-case each name in place, and each resulting name is already in normal form |
| Cleaner.MapColumn | db/clean_dvfFiles.py:94-96 | applying a function to a column changes only that column, in every row that has it |
| Cleaner.CleanNumericsCells | db/clean_dvfFiles.py:94-96 | each listed column a row has holds `clean_numeric` of its old cell, and every other column is untouched |
| Cleaner.ConvertRooms | db/clean_dvfFiles.py:100-102 | the room conversion fails exactly when some row's room cell cannot be made an Int64, and it changes nothing else |
| Cleaner.OnlyRoomsFail | db/populate_db.py:156-166 | outside the test suite a file's conversion raises exactly when a room count cannot be made an Int64 |
| Cleaner.RoomsUntouched | db/populate_db.py:157-160 | the numeric cleaning leaves the room-count column of every row as it was |
| Cleaner.ConvertedCells | db/clean_dvfFiles.py:91-102 | after conversion, numeric columns hold their cleaned cell and columns other than room count and date are unchanged |
| Cleaner.KeepDated | db/clean_dvfFiles.py:104-107 | a row is kept exactly when it has a valid date, and no more rows come out than went in |
| Cleaner.KeepDatedAppend | tests/populate_db_sqlite.py:172-175 | filtering dated rows distributes over concatenation |
| Cleaner.DropUndated | db/populate_db.py:172-178 | with a date column the kept rows are exactly the dated rows, in their order, and kept plus removed add up to the input; without one nothing is removed |
| Cleaner.ProcessFile | db/clean_dvfFiles.py:78-112 | a file loads exactly when its conversion succeeds; with a date column its rows are exactly the dated converted rows, in order, without one they are all the converted rows; kept plus removed account for every record |
| Cleaner.ProcessedColumns | db/clean_dvfFiles.py:88-112 | every row of a processed file has exactly the file's columns, normalized outside the test suite |
| Cleaner.CsvOnly | db/clean_dvfFiles.py:67 | exactly the files whose name ends in `.csv` are kept |
| Cleaner.ProcessFolder | db/clean_dvfFiles.py:63-70 | a missing folder makes the test suite's copy raise, while the other copies return no rows for it; a listed folder always yields the gathered rows (the concat failure on duplicated columns is under Left out) |
| Cleaner.FailingFileSkipped | db/clean_dvfFiles.py:113-115 | a file that raises contributes nothing: the result is the same as without it |
| Cleaner.OtherFilesIgnored | db/clean_dvfFiles.py:67 | a non-CSV file in the folder changes nothing |
| Cleaner.NothingLoads | db/clean_dvfFiles.py:117-119 | when every file raises, no rows come out |
| Cleaner.GatherAppend | db/clean_dvfFiles.py:121 | the rows of two file lists are the rows of each, concatenated in listing order |
| Store.UpsertMutation | db/populate_db.py:236-247 | `ON DUPLICATE KEY UPDATE` adds a new mutation or updates only the date of an existing one; nothing else changes |
| Store.UpsertMutationKeepsFirst | db/populate_db.py:239 | two upserts of one id keep the first row's other fields and the second row's date |
| Store.InsertMutationOrIgnore | tests/populate_db_sqlite.py:221-230 | `INSERT OR IGNORE` adds a new mutation and leaves an existing one as it is |
| Store.InsertLoc | db/populate_db.py:263-282 | a location insert appends one row and returns its id, the new table length |
| Store.InsertBien | db/populate_db.py:301-315 | a bien insert appends one row and returns its id |
| Store.InsertLinkOrIgnore | db/populate_db.py:323-331 | `INSERT IGNORE` adds a link only for a new (mutation, bien) pair |
| Store.IgnoreIdempotent | db/populate_db.py:324 | repeating an ignore-on-duplicate insert changes nothing |
| Store.FindLot | db/insert_lots.py:94-100 | the position of the lot with that (bien, number), or none when no lot has it |
| Store.UpsertLot | db/insert_lots.py:94-100 | a lot upsert replaces the surface of the existing (bien, number) lot, or appends a new one |
| Store.UpsertLotKeepsUnique | db/insert_lots.py:94-100 | upserting keeps (bien, number) unique and leaves that lot with the new surface |
| Store.UpsertLotIdempotent | db/insert_lots.py:94-100 | repeating a lot upsert changes nothing |
| Store.InsertLotDuplicates | tests/populate_db_sqlite.py:316-324 | without a unique key, the same lot inserted twice is stored twice |
| Store.ConsistentSteps | tests/populate_db_sqlite.py:29-103 | every statement kept to its preconditions preserves the foreign keys of the schema |
| Keys.LocKey | db/populate_db.py:252-259 | the MySQL location key has nine fields |
| Keys.MainBienKey | db/insert_data.py:103-117 | the key fails exactly when `float()` raises on a present surface or `int()` on a present room count; otherwise its five fields are the parcel and type through `str()`, the surface through `float()`, the room count through `int()` (each missing when missing) and the location id |
| Keys.PopulateBienKey | db/populate_db.py:291-297 | the bulk script's key fails exactly when `int()` raises on a present room count; otherwise its five fields are the parcel, type and surface through `str()`, the room count through `int()` (each missing when missing) and the location id |
| Keys.SqliteLocKeyIgnoresAddress | tests/populate_db_sqlite.py:234-241 | two rows that agree on the six key columns get the same location key, whatever their addresses |
| Keys.SerializeInjective | db/insert_data.py:96 | keys of equal length whose fields contain no `|` serialize equally only when they print equally field by field |
| Keys.SerializeCollision | db/insert_data.py:96 | two different keys can serialize to the same text when a field contains `|` |
| Keys.SerializedLoc | db/insert_data.py:117-119 | the location id can be read back from the end of a serialized bien key |
| Keys.DistinctLocationsDistinctKeys | db/populate_db.py:296-297 | rows under different locations never share a bien key |
| Loader.MutationStage | db/populate_db.py:234-248 | a mutation statement runs only for a present id not yet seen in this run; the id is then cached and written |
| Loader.LocStage | db/insert_data.py:67-98 | a location row is inserted exactly when the membership test misses; a hit reads the id cached under the stored key |
| Loader.BienStage | db/populate_db.py:287-318 | a bien is resolved only under a truthy location id; a miss inserts one bien with that location and caches its id |
| Loader.LinkStage | db/populate_db.py:320-331 | a link is written only for a present mutation id and a truthy bien id |
| LoaderProps.LoggedBienUnique | db/populate_db.py:315-316 | a bien id is written under one location only |
| LoaderProps.RowStepKeeps | db/populate_db.py:226-358 | one row, caught or not, keeps the caches consistent with the database and the statements issued |
| LoaderProps.StepInv | db/populate_db.py:226-363 | one loop iteration, including the batch commit test, keeps the loader invariant |
| LoaderProps.StepCounts | db/insert_data.py:154-161 | one iteration keeps the counts: every finished row is inserted or skipped; `insert_main_data` has committed exactly at each multiple of 10000 inserted rows, the bulk script at every such multiple and only at multiples |
| LoaderProps.ApplyDedup | db/populate_db.py:262-285 | with a key-consistent cache, every row resolved so far is still resolved under its location key, and the table grows only on a miss |
| LoaderProps.ApplyLastWins | db/insert_data.py:94-96 | as written, the cache entry for a serialized key is the id of the last row that inserted under it |
| LoaderProps.RunInv | db/populate_db.py:225-363 | the whole loop keeps the loader invariant |
| LoaderProps.RunCounts | db/insert_data.py:154-161 | the whole loop keeps the counts and the batch commits described for `StepCounts` |
| LoaderProps.RunResults | db/populate_db.py:225-363 | after the loop, each row that got a bien has it logged under its location, rows with equal location keys share a location (as written: ids only grow and the last row wins), and one location was added per cached key |
| LoaderFacts.LoadFacts | db/insert_data.py:19-176 | a whole call keeps the invariant, the counters and the per-row resolution facts |
| LoaderFacts.LoadEndsCommitted | db/populate_db.py:365-373 | the call ends with the database equal to its last committed snapshot |
| LoaderFacts.RunHaltsOnlyOnCommit | db/populate_db.py:355-362 | the loop only stops early when a batch commit raised |
| LoaderFacts.NoCommitFailureCompletes | db/insert_data.py:154-165 | without a failing commit, every row is counted once as inserted or skipped, and the work is committed |
| LoaderFacts.CommitsAtMultiples | db/insert_data.py:160-161 | `insert_main_data` commits at exactly the multiples of 10000 successful rows; the bulk script at each multiple, and after a caught row at that count too |
| LoaderFacts.FailedRowCommitTest | db/populate_db.py:355-362 | a caught row is skipped; `insert_main_data` skips the commit test after it, while the bulk script can commit after it |
| LoaderFacts.RollbackRestoresSnapshot | db/populate_db.py:370-373 | a commit that raises rolls back to the last committed state and ends the loop |
| LoaderFacts.MutationWrittenOnce | db/populate_db.py:235-248 | a mutation id is written at most once per run and never empty, a link never carries an empty mutation id, and unless the run was rolled back every written id is in the table at the end |
| LoaderFacts.NullIdWritesNoMutation | db/populate_db.py:234-235 | a row without an id writes no mutation and no link |
| LoaderFacts.BienFailureKeepsEarlierWork | db/insert_data.py:155-158 | a bien insert that raises keeps the mutation and location work already done in that row |
| LoaderFacts.LotStageAppendsLots | db/populate_db.py:333-353 | the lot loop only appends lot statements for the row's bien, each with a number |
| LoaderFacts.LotsOnlyForResolvedBien | db/populate_db.py:334 | lots are written only by the bulk script and only for the row's resolved bien |
| LoaderFacts.SameKeySameLocation | db/populate_db.py:262-285 | outside `insert_main_data` as written, two rows with the same location key get the same location id, and a run that was not rolled back adds one location per cached key |
| LoaderFacts.AsWrittenNeverShares | db/insert_data.py:75 | as written, no two rows share a location id and no tuple key is ever cached |
| LoaderFacts.AsWrittenLastWins | db/insert_data.py:96 | as written, the last row with a given serialized key has its id cached under it |
| LoaderFacts.DuplicateRowsExample | db/insert_data.py:75 | two identical rows create two locations as written, and one with the corrected test |
| LoaderFacts.CorrectedCacheHoldsSharedId | db/insert_data.py:96-98 | with the corrected test, every resolved row's id is cached under its serialized key |
| LoaderFacts.DistinctLocationsDistinctBiens | db/insert_data.py:117-121 | rows at different locations never share a bien |
| LoaderFacts.EmptyInputWritesNothing | db/insert_data.py:24-26 | an empty frame writes nothing and returns empty caches |
| Lots.Persist | db/insert_data.py:203-209 | the saved cache holds exactly the serialized keys, with their ids |
| Lots.Hit | db/insert_lots.py:60-62 | a lookup succeeds exactly when the key is present with a non-zero id |
| Lots.ResolveFinds | db/insert_lots.py:54-82 | a row finds bien `b` exactly when its location key and the bien key built with that location are both cached with non-zero ids |
| Lots.SlotsIndependent | db/insert_lots.py:84-104 | a slot that raises skips only itself; the other slots with a number still go through |
| Lots.SlotUpserts | db/insert_lots.py:92-101 | a successful slot leaves exactly one lot for (bien, number), carrying the slot's surface |
| Lots.LotsEarlyReturn | db/insert_lots.py:36-41 | no rows or an empty cache means nothing is issued |
| Lots.NoBienNoLots | db/insert_lots.py:62-108 | a row whose bien is not found writes no lot but is still counted |
| Lots.LotsStepKeeps | db/insert_lots.py:52-112 | one row keeps the lot invariant: consistent tables, unique lots, counters, and commits at multiples of 10000 |
| Lots.LotsRunKeeps | db/insert_lots.py:52-112 | the whole row loop keeps the lot invariant |
| Lots.InsertLotsSound | db/insert_lots.py:31-120 | the pass ends committed, with unique lots, one commit per 10000 rows and one statement per lot counted |
| Lots.CrossRunFindsBien | db/insert_lots.py:54-82 | with the corrected first pass, the lot pass finds the same bien the first pass gave each row |
| SqliteLoader.SMutation | tests/populate_db_sqlite.py:219-231 | a mutation statement runs only for an id not yet in the cache, which is then cached |
| SqliteLoader.SLoc | tests/populate_db_sqlite.py:233-265 | a location row is inserted exactly on a cache miss; a hit reads the cached id |
| SqliteLoader.SBien | tests/populate_db_sqlite.py:267-294 | a bien row is inserted exactly on a cache miss, with the row's location; a hit reads the cached id |
| SqliteLoader.SLink | tests/populate_db_sqlite.py:296-306 | a link is written only for a truthy bien id and a truthy mutation id |
| SqliteLoader.SLotSlot | tests/populate_db_sqlite.py:309-324 | a lot is inserted only when it has both a number and a non-zero surface |
| SqliteFacts.SRowKeeps | tests/populate_db_sqlite.py:215-324 | a completed row keeps the tables consistent, only extends the caches, and is resolved in them |
| SqliteFacts.CachedRowAddsNoLocOrBien | tests/populate_db_sqlite.py:243-294 | a row whose keys are both cached adds no location or bien and gets the cached ids |
| SqliteFacts.SeenIdWritesNoMutation | tests/populate_db_sqlite.py:220 | a row whose id was seen writes no mutation |
| SqliteFacts.SRunInv | tests/populate_db_sqlite.py:215-331 | the loop keeps the tables consistent, one result per inserted row and a commit at each multiple of 1000 of them; a loop still running has inserted every row |
| SqliteFacts.SRunResolved | tests/populate_db_sqlite.py:233-294 | after the loop, every completed row's location and bien are cached under its keys |
| SqliteFacts.SLotsAppends | tests/populate_db_sqlite.py:309-324 | the lot loop only appends lot statements for the row's bien |
| SqliteFacts.SRunStopsAtFailure | tests/populate_db_sqlite.py:336-338 | once a row fails, later rows change nothing |
| SqliteFacts.SLoadFacts | tests/populate_db_sqlite.py:185-341 | the run completes exactly when the frame is non-empty and has a date column and no statement or commit failed; an empty frame raises before writing |
| SqliteFacts.RowFailureStopsLoad | tests/populate_db_sqlite.py:336-341 | a failing row ends the run with the last committed state and the counters reached before it |
| SqliteFacts.SameSqliteKeySameLocation | tests/populate_db_sqlite.py:243-265 | rows with the same six-field location key get the same location id |
| SqliteFacts.AddressIgnoredSameLocation | tests/populate_db_sqlite.py:234-241 | rows that differ only in their address share one location |
| SqliteFacts.SameBienKeySameBien | tests/populate_db_sqlite.py:277-294 | rows with the same bien key get the same bien |
| SqliteDims.FirstBienIsFirst | tests/populate_db_sqlite.py:277 | the first row with a bien key is the one that created it |
| SqliteDims.SRunDims | tests/populate_db_sqlite.py:243-294 | while the loop runs there is one new location per cached location key, one new bien per cached bien key, and each cached bien sits at the location of the first row with its key |
| SqliteDims.BienKeepsFirstLocation | tests/populate_db_sqlite.py:268-294 | a completed run gives every row the bien of the first row with its key, at that first row's location, even when the later row is elsewhere |

## Left out

- Reading and writing files is left out. That covers CSV parsing, parquet, the JSON cache files, printing and the `main` functions (db/clean_dvfFiles.py:132-162, db/insert_data.py:179-213, db/insert_lots.py:126-153). A CSV file is a given table, or `None` when reading it raises, and `Lots.Persist` is the JSON image of a cache.
- `create_db_connection` and a missing connection (tests/populate_db_sqlite.py:192-194, db/populate_db.py:205-208) are left out. The model assumes a connection; db/data_utils.py is not part of this model.
- The DDL of `create_tables` is left out. `Store.Db` holds its keys and foreign keys as data.
- Database failures are an oracle of failing operations per row and a flag for the final commit. The model does not decide when MySQL or SQLite raise.
- MySQL auto-increment gaps are left out. Ids are 1-based positions in the table, so an insert that raised or was rolled back leaves no gap.
- Floats are exact decimals. `float()` is modelled on fixed-point text with an optional sign and ASCII digits. Exponents, `inf`, `nan` as text, underscores, non-ASCII decimal digits (which `float()` and `int()` accept) and binary rounding are left out.
- Numbers.ShowDecimal: prints every number in fixed notation, while Python's `str(float)` switches to exponent form below 1e-4 and from 1e16 (`str(1e16)` is `"1e+16"`). It also prints a negative zero as `0.0`, where `str(float("-0"))` is `"-0.0"`, since a decimal has no signed zero. Both only change the text of a serialized key, which both loader passes build the same way.
- `pd.to_datetime` is modelled only on the two layouts the code dispatches on: exactly `YYYY-MM-DD`, and `%d/%m/%Y` with the fields `strptime` matches (a day of one or two digits or a space and a non-zero digit, a month of one or two digits, a four-digit year). Other layouts pandas accepts after a `-` (a time part, for instance) give no date in the model.
- NaN and `None` are one `Null` value, equal to itself. In Python, two NaN floats in a tuple key compare unequal unless they are the same object, so a cache lookup on a key with a missing field can miss where the model hits. That covers a missing coordinate in the MySQL location keys, and a missing parcel, type or surface in the bulk script's bien key, which keeps the raw NaN (db/populate_db.py:292-294).
- Keys.Serialize: `str(None)` is "None" in the source, but the model prints every `Null` as "nan", the text of a missing float. Both passes serialize the same way, so lookups agree; only a text field holding "None" or "nan" literally is told apart differently.
- The final `pd.to_datetime(..., errors='coerce')` on the concatenated frame (db/clean_dvfFiles.py:126-127) is left out. After the date filter it only re-types timestamps.
- Text.Lower: lowers the ASCII and Latin-1 capitals only. Python's `str.lower` also lowers capitals of other scripts, and a few of them into two characters (`"İ".lower()` has length 2), so a header with such letters normalizes differently.
- Cleaner.ProcessFile: a file whose column names collide after normalization is modelled as raising, because a row is a map from names to cells and cannot hold two columns of one name. The source raises inside the per-file try only when the collision is on a column it cleans (a numeric column, the room count or the date), where `df[col]` is a frame that `clean_numeric`, `pd.to_numeric` or `convert_date_string_to_datetime` cannot take. A collision on any other column keeps the file, with duplicated columns.
- Cleaner.ProcessFolder: the model's concatenation never raises. In the source, `pd.concat` at db/clean_dvfFiles.py:121 (db/populate_db.py:193) is outside the per-file try, so frames kept with duplicated column names can make the whole call raise.
- Keys.LocKey: its contract states only that the key has nine fields. Which columns they are, and that the bien key ends with the location id, is read off the key functions and used by `Keys.DistinctLocationsDistinctKeys` and `Keys.SerializedLoc`.
- Loader.LotStage: its own contract says only that it changes nothing but the lot table. What it appends is stated by `LoaderFacts.LotStageAppendsLots`.
- Loader.Step: its own contract says only that a halted loop stays halted. What a step does is stated by the `LoaderProps` and `LoaderFacts` lemmas.
- db/requests.py, main.py, test.py and tests/data_utils_prev.py are not part of this model.

## Findings

| source | as written | input that shows it | evidently intended | confidence | as-written member | corrected member |
|---|---|---|---|---|---|---|
| db/insert_data.py:75 | the location membership test looks up the tuple key, but the cache is written and read under the `"|"`-joined string (lines 96 and 98), so the test never hits | two identical rows | rows with equal location keys share one LOCALISATION id, as in db/populate_db.py:262 | not executed | LoaderFacts.AsWrittenNeverShares | LoaderFacts.SameKeySameLocation |

`LoaderFacts.DuplicateRowsExample` works the two-row input through both
policies: as written it creates two locations, and with the corrected test
it creates one. The lot pass is proved against the corrected first pass
(`Lots.CrossRunFindsBien`).

=== FILE: cleaner.dfy ===
// `process_csv_files` in its three versions: each file of the folder is read,
// its column names are normalized, the numeric, room-count and date columns
// are converted, rows without a valid date are dropped, a failing file is
// skipped, and the surviving rows of all files are concatenated.

module Cleaner {
  import opened Wrappers
  import opened Text
  import opened Dates
  import opened Values

  /** The three scripts that carry a copy of the cleaner. */
  datatype Script = PopulateDb | CleanDvf | SqliteTest

  /** A file as the CSV reader hands it over: a header and the records under it. */
  datatype Table = Table(header: seq<string>, records: seq<seq<Value>>)

  /** A directory entry; `content` is `None` when reading the file raises. */
  datatype CsvFile = CsvFile(name: string, content: Option<Table>)

  datatype Folder = Missing | Listing(files: seq<CsvFile>)

  /** One file after cleaning: its rows and how many were dropped for lack of a date. */
  datatype Cleaned = Cleaned(rows: seq<Row>, removed: nat)

  const RoomsColumn := "nombre_pieces_principales"
  const DateColumn := "date_mutation"

  const BaseNumeric: seq<string> :=
    ["valeur_fonciere", "surface_reelle_bati", "surface_terrain", "longitude", "latitude"]

  const CarrezNumeric: seq<string> :=
    ["lot1_surface_carrez", "lot2_surface_carrez", "lot3_surface_carrez",
     "lot4_surface_carrez", "lot5_surface_carrez"]

  /** The columns `clean_numeric` is applied to; the standalone cleaner adds the lot surfaces. */
  function NumericColumns(s: Script): (cols: seq<string>)
    ensures Distinct(cols)
    ensures RoomsColumn !in cols && DateColumn !in cols
  {
    if s == CleanDvf then BaseNumeric + CarrezNumeric else BaseNumeric
  }

  predicate Distinct(cols: seq<string>) {
    forall i, j :: 0 <= i < j < |cols| ==> cols[i] != cols[j]
  }

  // ------------------------------------------------------------ column names

  /** `df.columns.str.strip().str.lower()` on one name. */
  function NormName(h: string): string {
    Lower(Strip(h))
  }

  lemma LowerKeepsSpaces(c: char)
    ensures IsSpace(LowerChar(c)) <==> IsSpace(c)
  {
  }

  lemma LowerCharIdempotent(c: char)
    ensures LowerChar(LowerChar(c)) == LowerChar(c)
  {
  }

  /** Lower-casing a string twice is lower-casing it once. */
  lemma LowerIdempotent(x: string)
    ensures Lower(Lower(x)) == Lower(x)
  {
    var y := Lower(x);
    forall i | 0 <= i < |y| ensures Lower(y)[i] == y[i] {
      LowerCharIdempotent(x[i]);
    }
  }

  /** Lower-casing keeps a string that starts and ends with a non-space its own strip. */
  lemma LowerStripped(x: string)
    requires x == [] || (!IsSpace(x[0]) && !IsSpace(x[|x| - 1]))
    ensures Strip(Lower(x)) == Lower(x)
  {
    var y := Lower(x);
    if y != [] {
      LowerKeepsSpaces(x[0]);
      LowerKeepsSpaces(x[|x| - 1]);
      StripNoop(y);
    } else {
      assert IsBlank(y);
    }
  }

  /** A normalized name is left alone by a second normalization. */
  lemma NormNameIdempotent(h: string)
    ensures NormName(NormName(h)) == NormName(h)
  {
    var x := Strip(h);
    LowerStripped(x);
    LowerIdempotent(x);
  }

  /** The column names a script looks up: normalized, except in the test suite. */
  function Columns(s: Script, header: seq<string>): (cols: seq<string>)
    ensures |cols| == |header|
    ensures s == SqliteTest ==> cols == header
    ensures s != SqliteTest ==> forall j :: 0 <= j < |cols| ==> cols[j] == NormName(header[j])
    ensures s != SqliteTest ==> forall j :: 0 <= j < |cols| ==> NormName(cols[j]) == cols[j]
  {
    var cols := if s == SqliteTest then header
      else seq(|header|, j requires 0 <= j < |header| => NormName(header[j]));
    assert s != SqliteTest ==> forall j :: 0 <= j < |cols| ==> NormName(cols[j]) == cols[j] by {
      if s != SqliteTest {
        forall j | 0 <= j < |cols| ensures NormName(cols[j]) == cols[j] {
          NormNameIdempotent(header[j]);
        }
      }
    }
    cols
  }

  /** The column names as a set: the keys every row of a file carries. */
  function ColumnSet(cols: seq<string>): set<string> {
    set c | c in cols
  }

  /** Every record has one cell per column. */
  predicate Rectangular(t: Table) {
    forall k :: 0 <= k < |t.records| ==> |t.records[k]| == |t.header|
  }

  /** One record as a row keyed by the column names. */
  function RowOf(cols: seq<string>, rec: seq<Value>): (r: Row)
    requires Distinct(cols) && |rec| == |cols|
    ensures r.Keys == ColumnSet(cols)
    ensures forall j :: 0 <= j < |cols| ==> r[cols[j]] == rec[j]
  {
    map j | 0 <= j < |cols| :: cols[j] := rec[j]
  }

  // --------------------------------------------------------------- columns

  /** `df[col] = df[col].apply(f)` for a column that may be absent from a row. */
  function MapColumn(rows: seq<Row>, col: string, f: Value -> Value): (r: seq<Row>)
    ensures |r| == |rows|
    ensures forall i :: 0 <= i < |r| ==> r[i].Keys == rows[i].Keys
    ensures forall i, c :: 0 <= i < |r| && c in rows[i] && c != col ==> r[i][c] == rows[i][c]
    ensures forall i :: 0 <= i < |r| && col in rows[i] ==> r[i][col] == f(rows[i][col])
  {
    seq(|rows|, i requires 0 <= i < |rows| =>
      if col in rows[i] then rows[i][col := f(rows[i][col])] else rows[i])
  }

  function CleanCell(v: Value): Value {
    NumberCell(CleanNumeric(v))
  }

  /** `clean_numeric` applied in turn to each listed column a row has. */
  function CleanNumerics(rows: seq<Row>, names: seq<string>): (r: seq<Row>)
    ensures |r| == |rows|
    ensures forall i :: 0 <= i < |r| ==> r[i].Keys == rows[i].Keys
    decreases |names|
  {
    if |names| == 0 then rows
    else CleanNumerics(MapColumn(rows, names[0], CleanCell), names[1..])
  }

  /** Each listed column holds its cleaned cell, and every other column is untouched. */
  lemma {:induction false} CleanNumericsCells(rows: seq<Row>, names: seq<string>, i: nat, c: string)
    requires Distinct(names)
    requires i < |rows| && c in rows[i]
    ensures c !in names ==> CleanNumerics(rows, names)[i][c] == rows[i][c]
    ensures c in names ==> CleanNumerics(rows, names)[i][c] == CleanCell(rows[i][c])
    decreases |names|
  {
    if |names| > 0 {
      var once := MapColumn(rows, names[0], CleanCell);
      var tail := names[1..];
      assert Distinct(tail);
      assert c == names[0] ==> c !in tail;
      assert c in names && c != names[0] ==> c in tail;
      CleanNumericsCells(once, tail, i, c);
    }
  }

  /** The room count of one cell after `to_numeric` and, outside the test suite, the Int64 cast. */
  function RoomsCell(s: Script, v: Value): Option<Value> {
    if s == SqliteTest then Some(ToNumeric(v)) else CastInt64(ToNumeric(v))
  }

  /** The room-count conversion over all rows; one failing cell fails the file. */
  function {:induction false} ConvertRooms(s: Script, rows: seq<Row>): (r: Option<seq<Row>>)
    ensures r.Some? ==> |r.value| == |rows|
    ensures r.Some? ==> forall i :: 0 <= i < |rows| ==> r.value[i].Keys == rows[i].Keys
    ensures r.Some? ==> forall i, c :: 0 <= i < |rows| && c in rows[i] && c != RoomsColumn ==> r.value[i][c] == rows[i][c]
    ensures r.None? <==> exists i :: 0 <= i < |rows| && RoomsColumn in rows[i] && RoomsCell(s, rows[i][RoomsColumn]).None?
    decreases |rows|
  {
    if |rows| == 0 then Some([])
    else
      var n := |rows| - 1;
      var last := rows[n];
      var front := ConvertRooms(s, rows[..n]);
      var cell := if RoomsColumn in last then RoomsCell(s, last[RoomsColumn]) else Some(Null);
      if front.None? || cell.None? then
        assert front.None? ==> exists i :: 0 <= i < n && RoomsColumn in rows[..n][i] && RoomsCell(s, rows[..n][i][RoomsColumn]).None?;
        None
      else
        var row := if RoomsColumn in last then last[RoomsColumn := cell.value] else last;
        assert forall i :: 0 <= i < n ==> rows[..n][i] == rows[i];
        Some(front.value + [row])
  }

  /** The date conversion each script applies to `date_mutation`. */
  function DateCellOf(s: Script, v: Value): Value {
    DateCell(if s == SqliteTest then SqliteConvertDate(v) else ConvertDate(v))
  }

  /** The columns the test suite indexes directly; an absent one raises `KeyError`. */
  predicate HasRequired(s: Script, cols: seq<string>) {
    s != SqliteTest || ((forall c :: c in NumericColumns(s) ==> c in cols) && RoomsColumn in cols && DateColumn in cols)
  }

  /**
   * The per-cell conversions, before any row is dropped: `None` when the
   * file raises (a room count with a fractional part, or a column the test
   * suite requires is absent).
   */
  function Convert(s: Script, cols: seq<string>, rows: seq<Row>): (r: Option<seq<Row>>)
    ensures r.Some? ==> |r.value| == |rows|
    ensures r.Some? ==> forall i :: 0 <= i < |rows| ==> r.value[i].Keys == rows[i].Keys
  {
    if !HasRequired(s, cols) then None
    else
      var numeric := CleanNumerics(rows, NumericColumns(s));
      match ConvertRooms(s, numeric)
      case None => None
      case Some(rooms) =>
        Some(if DateColumn in cols then MapColumn(rooms, DateColumn, v => DateCellOf(s, v)) else rooms)
  }

  /** Whether `df.dropna(subset=['date_mutation'])` keeps a row. */
  predicate Dated(r: Row) {
    Get(r, DateColumn).Stamp?
  }

  /** The rows with a date, in their original order. */
  function KeepDated(rows: seq<Row>): (r: seq<Row>)
    ensures |r| <= |rows|
    ensures forall i :: 0 <= i < |r| ==> Dated(r[i])
    ensures forall x :: x in r <==> x in rows && Dated(x)
  {
    if |rows| == 0 then []
    else
      var n := |rows| - 1;
      assert rows == rows[..n] + [rows[n]];
      KeepDated(rows[..n]) + (if Dated(rows[n]) then [rows[n]] else [])
  }

  /** Filtering distributes over concatenation, so relative order is kept. */
  lemma {:induction false} KeepDatedAppend(a: seq<Row>, b: seq<Row>)
    ensures KeepDated(a + b) == KeepDated(a) + KeepDated(b)
    decreases |b|
  {
    if |b| > 0 {
      var n := |b| - 1;
      assert (a + b)[..|a + b| - 1] == a + b[..n];
      KeepDatedAppend(a, b[..n]);
    } else {
      assert a + b == a;
    }
  }

  /** When every row has a date, nothing is dropped. */
  lemma {:induction false} KeepDatedAll(rows: seq<Row>)
    requires forall i :: 0 <= i < |rows| ==> Dated(rows[i])
    ensures KeepDated(rows) == rows
    decreases |rows|
  {
    if |rows| > 0 {
      var n := |rows| - 1;
      KeepDatedAll(rows[..n]);
      assert rows == rows[..n] + [rows[n]];
    }
  }

  // ------------------------------------------------------------------ files

  /** The records as rows keyed by the file's column names. */
  function RowsOf(cols: seq<string>, t: Table): (rows: seq<Row>)
    requires Distinct(cols) && Rectangular(t) && |cols| == |t.header|
    ensures |rows| == |t.records|
    ensures forall i :: 0 <= i < |rows| ==> rows[i].Keys == ColumnSet(cols)
  {
    seq(|t.records|, k requires 0 <= k < |t.records| => RowOf(cols, t.records[k]))
  }

  /** `dropna(subset=['date_mutation'])` when the column exists; no row is dropped otherwise. */
  function DropUndated(rows: seq<Row>, hasDate: bool): (r: Cleaned)
    ensures |r.rows| + r.removed == |rows|
    ensures hasDate ==> forall i :: 0 <= i < |r.rows| ==> Dated(r.rows[i])
    ensures !hasDate ==> r == Cleaned(rows, 0)
    ensures hasDate ==> r.rows == KeepDated(rows)
    ensures forall x :: x in r.rows ==> x in rows
  {
    if hasDate then
      var kept := KeepDated(rows);
      Cleaned(kept, |rows| - |kept|)
    else Cleaned(rows, 0)
  }

  lemma SameKeys(rows: seq<Row>, r: seq<Row>, keys: set<string>)
    requires forall i :: 0 <= i < |rows| ==> rows[i].Keys == keys
    requires forall x :: x in r ==> x in rows
    ensures forall i :: 0 <= i < |r| ==> r[i].Keys == keys
  {
    forall i | 0 <= i < |r| ensures r[i].Keys == keys {
      assert r[i] in rows;
    }
  }

  /** Reading, normalizing, converting and filtering one file; `None` when it
      raises. Column names that collide after normalization count as raising,
      since a row cannot hold two cells under one name. */
  function ProcessFile(s: Script, t: Table): (r: Option<Cleaned>)
    ensures r.Some? <==> ConvertedRows(s, t).Some?
    ensures r.Some? ==> |r.value.rows| + r.value.removed == |t.records|
    ensures r.Some? && DateColumn in Columns(s, t.header) ==> r.value.rows == KeepDated(ConvertedRows(s, t).value)
    ensures r.Some? && DateColumn in Columns(s, t.header) ==> forall i :: 0 <= i < |r.value.rows| ==> Dated(r.value.rows[i])
    ensures r.Some? && DateColumn !in Columns(s, t.header) ==> r.value.rows == ConvertedRows(s, t).value && r.value.removed == 0
  {
    var cols := Columns(s, t.header);
    match ConvertedRows(s, t)
    case None => None
    case Some(c) =>
      Some(DropUndated(c, DateColumn in cols))
  }

  /** The file's records as rows after the numeric, room and date conversions; `None` when that raises. */
  function ConvertedRows(s: Script, t: Table): (r: Option<seq<Row>>)
    ensures r.Some? ==> |r.value| == |t.records|
  {
    var cols := Columns(s, t.header);
    if !Distinct(cols) || !Rectangular(t) then None
    else Convert(s, cols, RowsOf(cols, t))
  }

  /** Every row of a cleaned file carries exactly the file's column names, and outside the test suite those are stripped and lower-cased. */
  lemma ProcessedColumns(s: Script, t: Table)
    requires ProcessFile(s, t).Some?
    ensures forall i :: 0 <= i < |ProcessFile(s, t).value.rows| ==>
      ProcessFile(s, t).value.rows[i].Keys == ColumnSet(Columns(s, t.header))
    ensures s != SqliteTest ==> forall i, k :: 0 <= i < |ProcessFile(s, t).value.rows| && k in ProcessFile(s, t).value.rows[i] ==>
      NormName(k) == k
  {
    var cols := Columns(s, t.header);
    var c := Convert(s, cols, RowsOf(cols, t)).value;
    var out := DropUndated(c, DateColumn in cols);
    assert out == ProcessFile(s, t).value;
    ConvertedKeys(s, cols, t);
    SameKeys(c, out.rows, ColumnSet(cols));
    if s != SqliteTest {
      NormalizedColumnSet(s, t.header);
    }
  }

  /** Converting the rows of a file keeps each row's keys: the file's column names. */
  lemma ConvertedKeys(s: Script, cols: seq<string>, t: Table)
    requires Distinct(cols) && Rectangular(t) && |cols| == |t.header|
    requires Convert(s, cols, RowsOf(cols, t)).Some?
    ensures forall i :: 0 <= i < |Convert(s, cols, RowsOf(cols, t)).value| ==>
      Convert(s, cols, RowsOf(cols, t)).value[i].Keys == ColumnSet(cols)
  {
  }

  /** Outside the test suite every column name is already normalized. */
  lemma NormalizedColumnSet(s: Script, header: seq<string>)
    requires s != SqliteTest
    ensures forall k :: k in ColumnSet(Columns(s, header)) ==> NormName(k) == k
  {
    var cols := Columns(s, header);
    forall k | k in ColumnSet(cols) ensures NormName(k) == k {
      var j :| 0 <= j < |cols| && cols[j] == k;
    }
  }

  /** Outside the test suite, an absent column is skipped without error: only a fractional room count fails a well-formed file. */
  lemma OnlyRoomsFail(s: Script, cols: seq<string>, rows: seq<Row>)
    requires s != SqliteTest
    ensures Convert(s, cols, rows).None? <==>
      exists i :: 0 <= i < |rows| && RoomsColumn in rows[i] && RoomsCell(s, rows[i][RoomsColumn]).None?
  {
    var numeric := CleanNumerics(rows, NumericColumns(s));
    RoomsUntouched(s, rows);
    assert Convert(s, cols, rows).None? <==> ConvertRooms(s, numeric).None?;
    if ConvertRooms(s, numeric).None? {
      var i :| 0 <= i < |numeric| && RoomsColumn in numeric[i] && RoomsCell(s, numeric[i][RoomsColumn]).None?;
      assert RoomsColumn in rows[i] && RoomsCell(s, rows[i][RoomsColumn]).None?;
    } else {
      forall i | 0 <= i < |rows| && RoomsColumn in rows[i] ensures RoomsCell(s, rows[i][RoomsColumn]).Some? {
        assert RoomsColumn in numeric[i];
      }
    }
  }

  /** Cleaning the numeric columns leaves the room count of every row as it was. */
  lemma RoomsUntouched(s: Script, rows: seq<Row>)
    ensures |CleanNumerics(rows, NumericColumns(s))| == |rows|
    ensures forall i :: 0 <= i < |rows| ==>
      (RoomsColumn in CleanNumerics(rows, NumericColumns(s))[i] <==> RoomsColumn in rows[i])
    ensures forall i :: 0 <= i < |rows| && RoomsColumn in rows[i] ==>
      CleanNumerics(rows, NumericColumns(s))[i][RoomsColumn] == rows[i][RoomsColumn]
  {
    forall i | 0 <= i < |rows| && RoomsColumn in rows[i]
      ensures CleanNumerics(rows, NumericColumns(s))[i][RoomsColumn] == rows[i][RoomsColumn]
    {
      CleanNumericsCells(rows, NumericColumns(s), i, RoomsColumn);
    }
  }

  /** A listed numeric column a row has holds the cleaned value; every column outside the converted ones keeps its cell. */
  lemma ConvertedCells(s: Script, cols: seq<string>, rows: seq<Row>, i: nat, c: string)
    requires Convert(s, cols, rows).Some?
    requires i < |rows| && c in rows[i]
    ensures c in NumericColumns(s) ==> Convert(s, cols, rows).value[i][c] == CleanCell(rows[i][c])
    ensures c !in NumericColumns(s) && c != RoomsColumn && c != DateColumn ==> Convert(s, cols, rows).value[i][c] == rows[i][c]
  {
    CleanNumericsCells(rows, NumericColumns(s), i, c);
  }

  // ----------------------------------------------------------------- folder

  predicate IsCsv(f: CsvFile) {
    EndsWith(f.name, ".csv")
  }

  /** `[f for f in os.listdir(folder) if f.endswith('.csv')]`. */
  function CsvOnly(files: seq<CsvFile>): (r: seq<CsvFile>)
    ensures forall f :: f in r <==> f in files && IsCsv(f)
  {
    if |files| == 0 then []
    else
      var n := |files| - 1;
      assert files == files[..n] + [files[n]];
      CsvOnly(files[..n]) + (if IsCsv(files[n]) then [files[n]] else [])
  }

  /** The rows one file contributes: none when reading or cleaning it raises. */
  function FileRows(s: Script, f: CsvFile): seq<Row> {
    match f.content
    case None => []
    case Some(t) =>
      match ProcessFile(s, t)
      case None => []
      case Some(c) => c.rows
  }

  predicate Fails(s: Script, f: CsvFile) {
    f.content.None? || ProcessFile(s, f.content.value).None?
  }

  function Flatten(parts: seq<seq<Row>>): seq<Row> {
    if |parts| == 0 then [] else Flatten(parts[..|parts| - 1]) + parts[|parts| - 1]
  }

  lemma {:induction false} FlattenAppend(a: seq<seq<Row>>, b: seq<seq<Row>>)
    ensures Flatten(a + b) == Flatten(a) + Flatten(b)
    decreases |b|
  {
    if |b| == 0 {
      assert a + b == a;
    } else {
      var n := |b| - 1;
      assert (a + b)[..|a + b| - 1] == a + b[..n];
      assert (a + b)[|a + b| - 1] == b[n];
      FlattenAppend(a, b[..n]);
    }
  }

  /** What each file contributes, in listing order. */
  function Contributions(s: Script, files: seq<CsvFile>): (r: seq<seq<Row>>)
    ensures |r| == |files|
    ensures forall i :: 0 <= i < |files| ==> r[i] == FileRows(s, files[i])
  {
    seq(|files|, i requires 0 <= i < |files| => FileRows(s, files[i]))
  }

  /** The loop over files with `pd.concat` at the end. */
  function Gather(s: Script, files: seq<CsvFile>): seq<Row> {
    Flatten(Contributions(s, files))
  }

  /**
   * `process_csv_files(folder)`: `None` when the call raises, which in this
   * model only the test suite's copy does, on a missing folder; the final
   * concatenation is taken never to raise.
   */
  function ProcessFolder(s: Script, folder: Folder): (r: Option<seq<Row>>)
    ensures r.None? <==> s == SqliteTest && folder.Missing?
    ensures folder.Missing? && s != SqliteTest ==> r == Some([])
  {
    match folder
    case Missing => if s == SqliteTest then None else Some([])
    case Listing(files) => Some(Gather(s, CsvOnly(files)))
  }

  lemma ContributionsAppend(s: Script, a: seq<CsvFile>, b: seq<CsvFile>)
    ensures Contributions(s, a + b) == Contributions(s, a) + Contributions(s, b)
  {
    var ca, cb, cab := Contributions(s, a), Contributions(s, b), Contributions(s, a + b);
    forall i | 0 <= i < |cab| ensures cab[i] == (ca + cb)[i] {
      if i < |a| {
        assert (a + b)[i] == a[i];
      } else {
        assert (a + b)[i] == b[i - |a|];
      }
    }
  }

  lemma GatherAppend(s: Script, a: seq<CsvFile>, b: seq<CsvFile>)
    ensures Gather(s, a + b) == Gather(s, a) + Gather(s, b)
  {
    ContributionsAppend(s, a, b);
    FlattenAppend(Contributions(s, a), Contributions(s, b));
  }

  lemma {:induction false} CsvOnlyAppend(a: seq<CsvFile>, b: seq<CsvFile>)
    ensures CsvOnly(a + b) == CsvOnly(a) + CsvOnly(b)
    decreases |b|
  {
    if |b| == 0 {
      assert a + b == a;
    } else {
      var n := |b| - 1;
      assert (a + b)[..|a + b| - 1] == a + b[..n];
      CsvOnlyAppend(a, b[..n]);
    }
  }

  lemma CsvOnlySingle(f: CsvFile)
    ensures CsvOnly([f]) == if IsCsv(f) then [f] else []
  {
    assert [f][..0] == [];
  }

  lemma SkipInListing(before: seq<CsvFile>, f: CsvFile, after: seq<CsvFile>)
    ensures CsvOnly(before + [f] + after) == CsvOnly(before) + CsvOnly([f]) + CsvOnly(after)
  {
    CsvOnlyAppend(before + [f], after);
    CsvOnlyAppend(before, [f]);
  }

  lemma GatherFailing(s: Script, f: CsvFile)
    requires Fails(s, f)
    ensures Gather(s, [f]) == []
  {
    assert Contributions(s, [f]) == [[]];
    assert Flatten([[]]) == Flatten([]) + [];
  }

  /** A failing file, kept or not by the name filter, gathers nothing. */
  lemma FailingCsvGathersNothing(s: Script, f: CsvFile)
    requires Fails(s, f)
    ensures Gather(s, CsvOnly([f])) == []
  {
    CsvOnlySingle(f);
    if IsCsv(f) {
      GatherFailing(s, f);
    } else {
      assert Contributions(s, []) == [];
    }
  }

  lemma FlattenDropsEmpty(a: seq<seq<Row>>, b: seq<seq<Row>>, c: seq<seq<Row>>)
    requires Flatten(b) == []
    ensures Flatten(a + b + c) == Flatten(a + c)
  {
    FlattenAppend(a + b, c);
    FlattenAppend(a, b);
    FlattenAppend(a, c);
  }

  /** A middle part that gathers nothing can be dropped. */
  lemma GatherDropsEmpty(s: Script, x: seq<CsvFile>, y: seq<CsvFile>, z: seq<CsvFile>)
    requires Gather(s, y) == []
    ensures Gather(s, x + y + z) == Gather(s, x + z)
  {
    ContributionsAppend(s, x + y, z);
    ContributionsAppend(s, x, y);
    ContributionsAppend(s, x, z);
    FlattenDropsEmpty(Contributions(s, x), Contributions(s, y), Contributions(s, z));
  }

  /** A file that raises contributes no rows, and the files after it are still read. */
  lemma FailingFileSkipped(s: Script, before: seq<CsvFile>, f: CsvFile, after: seq<CsvFile>)
    requires Fails(s, f)
    ensures ProcessFolder(s, Listing(before + [f] + after)) == ProcessFolder(s, Listing(before + after))
  {
    FailingCsvGathersNothing(s, f);
    GatherDropsEmpty(s, CsvOnly(before), CsvOnly([f]), CsvOnly(after));
    SkipInListing(before, f, after);
    CsvOnlyAppend(before, after);
  }

  /** A file not named `*.csv` is never read. */
  lemma OtherFilesIgnored(s: Script, before: seq<CsvFile>, f: CsvFile, after: seq<CsvFile>)
    requires !IsCsv(f)
    ensures ProcessFolder(s, Listing(before + [f] + after)) == ProcessFolder(s, Listing(before + after))
  {
    SkipInListing(before, f, after);
    CsvOnlyAppend(before, after);
    CsvOnlySingle(f);
    assert CsvOnly(before) + [] + CsvOnly(after) == CsvOnly(before) + CsvOnly(after);
  }

  /** With no file that loads, the result is empty. */
  lemma {:induction false} NothingLoads(s: Script, files: seq<CsvFile>)
    requires forall f :: f in files ==> Fails(s, f)
    ensures Gather(s, files) == []
    decreases |files|
  {
    if |files| > 0 {
      var n := |files| - 1;
      assert files == files[..n] + [files[n]];
      assert files[n] in files;
      assert forall f :: f in files[..n] ==> f in files;
      NothingLoads(s, files[..n]);
      GatherAppend(s, files[..n], [files[n]]);
      GatherFailing(s, files[n]);
    }
  }
}

=== FILE: dates.dfy ===
// Calendar dates as the loaders see them after `convert_date`: a validated
// (year, month, day) triple inside the range pandas timestamps can hold.
// Only the two layouts the scripts dispatch on are parsed: the extended
// calendar date YYYY-MM-DD of section 4.1.2.2 of ISO 8601:2004, and the
// day/month/year layout `%d/%m/%Y`.

module Dates {
  import opened Wrappers
  import opened Text

  datatype Date = Date(year: int, month: int, day: int)

  /** Gregorian leap years. */
  predicate Leap(y: int) {
    (y % 4 == 0 && y % 100 != 0) || y % 400 == 0
  }

  function DaysIn(y: int, m: int): int {
    if m == 2 then (if Leap(y) then 29 else 28)
    else if m == 4 || m == 6 || m == 9 || m == 11 then 30
    else 31
  }

  predicate Valid(d: Date) {
    1 <= d.month <= 12 && 1 <= d.day <= DaysIn(d.year, d.month)
  }

  /** Lexicographic order on (year, month, day). */
  predicate NotAfter(a: Date, b: Date) {
    a.year < b.year
    || (a.year == b.year && (a.month < b.month || (a.month == b.month && a.day <= b.day)))
  }

  /** The span of a nanosecond `Timestamp`: 1677-09-22 to 2262-04-11. */
  const Earliest := Date(1677, 9, 22)
  const Latest := Date(2262, 4, 11)

  predicate InRange(d: Date) {
    NotAfter(Earliest, d) && NotAfter(d, Latest)
  }

  /** A date a conversion may return. */
  predicate Representable(d: Date) {
    Valid(d) && InRange(d)
  }

  function Checked(d: Date): (r: Option<Date>)
    ensures r.Some? <==> Representable(d)
    ensures r.Some? ==> r.value == d
  {
    if Representable(d) then Some(d) else None
  }

  // ------------------------------------------------------------ fixed width

  /** `n` written with exactly `k` digits, zero-padded on the left. */
  function Fixed(n: nat, k: nat): (t: string)
    requires k >= 1 && n < Pow10(k)
    ensures AllDigits(t) && |t| == k
    ensures ValueOf(t) == n
  {
    DigitsOfLength(n, k);
    PadLeftValue(DigitsOf(n), k);
    PadLeft(DigitsOf(n), k)
  }

  lemma {:induction false} ValueBelow(t: string)
    requires AllDigits(t)
    ensures ValueOf(t) < Pow10(|t|)
    decreases |t|
  {
    if |t| > 0 {
      ValueBelow(t[..|t| - 1]);
    }
  }

  /** Two digit strings of the same width and value are the same string. */
  lemma {:induction false} SameDigits(a: string, b: string)
    requires AllDigits(a) && AllDigits(b) && |a| == |b|
    requires ValueOf(a) == ValueOf(b)
    ensures a == b
    decreases |a|
  {
    if |a| > 0 {
      var n := |a| - 1;
      var va, vb := ValueOf(a[..n]), ValueOf(b[..n]);
      var da, db := DigitVal(a[n]), DigitVal(b[n]);
      assert 10 * va + da == 10 * vb + db;
      assert da == db && va == vb;
      SameDigits(a[..n], b[..n]);
      assert a == a[..n] + [a[n]] && b == b[..n] + [b[n]];
    }
  }

  lemma FixedOfValue(t: string)
    requires AllDigits(t) && |t| >= 1
    ensures ValueOf(t) < Pow10(|t|)
    ensures Fixed(ValueOf(t), |t|) == t
  {
    ValueBelow(t);
    SameDigits(Fixed(ValueOf(t), |t|), t);
  }

  // ------------------------------------------------------------------- ISO

  /** YYYY-MM-DD, exactly as section 4.1.2.2 of ISO 8601:2004 lays it out. */
  function ParseIso(s: string): (r: Option<Date>)
    ensures r.Some? ==> Representable(r.value)
  {
    if |s| == 10 && s[4] == '-' && s[7] == '-'
       && AllDigits(s[..4]) && AllDigits(s[5..7]) && AllDigits(s[8..])
    then Checked(Date(ValueOf(s[..4]), ValueOf(s[5..7]), ValueOf(s[8..])))
    else None
  }

  predicate Printable(d: Date) {
    0 <= d.year < 10000 && 0 <= d.month < 100 && 0 <= d.day < 100
  }

  /** `strftime('%Y-%m-%d')`. */
  function IsoText(d: Date): (t: string)
    requires Printable(d)
    ensures |t| == 10 && t[4] == '-' && t[7] == '-'
  {
    Fixed(d.year, 4) + "-" + Fixed(d.month, 2) + "-" + Fixed(d.day, 2)
  }

  lemma IsoTextParts(d: Date)
    requires Printable(d)
    ensures IsoText(d)[..4] == Fixed(d.year, 4)
    ensures IsoText(d)[5..7] == Fixed(d.month, 2)
    ensures IsoText(d)[8..] == Fixed(d.day, 2)
  {
  }

  /** Printing then parsing gives the date back. */
  lemma IsoRoundTrip(d: Date)
    requires Representable(d)
    ensures ParseIso(IsoText(d)) == Some(d)
  {
    IsoTextParts(d);
  }

  /** A string the ISO branch accepts is the printed form of what it returns. */
  lemma IsoCanonical(s: string)
    requires ParseIso(s).Some?
    ensures s == IsoText(ParseIso(s).value)
  {
    var d := ParseIso(s).value;
    FixedOfValue(s[..4]);
    FixedOfValue(s[5..7]);
    FixedOfValue(s[8..]);
    IsoTextParts(d);
    var t := IsoText(d);
    assert s == s[..4] + [s[4]] + s[5..7] + [s[7]] + s[8..];
    assert t == t[..4] + [t[4]] + t[5..7] + [t[7]] + t[8..];
  }

  /** The ISO branch only ever accepts digits and dashes. */
  lemma IsoAlphabet(s: string)
    requires ParseIso(s).Some?
    ensures '/' !in s
  {
    assert forall i :: 0 <= i < 4 ==> s[i] == s[..4][i];
    assert forall i :: 5 <= i < 7 ==> s[i] == s[5..7][i - 5];
    assert forall i :: 8 <= i < 10 ==> s[i] == s[8..][i - 8];
  }

  // ----------------------------------------------------------- day/month/year

  /** A field of `%d` or `%m`: one or two digits. */
  predicate ShortField(t: string) {
    1 <= |t| <= 2 && AllDigits(t)
  }

  /** A field of `%d`, which alone also takes a space before a non-zero digit. */
  predicate DayField(t: string) {
    ShortField(t) || (|t| == 2 && t[0] == ' ' && '1' <= t[1] <= '9')
  }

  /** The day a `%d` field names; a leading space is padding. */
  function DayValue(t: string): (n: nat)
    requires DayField(t)
    ensures ShortField(t) ==> n == ValueOf(t)
    ensures !ShortField(t) ==> n == ValueOf(t[1..]) && 1 <= n <= 9
  {
    if t[0] == ' ' then ValueOf(t[1..]) else ValueOf(t)
  }

  /** Cuts `s` at its first '/': the text before it and the text after it. */
  function CutAtSlash(s: string): (r: Option<(string, string)>)
    ensures r.Some? ==> s == r.value.0 + "/" + r.value.1 && '/' !in r.value.0
    ensures r.None? <==> '/' !in s
  {
    var i := IndexOf(s, '/');
    if i == |s| then None
    else
      assert s == s[..i] + "/" + s[i + 1..];
      assert forall k :: 0 <= k < i ==> s[..i][k] == s[k];
      Some((s[..i], s[i + 1..]))
  }

  lemma CutAtSlashSplit(a: string, b: string)
    requires '/' !in a
    ensures CutAtSlash(a + "/" + b) == Some((a, b))
  {
    var s := a + "/" + b;
    assert s == a + ['/'] + b;
    IndexOfSplit(a, '/', b);
    assert s[..|a|] == a && s[|a| + 1..] == b;
  }

  /**
   * `%d/%m/%Y`: a one- or two-digit day (or a space and a digit), a one- or
   * two-digit month and a four-digit year.
   */
  function ParseDmy(s: string): (r: Option<Date>)
    ensures r.Some? ==> Representable(r.value)
  {
    match CutAtSlash(s)
    case None => None
    case Some((dd, rest)) =>
      match CutAtSlash(rest)
      case None => None
      case Some((mm, yy)) =>
        if DayField(dd) && ShortField(mm) && |yy| == 4 && AllDigits(yy)
        then Checked(Date(ValueOf(yy), ValueOf(mm), DayValue(dd)))
        else None
  }

  /** `strftime('%d/%m/%Y')`. */
  function DmyText(d: Date): (t: string)
    requires Printable(d)
    ensures |t| == 10 && t[2] == '/' && t[5] == '/'
  {
    Fixed(d.day, 2) + "/" + Fixed(d.month, 2) + "/" + Fixed(d.year, 4)
  }

  lemma DigitsHaveNoSlash(t: string)
    requires AllDigits(t)
    ensures '/' !in t && '-' !in t
  {
  }

  /** How the day/month/year branch reads three well-formed fields. */
  lemma DmyFields(a: string, b: string, c: string)
    requires ShortField(a) && ShortField(b) && |c| == 4 && AllDigits(c)
    ensures ParseDmy(a + "/" + b + "/" + c) == Checked(Date(ValueOf(c), ValueOf(b), ValueOf(a)))
  {
    DigitsHaveNoSlash(a);
    DigitsHaveNoSlash(b);
    assert a + "/" + b + "/" + c == a + "/" + (b + "/" + c);
    CutAtSlashSplit(a, b + "/" + c);
    CutAtSlashSplit(b, c);
  }

  /** A day padded with a space, as `strptime` allows, reads as the digit alone. */
  lemma DmyPaddedDay(c: char, b: string, y: string)
    requires '1' <= c <= '9' && ShortField(b) && |y| == 4 && AllDigits(y)
    ensures ParseDmy([' ', c] + "/" + b + "/" + y) == Checked(Date(ValueOf(y), ValueOf(b), ValueOf([c])))
  {
    var a := [' ', c];
    assert '/' !in a;
    assert a[1..] == [c];
    DigitsHaveNoSlash(b);
    assert a + "/" + b + "/" + y == a + "/" + (b + "/" + y);
    CutAtSlashSplit(a, b + "/" + y);
    CutAtSlashSplit(b, y);
  }

  lemma DmyRoundTrip(d: Date)
    requires Representable(d)
    ensures ParseDmy(DmyText(d)) == Some(d)
  {
    DmyFields(Fixed(d.day, 2), Fixed(d.month, 2), Fixed(d.year, 4));
  }

  lemma DmyHasNoDash(d: Date)
    requires Printable(d)
    ensures '-' !in DmyText(d) && '/' in DmyText(d)
  {
    var a, b, c := Fixed(d.day, 2), Fixed(d.month, 2), Fixed(d.year, 4);
    DigitsHaveNoSlash(a);
    DigitsHaveNoSlash(b);
    DigitsHaveNoSlash(c);
    assert DmyText(d)[2] == '/';
  }

  // ----------------------------------------------------------- dispatching

  /**
   * `convert_date` on a text cell: blank gives None; a '-' selects the ISO
   * branch even when a '/' is also present; otherwise a '/' selects the
   * day/month/year branch; anything else gives None. A parse error is
   * caught and gives None too, so the result is total.
   */
  function ConvertDateText(s: string): (r: Option<Date>)
    ensures IsBlank(s) ==> r.None?
    ensures r.Some? ==> Representable(r.value)
    ensures '-' !in s && '/' !in s ==> r.None?
  {
    if IsBlank(s) then None
    else if '-' in s then ParseIso(s)
    else if '/' in s then ParseDmy(s)
    else None
  }

  /** A cell mixing both separators is never a date: '-' wins, and the ISO branch rejects '/'. */
  lemma MixedSeparators(s: string)
    requires '-' in s && '/' in s
    ensures ConvertDateText(s).None?
  {
    if ParseIso(s).Some? {
      IsoAlphabet(s);
    }
  }

  /** Both layouts of the same day convert to that day. */
  lemma LayoutsAgree(d: Date)
    requires Representable(d)
    ensures ConvertDateText(IsoText(d)) == Some(d)
    ensures ConvertDateText(DmyText(d)) == Some(d)
  {
    var t := IsoText(d);
    assert t[4] == '-' && !IsSpace(t[4]);
    IsoRoundTrip(d);
    var u := DmyText(d);
    assert u[2] == '/' && !IsSpace(u[2]);
    DmyHasNoDash(d);
    DmyRoundTrip(d);
  }

  /** Every date the ISO branch accepts is accepted back from its own printout, and only from it. */
  lemma ConvertIsoExactly(s: string, d: Date)
    requires '-' in s
    ensures ConvertDateText(s) == Some(d) <==> Representable(d) && s == IsoText(d)
  {
    if ConvertDateText(s) == Some(d) {
      IsoCanonical(s);
    }
    if Representable(d) && s == IsoText(d) {
      LayoutsAgree(d);
    }
  }
}

=== FILE: keys.dfy ===
// The cache keys the loaders build for LOCALISATION and BIEN, and the
// `"|".join(map(str, key))` serialization that lets the keys be written to
// JSON and rebuilt by the lot pass.

module Keys {
  import opened Wrappers
  import opened Text
  import opened Numbers
  import opened Values

  /** A cache key: a Python tuple, or the string it was serialized to. */
  datatype CacheKey = TupleKey(fields: seq<Value>) | StrKey(text: string)

  const LocTextFields: seq<string> :=
    ["code_departement", "code_postal", "code_commune", "nom_commune",
     "adresse_numero", "adresse_suffixe", "adresse_nom_voie"]

  /**
   * The nine-field location key of the MySQL loaders: the seven text
   * fields through `str()` when present, then longitude and latitude as
   * they are (already cleaned numbers, or missing).
   */
  function LocKey(row: Row): (k: seq<Value>)
    ensures |k| == 9
  {
    seq(7, j requires 0 <= j < 7 => StrOrNone(Get(row, LocTextFields[j])))
      + [Get(row, "longitude"), Get(row, "latitude")]
  }

  /** A present cell converted by `conv`; missing stays missing; `None` when `conv` raises. */
  function Field(v: Value, conv: Value -> Option<Value>): Option<Value> {
    if v.Null? then Some(Null) else conv(v)
  }

  function AsInt(v: Value): Option<Value> {
    match PyInt(v)
    case None => None
    case Some(i) => Some(Int(i))
  }

  function AsFloat(v: Value): Option<Value> {
    match PyFloat(v)
    case None => None
    case Some(x) => Some(Float(x))
  }

  function AsStr(v: Value): Option<Value> {
    Some(Str(PyStr(v)))
  }

  /** `int()` raises on a present room count. */
  predicate RoomsRaise(row: Row) {
    var v := Get(row, "nombre_pieces_principales");
    !v.Null? && PyInt(v).None?
  }

  /** `float()` raises on a present surface. */
  predicate SurfaceRaises(row: Row) {
    var v := Get(row, "surface_reelle_bati");
    !v.Null? && PyFloat(v).None?
  }

  /** The room count as the bien keys hold it: `int()` of a present cell, missing otherwise. */
  function RoomsField(row: Row): Value
    requires !RoomsRaise(row)
  {
    var v := Get(row, "nombre_pieces_principales");
    if v.Null? then Null else Int(PyInt(v).value)
  }

  /** The surface as `insert_main_data`'s bien key holds it: `float()` of a present cell, missing otherwise. */
  function SurfaceField(row: Row): Value
    requires !SurfaceRaises(row)
  {
    var v := Get(row, "surface_reelle_bati");
    if v.Null? then Null else Float(PyFloat(v).value)
  }

  /**
   * The bien key of `insert_data_to_db` in the MySQL bulk loader: parcel,
   * type and surface through `str()` when present, the room count through
   * `int()`, then the location id. `None` when `int()` raises.
   */
  function PopulateBienKey(row: Row, loc: nat): (k: Option<seq<Value>>)
    ensures k.None? <==> RoomsRaise(row)
    ensures k.Some? ==> |k.value| == 5 && k.value[4] == Int(loc)
    ensures k.Some? ==> (k.value[0] == StrOrNone(Get(row, "id_parcelle"))
                         && k.value[1] == StrOrNone(Get(row, "type_local"))
                         && k.value[2] == StrOrNone(Get(row, "surface_reelle_bati"))
                         && k.value[3] == RoomsField(row))
  {
    var parcel := Field(Get(row, "id_parcelle"), AsStr).value;
    var kind := Field(Get(row, "type_local"), AsStr).value;
    var surface := Field(Get(row, "surface_reelle_bati"), AsStr).value;
    match Field(Get(row, "nombre_pieces_principales"), AsInt)
    case None => None
    case Some(rooms) => Some([parcel, kind, surface, rooms, Int(loc)])
  }

  /**
   * The bien key of `insert_main_data` and of the lot pass: parcel and type
   * through `str()`, surface through `float()`, room count through `int()`,
   * each kept missing when missing, then the location id. `None` when a
   * conversion raises.
   */
  function MainBienKey(row: Row, loc: nat): (k: Option<seq<Value>>)
    ensures k.None? <==> SurfaceRaises(row) || RoomsRaise(row)
    ensures k.Some? ==> |k.value| == 5 && k.value[4] == Int(loc)
    ensures k.Some? ==> (k.value[0] == StrOrNone(Get(row, "id_parcelle"))
                         && k.value[1] == StrOrNone(Get(row, "type_local"))
                         && k.value[2] == SurfaceField(row)
                         && k.value[3] == RoomsField(row))
  {
    var parcel := Field(Get(row, "id_parcelle"), AsStr).value;
    var kind := Field(Get(row, "type_local"), AsStr).value;
    match Field(Get(row, "surface_reelle_bati"), AsFloat)
    case None => None
    case Some(surface) =>
      match Field(Get(row, "nombre_pieces_principales"), AsInt)
      case None => None
      case Some(rooms) => Some([parcel, kind, surface, rooms, Int(loc)])
  }

  /** The test suite's six-field location key: no address fields, coordinates through its `clean_numeric`. */
  function SqliteLocKey(row: Row): (k: seq<Value>)
    ensures |k| == 6
  {
    [StrOrNone(Get(row, "code_departement")), StrOrNone(Get(row, "code_postal")),
     StrOrNone(Get(row, "code_commune")), StrOrNone(Get(row, "nom_commune")),
     NumberCell(SqliteCleanNumeric(Get(row, "longitude"))), NumberCell(SqliteCleanNumeric(Get(row, "latitude")))]
  }

  /**
   * The test suite's bien key: parcel, type, surface, room count and the
   * first lot's number and Carrez surface, with no location id. `None`
   * when `int()` raises on the room count.
   */
  function SqliteBienKey(row: Row): (k: Option<seq<Value>>)
    ensures k.Some? ==> |k.value| == 6
  {
    match Field(Get(row, "nombre_pieces_principales"), AsInt)
    case None => None
    case Some(rooms) =>
      Some([StrOrNone(Get(row, "id_parcelle")), StrOrNone(Get(row, "type_local")),
            NumberCell(SqliteCleanNumeric(Get(row, "surface_reelle_bati"))), rooms,
            StrOrNone(Get(row, "lot1_numero")), NumberCell(SqliteCleanNumeric(Get(row, "lot1_surface_carrez")))])
  }

  /** The two rows agree on every column in `cols`. */
  predicate AgreeOn(a: Row, b: Row, cols: set<string>) {
    forall c :: c in cols ==> Get(a, c) == Get(b, c)
  }

  const SqliteLocColumns: set<string> :=
    {"code_departement", "code_postal", "code_commune", "nom_commune", "longitude", "latitude"}

  /** Rows that differ only outside the six key columns, in the address for instance, get the same test-suite location key. */
  lemma SqliteLocKeyIgnoresAddress(a: Row, b: Row)
    requires AgreeOn(a, b, SqliteLocColumns)
    ensures SqliteLocKey(a) == SqliteLocKey(b)
  {
  }

  // ---------------------------------------------------------- serialization

  /** `"|".join(map(str, key))`. */
  function Serialize(k: seq<Value>): string {
    Join('|', Texts(k))
  }

  function Texts(k: seq<Value>): (t: seq<string>)
    ensures |t| == |k|
    ensures forall j :: 0 <= j < |k| ==> t[j] == PyStr(k[j])
  {
    seq(|k|, j requires 0 <= j < |k| => PyStr(k[j]))
  }

  predicate NoSeparator(parts: seq<string>) {
    forall j :: 0 <= j < |parts| ==> '|' !in parts[j]
  }

  /** Joining is injective on fields free of the separator. */
  lemma {:induction false} JoinInjective(p: seq<string>, q: seq<string>)
    requires |p| == |q| && NoSeparator(p) && NoSeparator(q)
    requires Join('|', p) == Join('|', q)
    ensures p == q
    decreases |p|
  {
    if |p| >= 2 {
      var n := |p| - 1;
      JoinSnoc('|', p[..n], p[n]);
      JoinSnoc('|', q[..n], q[n]);
      assert p == p[..n] + [p[n]] && q == q[..n] + [q[n]];
      var jp, jq := Join('|', p[..n]), Join('|', q[..n]);
      assert p[n] == q[n] by {
        LastFieldAfterSep('|', jp, p[n]);
        LastFieldAfterSep('|', jq, q[n]);
      }
      assert jp == jq by {
        assert |jp| == |jq|;
        assert jp == (jp + ['|'] + p[n])[..|jp|];
        assert jq == (jq + ['|'] + q[n])[..|jq|];
      }
      JoinInjective(p[..n], q[..n]);
    }
  }

  /** Keys whose printed fields contain no '|' serialize to different strings unless their fields print the same. */
  lemma SerializeInjective(a: seq<Value>, b: seq<Value>)
    requires |a| == |b| && NoSeparator(Texts(a)) && NoSeparator(Texts(b))
    requires Serialize(a) == Serialize(b)
    ensures forall j :: 0 <= j < |a| ==> PyStr(a[j]) == PyStr(b[j])
  {
    JoinInjective(Texts(a), Texts(b));
  }

  /** A '|' inside a field makes two different keys serialize alike. */
  lemma SerializeCollision()
    ensures [Str("a|b"), Str("c")] != [Str("a"), Str("b|c")]
    ensures Serialize([Str("a|b"), Str("c")]) == Serialize([Str("a"), Str("b|c")])
  {
    assert [Str("a|b"), Str("c")][0] != [Str("a"), Str("b|c")][0];
    assert Texts([Str("a|b"), Str("c")]) == ["a|b", "c"];
    assert Texts([Str("a"), Str("b|c")]) == ["a", "b|c"];
    assert Join('|', ["a|b", "c"]) == "a|b" + "|" + "c";
    assert Join('|', ["a", "b|c"]) == "a" + "|" + "b|c";
  }

  /** The location id a cache key ends with. */
  function KeyLoc(k: CacheKey): Option<int> {
    match k
    case TupleKey(f) => if |f| > 0 && f[|f| - 1].Int? then Some(f[|f| - 1].i) else None
    case StrKey(s) => ParseInt(LastField('|', s))
  }

  /** The serialized bien key still names its location: the text after the last '|' reads back as the id. */
  lemma SerializedLoc(k: seq<Value>, loc: nat)
    requires |k| >= 2 && k[|k| - 1] == Int(loc)
    ensures KeyLoc(StrKey(Serialize(k))) == Some(loc)
  {
    SerializeLast(k, loc);
    TextKeyLoc(Serialize(k), Serialize(k[..|k| - 1]), loc);
  }

  /** The tuple key names the id it ends with. */
  lemma TupleKeyLoc(k: seq<Value>, loc: nat)
    requires |k| >= 1 && k[|k| - 1] == Int(loc)
    ensures KeyLoc(TupleKey(k)) == Some(loc)
  {
  }

  /** A text key ending with a separator and an id names that id. */
  lemma TextKeyLoc(text: string, front: string, loc: nat)
    requires text == front + ['|'] + ShowInt(loc)
    ensures KeyLoc(StrKey(text)) == Some(loc)
  {
    LastFieldAfterSep('|', front, ShowInt(loc));
    IntRoundTrip(loc);
  }

  /** The serialized key ends with a separator and the text of its last field. */
  lemma SerializeLast(k: seq<Value>, loc: nat)
    requires |k| >= 2 && k[|k| - 1] == Int(loc)
    ensures Serialize(k) == Serialize(k[..|k| - 1]) + ['|'] + ShowInt(loc)
  {
    var n := |k| - 1;
    var t := Texts(k);
    assert t == Texts(k[..n]) + [t[n]];
    assert t[n] == ShowInt(loc);
    JoinSnoc('|', Texts(k[..n]), t[n]);
  }

  /** Bien keys of the MySQL loaders built under different locations never coincide, in either form. */
  lemma DistinctLocationsDistinctKeys(a: Row, b: Row, la: nat, lb: nat)
    requires la != lb
    ensures MainBienKey(a, la).Some? && MainBienKey(b, lb).Some? ==>
      Serialize(MainBienKey(a, la).value) != Serialize(MainBienKey(b, lb).value)
    ensures PopulateBienKey(a, la).Some? && PopulateBienKey(b, lb).Some? ==>
      PopulateBienKey(a, la).value != PopulateBienKey(b, lb).value
  {
    if MainBienKey(a, la).Some? && MainBienKey(b, lb).Some? {
      SerializedLoc(MainBienKey(a, la).value, la);
      SerializedLoc(MainBienKey(b, lb).value, lb);
    }
  }
}

=== FILE: loader.dfy ===
// The batch loaders of the MySQL pipeline: `insert_data_to_db` of the bulk
// script and `insert_main_data` of the two-pass scripts. Both fold over the
// cleaned rows, threading the database, the three in-memory caches, the
// committed snapshot and the counters. Each row issues, in order, the
// MUTATION upsert, the LOCALISATION resolve-or-insert, the BIEN
// resolve-or-insert, the MUTATION_BIEN link and (bulk script only) the five
// lot upserts. Whether a statement fails is an oracle: the set of
// statements that fail on each row.

module Loader {
  import opened Wrappers
  import opened Values
  import opened Store
  import opened Keys

  /**
   * Which script runs. `InsertData(false)` is `insert_main_data` as
   * written; `InsertData(true)` is the same loader with its location
   * membership test made on the serialized key the cache is written with.
   */
  datatype Policy = PopulateDb | InsertData(corrected: bool)

  const BatchSize: nat := 10000

  /** A statement that can fail; `LotOp(i)` is the lot of slot i. */
  datatype Op = MutationOp | LocOp | BienOp | LinkOp | LotOp(slot: nat) | CommitOp

  /** The statements that fail on row `i`; rows beyond the oracle fail nothing. */
  function FaultsAt(faults: seq<set<Op>>, i: nat): set<Op> {
    if i < |faults| then faults[i] else {}
  }

  /** A statement that ran, with the ids it wrote. */
  datatype Stmt =
    | MutationStmt(id: string)
    | LocStmt(loc: nat)
    | BienStmt(bien: nat, loc: nat)
    | LinkStmt(mutation: string, bien: nat)
    | LotStmt(lotBien: nat, numero: string)

  /** `mutations_cache`, `localisations_cache` and `biens_cache`. */
  datatype Caches = Caches(seen: set<string>, locs: map<CacheKey, nat>, biens: map<CacheKey, nat>)

  const NoCaches := Caches({}, map[], map[])

  /** The work of one row so far: whether a statement raised, and the ids it resolved. */
  datatype Acc = Acc(db: Db, caches: Caches, stmts: seq<Stmt>, failed: bool, loc: Option<nat>, bien: Option<nat>)

  /** What the loop keeps per row: caught or not, and the ids it got to. */
  datatype RowResult = RowResult(ok: bool, loc: Option<nat>, bien: Option<nat>)

  /**
   * The loop state. `commits` lists the value of the success counter at
   * every batch commit attempted; `halted` is set when the outer handler
   * has rolled back and the loop is over.
   */
  datatype State = State(
    db: Db, committed: Db, caches: Caches,
    inserted: nat, skipped: nat, commits: seq<nat>, halted: bool,
    results: seq<RowResult>, issued: seq<Stmt>)

  function Start(db0: Db): State {
    State(db0, db0, NoCaches, 0, 0, [], false, [], [])
  }

  // ----------------------------------------------------------- one row

  /** `str(id_mutation)` when present. */
  function MutationId(row: Row): Value {
    StrOrNone(Get(row, "id_mutation"))
  }

  /** Step 1: the MUTATION upsert, for an id not yet seen in this run. `int(numero_disposition)` raising fails the row. */
  function MutationStage(row: Row, faults: set<Op>, a: Acc): (r: Acc)
    ensures r.caches.locs == a.caches.locs && r.caches.biens == a.caches.biens
    ensures r.loc == a.loc && r.bien == a.bien && (a.failed ==> r == a)
    ensures r.stmts == a.stmts || (!a.failed && !r.failed && Filled(MutationId(row)) && MutationId(row).s !in a.caches.seen
      && r.stmts == a.stmts + [MutationStmt(MutationId(row).s)]
      && r.caches.seen == a.caches.seen + {MutationId(row).s}
      && r.db == a.db.(mutations := r.db.mutations)
      && r.db.mutations.Keys == a.db.mutations.Keys + {MutationId(row).s})
    ensures r.stmts == a.stmts ==> r.db == a.db && r.caches == a.caches
    ensures !r.failed && Filled(MutationId(row)) ==> MutationId(row).s in r.caches.seen
  {
    var id := MutationId(row);
    if a.failed || !Filled(id) || id.s in a.caches.seen then a
    else
      var disp := Get(row, "numero_disposition");
      if !disp.Null? && PyInt(disp).None? then a.(failed := true)
      else if MutationOp in faults then a.(failed := true)
      else
        var m := Mutation(Get(row, "date_mutation"),
                          if disp.Null? then Null else Int(PyInt(disp).value),
                          StrOrNone(Get(row, "nature_mutation")));
        a.(db := UpsertMutation(a.db, id.s, m),
           caches := a.caches.(seen := a.caches.seen + {id.s}),
           stmts := a.stmts + [MutationStmt(id.s)])
  }

  /** The key a policy stores a location or bien under: the tuple, or its serialization. */
  function StoreKey(p: Policy, key: seq<Value>): CacheKey {
    if p.PopulateDb? then TupleKey(key) else StrKey(Serialize(key))
  }

  /** What the membership test of a policy looks for: `insert_main_data` as written tests the tuple. */
  function LocProbe(p: Policy, key: seq<Value>): CacheKey {
    if p == InsertData(false) then TupleKey(key) else StoreKey(p, key)
  }

  function LocRecord(row: Row): Localisation {
    Localisation(
      StrOrNone(Get(row, "adresse_numero")), StrOrNone(Get(row, "adresse_suffixe")),
      StrOrNone(Get(row, "adresse_nom_voie")), StrOrNone(Get(row, "code_departement")),
      StrOrNone(Get(row, "code_postal")), StrOrNone(Get(row, "code_commune")),
      StrOrNone(Get(row, "nom_commune")), Get(row, "longitude"), Get(row, "latitude"),
      Get(row, "date_mutation"))
  }

  /**
   * Step 2: resolve the location. A hit reads the cache under the stored
   * key (a missing entry raises `KeyError`); a miss inserts and caches the
   * new id under the stored key.
   */
  function LocStage(p: Policy, row: Row, faults: set<Op>, a: Acc): (r: Acc)
    ensures r.caches.seen == a.caches.seen && r.caches.biens == a.caches.biens && r.bien == a.bien
    ensures a.failed ==> r == a
    ensures !r.failed ==> r.loc.Some?
    ensures r.failed && !a.failed ==> r == a.(failed := true)
    ensures r.stmts == a.stmts ==> r.db == a.db && r.caches.locs == a.caches.locs
    ensures r.stmts == a.stmts && !r.failed ==>
      (LocProbe(p, LocKey(row)) in a.caches.locs && StoreKey(p, LocKey(row)) in a.caches.locs
       && r.loc == Some(a.caches.locs[StoreKey(p, LocKey(row))]))
    ensures r.stmts != a.stmts ==>
      (!a.failed && !r.failed && LocProbe(p, LocKey(row)) !in a.caches.locs
       && r.stmts == a.stmts + [LocStmt(|a.db.locs| + 1)]
       && r.db == a.db.(locs := a.db.locs + [LocRecord(row)])
       && r.caches.locs == a.caches.locs[StoreKey(p, LocKey(row)) := |a.db.locs| + 1]
       && r.loc == Some(|a.db.locs| + 1))
  {
    if a.failed then a
    else
      var key := LocKey(row);
      if LocProbe(p, key) in a.caches.locs then
        if StoreKey(p, key) in a.caches.locs then a.(loc := Some(a.caches.locs[StoreKey(p, key)]))
        else a.(failed := true)
      else if LocOp in faults then a.(failed := true)
      else
        var (db, id) := InsertLoc(a.db, LocRecord(row));
        a.(db := db, caches := a.caches.(locs := a.caches.locs[StoreKey(p, key) := id]),
           stmts := a.stmts + [LocStmt(id)], loc := Some(id))
  }

  function BienKeyOf(p: Policy, row: Row, loc: nat): (k: Option<seq<Value>>)
    ensures k.Some? ==> |k.value| == 5 && k.value[4] == Int(loc)
  {
    if p.PopulateDb? then PopulateBienKey(row, loc) else MainBienKey(row, loc)
  }

  /** The BIEN row: text fields through `str()`, surfaces as they are, the room count as the key converted it. */
  function BienRecord(row: Row, rooms: Value, loc: nat): Bien {
    Bien(StrOrNone(Get(row, "id_parcelle")), StrOrNone(Get(row, "type_local")),
         Get(row, "surface_reelle_bati"), Get(row, "surface_terrain"), rooms, loc)
  }

  /**
   * Step 3: only when the location id is truthy, build the bien key (a
   * failed conversion fails the row) and resolve it through the cache.
   */
  function BienStage(p: Policy, row: Row, faults: set<Op>, a: Acc): (r: Acc)
    ensures r.caches.seen == a.caches.seen && r.caches.locs == a.caches.locs && r.loc == a.loc
    ensures a.failed ==> r == a
    ensures a.loc.None? || a.loc.value == 0 ==> r == a
    ensures r.bien != a.bien ==>
      (!r.failed && a.loc.Some? && a.loc.value != 0 && BienKeyOf(p, row, a.loc.value).Some?)
    ensures r.stmts == a.stmts ==> r.db == a.db && r.caches.biens == a.caches.biens
    ensures r.stmts == a.stmts && r.bien != a.bien ==>
      var ck := StoreKey(p, BienKeyOf(p, row, a.loc.value).value);
      ck in a.caches.biens && r.bien == Some(a.caches.biens[ck])
    ensures r.stmts != a.stmts ==>
      (!a.failed && !r.failed && a.loc.Some? && a.loc.value != 0
       && BienKeyOf(p, row, a.loc.value).Some?
       && var key := BienKeyOf(p, row, a.loc.value).value;
          var id := |a.db.biens| + 1;
          StoreKey(p, key) !in a.caches.biens
          && r.stmts == a.stmts + [BienStmt(id, a.loc.value)]
          && r.db == a.db.(biens := a.db.biens + [BienRecord(row, key[3], a.loc.value)])
          && r.caches.biens == a.caches.biens[StoreKey(p, key) := id]
          && r.bien == Some(id))
  {
    if a.failed || a.loc.None? || a.loc.value == 0 then a
    else
      var loc := a.loc.value;
      match BienKeyOf(p, row, loc)
      case None => a.(failed := true)
      case Some(key) =>
        var ck := StoreKey(p, key);
        if ck in a.caches.biens then a.(bien := Some(a.caches.biens[ck]))
        else if BienOp in faults then a.(failed := true)
        else
          var (db, id) := InsertBien(a.db, BienRecord(row, key[3], loc));
          a.(db := db, caches := a.caches.(biens := a.caches.biens[ck := id]),
             stmts := a.stmts + [BienStmt(id, loc)], bien := Some(id))
  }

  /** Step 4: `INSERT IGNORE` into MUTATION_BIEN when both the mutation id and the bien id are truthy. */
  function LinkStage(row: Row, faults: set<Op>, a: Acc): (r: Acc)
    ensures r.caches == a.caches && r.loc == a.loc && r.bien == a.bien
    ensures a.failed ==> r == a
    ensures r.stmts == a.stmts ==> r.db == a.db
    ensures r.stmts != a.stmts ==>
      (!a.failed && !r.failed && Filled(MutationId(row)) && a.bien.Some? && a.bien.value != 0
       && r.stmts == a.stmts + [LinkStmt(MutationId(row).s, a.bien.value)]
       && r.db == InsertLinkOrIgnore(a.db, MutationId(row).s, a.bien.value, Get(row, "valeur_fonciere")))
  {
    var id := MutationId(row);
    if a.failed || !Filled(id) || a.bien.None? || a.bien.value == 0 then a
    else if LinkOp in faults then a.(failed := true)
    else
      a.(db := InsertLinkOrIgnore(a.db, id.s, a.bien.value, Get(row, "valeur_fonciere")),
         stmts := a.stmts + [LinkStmt(id.s, a.bien.value)])
  }

  const LotNumeroColumns: seq<string> :=
    ["lot1_numero", "lot2_numero", "lot3_numero", "lot4_numero", "lot5_numero"]

  const LotCarrezColumns: seq<string> :=
    ["lot1_surface_carrez", "lot2_surface_carrez", "lot3_surface_carrez",
     "lot4_surface_carrez", "lot5_surface_carrez"]

  /** `str(lot{slot}_numero)` when present. */
  function LotNumero(row: Row, slot: nat): Value
    requires 1 <= slot <= 5
  {
    StrOrNone(Get(row, LotNumeroColumns[slot - 1]))
  }

  /**
   * One lot slot of the bulk script: a slot with a non-empty number
   * upserts its lot with the `clean_numeric` Carrez surface; a failing
   * upsert fails the row.
   */
  function LotSlot(row: Row, faults: set<Op>, a: Acc, slot: nat): (r: Acc)
    requires 1 <= slot <= 5 && a.bien.Some?
    ensures r.caches == a.caches && r.loc == a.loc && r.bien == a.bien
    ensures r.db == a.db.(lots := r.db.lots)
  {
    var numero := LotNumero(row, slot);
    if !Filled(numero) then a
    else if LotOp(slot) in faults then a.(failed := true)
    else
      var surface := NumberCell(CleanNumeric(Get(row, LotCarrezColumns[slot - 1])));
      a.(db := UpsertLot(a.db, a.bien.value, numero.s, surface),
         stmts := a.stmts + [LotStmt(a.bien.value, numero.s)])
  }

  /** Step 5 of the bulk script, slots `slot` to 5, up to the first failing upsert. */
  function LotStage(row: Row, faults: set<Op>, a: Acc, slot: nat): (r: Acc)
    requires 1 <= slot <= 6
    requires a.bien.Some? && a.bien.value != 0
    ensures r.caches == a.caches && r.loc == a.loc && r.bien == a.bien
    ensures a.failed ==> r == a
    ensures r.db == a.db.(lots := r.db.lots)
    decreases 6 - slot
  {
    if a.failed || slot == 6 then a
    else LotStage(row, faults, LotSlot(row, faults, a, slot), slot + 1)
  }

  /** The four (bulk script: five) steps of one row, up to the first statement that raises. */
  function RowStep(p: Policy, row: Row, faults: set<Op>, db: Db, c: Caches): Acc {
    var a1 := MutationStage(row, faults, Acc(db, c, [], false, None, None));
    var a4 := LinkStage(row, faults, BienStage(p, row, faults, LocStage(p, row, faults, a1)));
    if p.PopulateDb? && a4.bien.Some? && a4.bien.value != 0 then LotStage(row, faults, a4, 1) else a4
  }

  // ------------------------------------------------------------ the loop

  /** Whether the batch-commit test runs after this row: the bulk script reaches it after a caught row too, `insert_main_data` `continue`s past it. */
  predicate ReachesCommitTest(p: Policy, ok: bool) {
    p.PopulateDb? || ok
  }

  /** A commit that raises sends the loop to the outer handler: rollback, and the loop is over. */
  function Commit(s: State, fails: bool): State {
    if fails then s.(db := s.committed, halted := true) else s.(committed := s.db)
  }

  /** The bookkeeping after a row: counters, the row's result, and the batch-commit test. */
  function Apply(p: Policy, s: State, a: Acc, faults: set<Op>): State {
    var s1 := s.(db := a.db, caches := a.caches,
                 inserted := if a.failed then s.inserted else s.inserted + 1,
                 skipped := if a.failed then s.skipped + 1 else s.skipped,
                 results := s.results + [RowResult(!a.failed, a.loc, a.bien)],
                 issued := s.issued + a.stmts);
    if ReachesCommitTest(p, !a.failed) && s1.inserted > 0 && s1.inserted % BatchSize == 0
    then Commit(s1.(commits := s1.commits + [s1.inserted]), CommitOp in faults)
    else s1
  }

  /** One iteration of the loop; once the outer handler has run, nothing more happens. */
  function Step(p: Policy, s: State, row: Row, faults: set<Op>): (r: State)
    ensures s.halted ==> r == s
  {
    if s.halted then s else Apply(p, s, RowStep(p, row, faults, s.db, s.caches), faults)
  }

  /** The loop over the rows, row i failing the statements in `faults[i]`. */
  function Run(p: Policy, rows: seq<Row>, faults: seq<set<Op>>, s0: State): State
    decreases |rows|
  {
    if |rows| == 0 then s0
    else
      var n := |rows| - 1;
      Step(p, Run(p, rows[..n], faults, s0), rows[n], FaultsAt(faults, n))
  }

  /** The final commit after the loop, or the rollback when it raises. */
  function Finish(s: State, fails: bool): State {
    if s.halted then s else Commit(s, fails)
  }

  /**
   * A whole call: `insert_main_data` returns straight away on an empty
   * frame; otherwise the loop, then the final commit.
   */
  function Load(p: Policy, rows: seq<Row>, faults: seq<set<Op>>, finalFails: bool, db0: Db): State {
    if p.InsertData? && |rows| == 0 then Start(db0)
    else Finish(Run(p, rows, faults, Start(db0)), finalFails)
  }
}

=== FILE: loader_facts.dfy ===
// The guarantees of a whole call of the MySQL batch loaders, and of a
// single row, stated over every row sequence and every failure oracle.
// They are corollaries of the loop invariants of LoaderProps.

module LoaderFacts {
  import opened Wrappers
  import opened Values
  import opened Store
  import opened Keys
  import opened Loader
  import opened LoaderProps

  // ------------------------------------------------------------ helpers

  /** A call is its loop followed by the final commit: everything but the database and the halt flag comes from the loop. */
  lemma LoadRun(p: Policy, rows: seq<Row>, faults: seq<set<Op>>, finalFails: bool, db0: Db)
    ensures var s := Load(p, rows, faults, finalFails, db0);
      var t := Run(p, rows, faults, Start(db0));
      s.results == t.results && s.caches == t.caches && s.issued == t.issued
      && s.inserted == t.inserted && s.skipped == t.skipped && s.commits == t.commits
      && (t.halted ==> s == t)
      && (!s.halted ==> !t.halted && s.db == t.db)
  {
  }

  lemma LoadFacts(p: Policy, rows: seq<Row>, faults: seq<set<Op>>, finalFails: bool, db0: Db)
    requires Consistent(db0) && LotsUnique(db0.lots)
    ensures var s := Load(p, rows, faults, finalFails, db0);
      Inv(p, s) && Counted(p, s) && ResultsOk(p, rows, db0, s)
  {
    var t := Run(p, rows, faults, Start(db0));
    RunInv(p, rows, faults, db0);
    RunCounts(p, rows, faults, db0);
    RunResults(p, rows, faults, db0);
    if p.InsertData? && |rows| == 0 {
      assert Load(p, rows, faults, finalFails, db0) == t;
    } else {
      assert Load(p, rows, faults, finalFails, db0) == Finish(t, finalFails);
      FinishKeeps(p, rows, db0, t, finalFails);
    }
  }

  /** The final commit, or the rollback to the last snapshot, keeps the loop's invariants. */
  lemma FinishKeeps(p: Policy, rows: seq<Row>, db0: Db, t: State, fails: bool)
    requires Inv(p, t) && Counted(p, t) && ResultsOk(p, rows, db0, t)
    ensures Inv(p, Finish(t, fails)) && Counted(p, Finish(t, fails)) && ResultsOk(p, rows, db0, Finish(t, fails))
  {
  }

  // ---------------------------------------------------- a whole call

  /**
   * After a call the database is the committed one, whether the final
   * commit went through or a rollback restored the last committed
   * snapshot, and every foreign key in it is valid with no duplicate lot.
   */
  lemma LoadEndsCommitted(p: Policy, rows: seq<Row>, faults: seq<set<Op>>, finalFails: bool, db0: Db)
    requires Consistent(db0) && LotsUnique(db0.lots)
    ensures var s := Load(p, rows, faults, finalFails, db0);
      s.db == s.committed && Consistent(s.db) && LotsUnique(s.db.lots)
  {
    LoadFacts(p, rows, faults, finalFails, db0);
  }

  /** The loop only stops early when a commit raised: a row's own error is caught and the loop goes on. */
  lemma {:induction false} RunHaltsOnlyOnCommit(p: Policy, rows: seq<Row>, faults: seq<set<Op>>, db0: Db)
    ensures Run(p, rows, faults, Start(db0)).halted ==>
      exists i :: 0 <= i < |rows| && CommitOp in FaultsAt(faults, i)
    decreases |rows|
  {
    if |rows| > 0 {
      var n := |rows| - 1;
      var s := Run(p, rows[..n], faults, Start(db0));
      assert Run(p, rows, faults, Start(db0)) == Step(p, s, rows[n], FaultsAt(faults, n));
      RunHaltsOnlyOnCommit(p, rows[..n], faults, db0);
      if s.halted {
        var i :| 0 <= i < n && CommitOp in FaultsAt(faults, i);
      }
    }
  }

  /** With no commit failing, every row is seen and counted and the call ends committed. */
  lemma NoCommitFailureCompletes(p: Policy, rows: seq<Row>, faults: seq<set<Op>>, finalFails: bool, db0: Db)
    requires Consistent(db0) && LotsUnique(db0.lots)
    requires forall i :: 0 <= i < |rows| ==> CommitOp !in FaultsAt(faults, i)
    requires !finalFails
    ensures var s := Load(p, rows, faults, finalFails, db0);
      !s.halted && |s.results| == |rows| && s.inserted + s.skipped == |rows| && s.db == s.committed
  {
    RunHaltsOnlyOnCommit(p, rows, faults, db0);
    LoadFacts(p, rows, faults, finalFails, db0);
    LoadRun(p, rows, faults, finalFails, db0);
  }

  /**
   * The counters: every row the loop saw is counted as inserted or as
   * skipped. `insert_main_data` attempts a batch commit exactly when the
   * success counter reaches each multiple of 10000; the bulk script
   * attempts one at every multiple too, and only at multiples.
   */
  lemma CommitsAtMultiples(p: Policy, rows: seq<Row>, faults: seq<set<Op>>, finalFails: bool, db0: Db)
    requires Consistent(db0) && LotsUnique(db0.lots)
    ensures var s := Load(p, rows, faults, finalFails, db0);
      |s.results| == s.inserted + s.skipped <= |rows|
      && (!s.halted ==> s.inserted + s.skipped == |rows|)
      && (p.InsertData? ==>
            (|s.commits| == s.inserted / BatchSize
             && forall k :: 0 <= k < |s.commits| ==> s.commits[k] == (k + 1) * BatchSize))
      && (p.PopulateDb? ==>
            (forall k :: 0 <= k < |s.commits| ==> 0 < s.commits[k] <= s.inserted && s.commits[k] % BatchSize == 0)
            && (forall m :: 1 <= m <= s.inserted / BatchSize ==> m * BatchSize in s.commits))
  {
    LoadFacts(p, rows, faults, finalFails, db0);
  }

  /**
   * MUTATION is written at most once per id in a run, never for a missing
   * or empty id, and, when the call did not roll back, every id written is
   * in the table; no link is made for an empty id.
   */
  lemma MutationWrittenOnce(p: Policy, rows: seq<Row>, faults: seq<set<Op>>, finalFails: bool, db0: Db)
    requires Consistent(db0) && LotsUnique(db0.lots)
    ensures var s := Load(p, rows, faults, finalFails, db0);
      && (forall x, y :: 0 <= x < y < |s.issued| && s.issued[x].MutationStmt? && s.issued[y].MutationStmt? ==>
            s.issued[x].id != s.issued[y].id)
      && (forall x :: 0 <= x < |s.issued| && s.issued[x].MutationStmt? ==>
            s.issued[x].id != "" && (!s.halted ==> s.issued[x].id in s.db.mutations))
      && (forall x :: 0 <= x < |s.issued| && s.issued[x].LinkStmt? ==> s.issued[x].mutation != "")
  {
    LoadFacts(p, rows, faults, finalFails, db0);
    var s := Load(p, rows, faults, finalFails, db0);
    var t := Run(p, rows, faults, Start(db0));
    LoadRun(p, rows, faults, finalFails, db0);
    RunInv(p, rows, faults, db0);
    assert !s.halted ==> Live(t.db, t.caches, t.issued);
  }

  /**
   * With the tuple key of the bulk script, or the corrected membership
   * test, two rows whose location keys the cache stores alike resolve the
   * same ID_Localisation, and, when the call did not roll back, the
   * loader added exactly one LOCALISATION per distinct key.
   */
  lemma SameKeySameLocation(p: Policy, rows: seq<Row>, faults: seq<set<Op>>, finalFails: bool, db0: Db, i: nat, j: nat)
    requires Consistent(db0) && LotsUnique(db0.lots)
    requires p != InsertData(false) && i < |rows| && j < |rows|
    requires var s := Load(p, rows, faults, finalFails, db0);
      i < |s.results| && j < |s.results| && s.results[i].loc.Some? && s.results[j].loc.Some?
    requires StoreKey(p, LocKey(rows[i])) == StoreKey(p, LocKey(rows[j]))
    ensures var s := Load(p, rows, faults, finalFails, db0);
      s.results[i].loc == s.results[j].loc
      && (!s.halted ==> |s.db.locs| == |db0.locs| + |s.caches.locs|)
  {
    LoadFacts(p, rows, faults, finalFails, db0);
  }

  /**
   * As `insert_main_data` is written, its membership test never finds a
   * key, so every row that resolves a location inserts a new one: later
   * rows get strictly larger ids, even for equal keys.
   */
  lemma AsWrittenNeverShares(rows: seq<Row>, faults: seq<set<Op>>, finalFails: bool, db0: Db, i: nat, j: nat)
    requires Consistent(db0) && LotsUnique(db0.lots)
    requires var s := Load(InsertData(false), rows, faults, finalFails, db0);
      i < j < |s.results| && s.results[i].loc.Some? && s.results[j].loc.Some?
    ensures var s := Load(InsertData(false), rows, faults, finalFails, db0);
      s.results[i].loc.value < s.results[j].loc.value
      && forall row :: TupleKey(LocKey(row)) !in s.caches.locs
  {
    LoadFacts(InsertData(false), rows, faults, finalFails, db0);
  }

  /**
   * As written, the location cache returned for the lot pass maps each
   * serialized key to the id of the last row that inserted under it.
   */
  lemma AsWrittenLastWins(rows: seq<Row>, faults: seq<set<Op>>, finalFails: bool, db0: Db, i: nat)
    requires Consistent(db0) && LotsUnique(db0.lots) && i < |rows|
    requires var s := Load(InsertData(false), rows, faults, finalFails, db0);
      i < |s.results| && s.results[i].loc.Some?
      && forall j :: i < j < |s.results| && j < |rows| && s.results[j].loc.Some? ==>
           Serialize(LocKey(rows[j])) != Serialize(LocKey(rows[i]))
    ensures var s := Load(InsertData(false), rows, faults, finalFails, db0);
      var k := StrKey(Serialize(LocKey(rows[i])));
      k in s.caches.locs && s.caches.locs[k] == s.results[i].loc.value
  {
    LoadFacts(InsertData(false), rows, faults, finalFails, db0);
  }

  /** A row with no mutation id and no failing statement always resolves a location, unless its probe hits a key the cache does not hold. */
  lemma QuietRowResolves(p: Policy, s: State, row: Row)
    requires !s.halted && !Filled(MutationId(row))
    requires LocProbe(p, LocKey(row)) !in s.caches.locs || StoreKey(p, LocKey(row)) in s.caches.locs
    ensures var a := RowStep(p, row, {}, s.db, s.caches);
      var r := Step(p, s, row, {});
      a.loc.Some? && !r.halted && r.db == a.db && r.caches == a.caches
      && r.results == s.results + [RowResult(!a.failed, a.loc, a.bien)]
      && LocChange(p, LocKey(row), s, a)
  {
    var a0 := Acc(s.db, s.caches, [], false, None, None);
    var a1 := MutationStage(row, {}, a0);
    assert a1 == a0;
    var a2 := LocStage(p, row, {}, a1);
    assert a2.loc.Some?;
    RowLocs(p, row, {}, s);
  }

  /**
   * Two identical rows with no failure: as written each inserts its own
   * LOCALISATION; with the corrected test the second reuses the first.
   */
  lemma DuplicateRowsExample(p: Policy, rows: seq<Row>)
    requires p.InsertData? && rows == [map[], map[]]
    ensures var s := Load(p, rows, [], false, Empty);
      |s.results| == 2 && s.results[0].loc == Some(1)
      && (p.corrected ==> |s.db.locs| == 1 && s.results[1].loc == Some(1))
      && (!p.corrected ==> |s.db.locs| == 2 && s.results[1].loc == Some(2))
  {
    var row: Row := map[];
    var s0 := Start(Empty);
    var s1 := Step(p, s0, row, {});
    var s2 := Step(p, s1, row, {});
    assert Run(p, rows, [], s0) == s2 by {
      assert rows[..1] == [row] && rows[..1][..0] == [];
      assert Run(p, rows[..1][..0], [], s0) == s0;
      assert Run(p, rows[..1], [], s0) == s1;
    }
    ExampleSteps(p);
  }

  lemma ExampleSteps(p: Policy)
    requires p.InsertData?
    ensures var row: Row := map[];
      var s1 := Step(p, Start(Empty), row, {});
      var s2 := Step(p, s1, row, {});
      !s2.halted && |s2.results| == 2 && s2.results[0].loc == Some(1)
      && (p.corrected ==> |s2.db.locs| == 1 && s2.results[1].loc == Some(1))
      && (!p.corrected ==> |s2.db.locs| == 2 && s2.results[1].loc == Some(2))
  {
    var row: Row := map[];
    FirstExampleStep(p);
    SecondExampleStep(p, Step(p, Start(Empty), row, {}));
  }

  /** The first empty row inserts location 1 and caches it under the key the policy stores. */
  lemma FirstExampleStep(p: Policy)
    requires p.InsertData?
    ensures var s1 := Step(p, Start(Empty), map[], {});
      !s1.halted && |s1.results| == 1 && s1.results[0].loc == Some(1)
      && |s1.db.locs| == 1 && s1.caches.locs == map[StoreKey(p, LocKey(map[])) := 1]
  {
    QuietRowResolves(p, Start(Empty), map[]);
  }

  /** The second empty row: the corrected test finds location 1, the test as written inserts location 2. */
  lemma SecondExampleStep(p: Policy, s1: State)
    requires p.InsertData?
    requires !s1.halted && |s1.results| == 1 && |s1.db.locs| == 1
    requires s1.caches.locs == map[StoreKey(p, LocKey(map[])) := 1]
    ensures var s2 := Step(p, s1, map[], {});
      !s2.halted && |s2.results| == 2 && s2.results[0] == s1.results[0]
      && (p.corrected ==> |s2.db.locs| == 1 && s2.results[1].loc == Some(1))
      && (!p.corrected ==> |s2.db.locs| == 2 && s2.results[1].loc == Some(2))
  {
    QuietRowResolves(p, s1, map[]);
  }

  /** With the corrected test, the cache maps each serialized key to the one id every row with that key got. */
  lemma CorrectedCacheHoldsSharedId(rows: seq<Row>, faults: seq<set<Op>>, finalFails: bool, db0: Db, i: nat)
    requires Consistent(db0) && LotsUnique(db0.lots) && i < |rows|
    requires var s := Load(InsertData(true), rows, faults, finalFails, db0);
      i < |s.results| && s.results[i].loc.Some?
    ensures var s := Load(InsertData(true), rows, faults, finalFails, db0);
      var k := StrKey(Serialize(LocKey(rows[i])));
      k in s.caches.locs && s.caches.locs[k] == s.results[i].loc.value
  {
    LoadFacts(InsertData(true), rows, faults, finalFails, db0);
  }

  /**
   * A bien is only resolved under a truthy location id, and since the
   * location id is part of the bien key, rows with different locations
   * never share a bien.
   */
  lemma DistinctLocationsDistinctBiens(p: Policy, rows: seq<Row>, faults: seq<set<Op>>, finalFails: bool, db0: Db, i: nat, j: nat)
    requires Consistent(db0) && LotsUnique(db0.lots)
    requires var s := Load(p, rows, faults, finalFails, db0);
      i < |s.results| && j < |s.results| && s.results[i].bien.Some? && s.results[j].bien.Some?
    ensures var s := Load(p, rows, faults, finalFails, db0);
      s.results[i].loc.Some? && s.results[i].loc.value >= 1
      && (s.results[i].loc != s.results[j].loc ==> s.results[i].bien != s.results[j].bien)
  {
    LoadFacts(p, rows, faults, finalFails, db0);
    var s := Load(p, rows, faults, finalFails, db0);
    var ri, rj := s.results[i], s.results[j];
    if ri.bien == rj.bien {
      LoggedBienUnique(s.issued, s.caches.seen, ri.bien.value, ri.loc.value, rj.loc.value);
    }
  }

  /** `insert_main_data` on an empty frame returns before touching anything; the bulk script still commits (or rolls back) nothing. */
  lemma EmptyInputWritesNothing(p: Policy, faults: seq<set<Op>>, finalFails: bool, db0: Db)
    ensures var s := Load(p, [], faults, finalFails, db0);
      s.db == db0 && s.issued == [] && s.results == [] && s.caches == NoCaches && s.commits == []
      && (p.InsertData? ==> !s.halted)
      && (p.PopulateDb? ==> s.halted == finalFails)
  {
  }

  // ------------------------------------------------------- one loop step

  /**
   * A commit that raises rolls back to the snapshot of the last
   * successful commit and ends the loop; otherwise the snapshot is kept
   * or moves to the current database.
   */
  lemma RollbackRestoresSnapshot(p: Policy, s: State, row: Row, faults: set<Op>)
    requires !s.halted
    ensures var r := Step(p, s, row, faults);
      (r.halted ==> CommitOp in faults && r.db == s.committed && r.committed == s.committed)
      && (!r.halted ==> r.committed == s.committed || r.committed == r.db)
  {
  }

  /**
   * Where the batch-commit test sits: `insert_main_data` `continue`s past
   * it after a caught row, so a failed row never commits; the bulk script
   * runs it after every row, so a failed row right after a multiple of
   * 10000 commits again at the same count.
   */
  lemma FailedRowCommitTest(p: Policy, s: State, row: Row, faults: set<Op>)
    requires !s.halted && RowStep(p, row, faults, s.db, s.caches).failed
    ensures var r := Step(p, s, row, faults);
      r.inserted == s.inserted && r.skipped == s.skipped + 1
      && (p.InsertData? ==> r.commits == s.commits && r.committed == s.committed && !r.halted)
      && (p.PopulateDb? && s.inserted > 0 && s.inserted % BatchSize == 0 ==>
            r.commits == s.commits + [s.inserted] && (CommitOp in faults <==> r.halted))
  {
  }

  // ------------------------------------------------------------ one row

  /** The lot step only appends lot statements, for the row's bien and a non-empty number. */
  lemma {:induction false} LotStageAppendsLots(row: Row, faults: set<Op>, a: Acc, slot: nat)
    requires 1 <= slot <= 6 && a.bien.Some? && a.bien.value != 0
    ensures var r := LotStage(row, faults, a, slot);
      |a.stmts| <= |r.stmts| && r.stmts[..|a.stmts|] == a.stmts
      && forall x :: |a.stmts| <= x < |r.stmts| ==>
           r.stmts[x].LotStmt? && r.stmts[x].lotBien == a.bien.value && r.stmts[x].numero != ""
    decreases 6 - slot
  {
    if !a.failed && slot < 6 {
      var b := LotSlot(row, faults, a, slot);
      LotStageAppendsLots(row, faults, b, slot + 1);
      var r := LotStage(row, faults, b, slot + 1);
      assert r == LotStage(row, faults, a, slot);
      assert |a.stmts| <= |b.stmts| && b.stmts[..|a.stmts|] == a.stmts;
      assert r.stmts[..|a.stmts|] == r.stmts[..|b.stmts|][..|a.stmts|];
      forall x | |a.stmts| <= x < |r.stmts|
        ensures r.stmts[x].LotStmt? && r.stmts[x].lotBien == a.bien.value && r.stmts[x].numero != ""
      {
        if x < |b.stmts| {
          assert r.stmts[x] == r.stmts[..|b.stmts|][x] == b.stmts[x];
        }
      }
    }
  }

  /** A row without a mutation id writes no MUTATION and no MUTATION_BIEN row. */
  lemma NullIdWritesNoMutation(p: Policy, row: Row, faults: set<Op>, db: Db, c: Caches)
    requires !Filled(MutationId(row))
    ensures var r := RowStep(p, row, faults, db, c);
      r.db.mutations == db.mutations && r.db.links == db.links && r.caches.seen == c.seen
      && forall x :: 0 <= x < |r.stmts| ==> !r.stmts[x].MutationStmt? && !r.stmts[x].LinkStmt?
  {
    var a4 := BeforeLots(p, row, faults, db, c);
    NullIdBeforeLots(p, row, faults, db, c);
    if p.PopulateDb? && a4.bien.Some? && a4.bien.value != 0 {
      LotStageAppendsLots(row, faults, a4, 1);
      PrefixIndex(a4.stmts, LotStage(row, faults, a4, 1).stmts);
    }
  }

  /** The four stages every loader runs on a row, before the bulk script's lots. */
  function BeforeLots(p: Policy, row: Row, faults: set<Op>, db: Db, c: Caches): (a: Acc)
    ensures RowStep(p, row, faults, db, c) ==
      if p.PopulateDb? && a.bien.Some? && a.bien.value != 0 then LotStage(row, faults, a, 1) else a
  {
    LinkStage(row, faults, BienStage(p, row, faults, LocStage(p, row, faults,
      MutationStage(row, faults, Acc(db, c, [], false, None, None)))))
  }

  /** Without a mutation id, the first four stages run at most a location and a bien insert. */
  lemma NullIdBeforeLots(p: Policy, row: Row, faults: set<Op>, db: Db, c: Caches)
    requires !Filled(MutationId(row))
    ensures var a := BeforeLots(p, row, faults, db, c);
      a.db.mutations == db.mutations && a.db.links == db.links && a.caches.seen == c.seen
      && forall x :: 0 <= x < |a.stmts| ==> a.stmts[x].LocStmt? || a.stmts[x].BienStmt?
  {
    var a0 := Acc(db, c, [], false, None, None);
    var a1 := MutationStage(row, faults, a0);
    var a3 := BienStage(p, row, faults, LocStage(p, row, faults, a1));
    assert a1 == a0;
    assert LinkStage(row, faults, a3) == a3;
  }

  /** A sequence that starts with another agrees with it at each of its positions. */
  lemma PrefixIndex(a: seq<Stmt>, r: seq<Stmt>)
    requires |a| <= |r| && r[..|a|] == a
    ensures forall x :: 0 <= x < |a| ==> r[x] == a[x]
  {
    forall x | 0 <= x < |a| ensures r[x] == a[x] {
      assert r[x] == r[..|a|][x];
    }
  }

  /**
   * Statements run without a transaction per row: when the BIEN insert of
   * a row raises, the row is caught, but its MUTATION upsert and its
   * LOCALISATION insert stay in the database.
   */
  lemma BienFailureKeepsEarlierWork(p: Policy, row: Row, faults: set<Op>, db: Db, c: Caches)
    requires BienOp in faults
    ensures var a2 := LocStage(p, row, faults, MutationStage(row, faults, Acc(db, c, [], false, None, None)));
      var r := RowStep(p, row, faults, db, c);
      (!a2.failed && a2.loc.value != 0 && BienKeyOf(p, row, a2.loc.value).Some?
       && StoreKey(p, BienKeyOf(p, row, a2.loc.value).value) !in c.biens) ==>
        (r.failed && r.db == a2.db && r.stmts == a2.stmts
         && db.mutations.Keys <= r.db.mutations.Keys && |r.db.locs| >= |db.locs|
         && (Filled(MutationId(row)) && MutationId(row).s !in c.seen ==> MutationId(row).s in r.db.mutations))
  {
  }

  /** Lots are only written by the bulk script, under the bien the row resolved and for a non-empty lot number. */
  lemma LotsOnlyForResolvedBien(p: Policy, row: Row, faults: set<Op>, db: Db, c: Caches)
    ensures var r := RowStep(p, row, faults, db, c);
      forall x :: 0 <= x < |r.stmts| && r.stmts[x].LotStmt? ==>
        p.PopulateDb? && r.bien.Some? && r.stmts[x].lotBien == r.bien.value && r.stmts[x].numero != ""
  {
    var a4 := BeforeLots(p, row, faults, db, c);
    NoLotBeforeLots(p, row, faults, db, c);
    if p.PopulateDb? && a4.bien.Some? && a4.bien.value != 0 {
      LotStageAppendsLots(row, faults, a4, 1);
      PrefixIndex(a4.stmts, LotStage(row, faults, a4, 1).stmts);
    }
  }

  /** The first four stages write no lot. */
  lemma NoLotBeforeLots(p: Policy, row: Row, faults: set<Op>, db: Db, c: Caches)
    ensures NoLot(BeforeLots(p, row, faults, db, c).stmts)
  {
    var a0 := Acc(db, c, [], false, None, None);
    var a1 := MutationStage(row, faults, a0);
    var a2 := LocStage(p, row, faults, a1);
    var a3 := BienStage(p, row, faults, a2);
    var a4 := LinkStage(row, faults, a3);
    MutationStageNoLot(row, faults, a0);
    LocStageNoLot(p, row, faults, a1);
    BienStageNoLot(p, row, faults, a2);
    LinkStageNoLot(row, faults, a3);
  }

  lemma MutationStageNoLot(row: Row, faults: set<Op>, a: Acc)
    requires NoLot(a.stmts)
    ensures NoLot(MutationStage(row, faults, a).stmts)
  {
    NoLotKeep(a.stmts, MutationStage(row, faults, a).stmts);
  }

  lemma LocStageNoLot(p: Policy, row: Row, faults: set<Op>, a: Acc)
    requires NoLot(a.stmts)
    ensures NoLot(LocStage(p, row, faults, a).stmts)
  {
    NoLotKeep(a.stmts, LocStage(p, row, faults, a).stmts);
  }

  lemma BienStageNoLot(p: Policy, row: Row, faults: set<Op>, a: Acc)
    requires NoLot(a.stmts)
    ensures NoLot(BienStage(p, row, faults, a).stmts)
  {
    NoLotKeep(a.stmts, BienStage(p, row, faults, a).stmts);
  }

  lemma LinkStageNoLot(row: Row, faults: set<Op>, a: Acc)
    requires NoLot(a.stmts)
    ensures NoLot(LinkStage(row, faults, a).stmts)
  {
    NoLotKeep(a.stmts, LinkStage(row, faults, a).stmts);
  }

  predicate NoLot(ss: seq<Stmt>) {
    forall x :: 0 <= x < |ss| ==> !ss[x].LotStmt?
  }

  /** Appending a statement that is not a lot keeps a log free of lots. */
  lemma NoLotKeep(a: seq<Stmt>, r: seq<Stmt>)
    requires NoLot(a)
    requires r == a || (|r| == |a| + 1 && r[..|a|] == a && !r[|a|].LotStmt?)
    ensures NoLot(r)
  {
    if r != a {
      forall x | 0 <= x < |r| ensures !r[x].LotStmt? {
        if x < |a| {
          assert r[x] == r[..|a|][x];
        }
      }
    }
  }
}

=== FILE: loader_props.dfy ===
// What the MySQL batch loaders guarantee, proved over every row sequence and
// every failure oracle: foreign keys stay valid, each mutation id is written
// once, equal location keys share an id (and, as `insert_main_data` is
// written, never do), biens stay tied to their location, the counters add
// up, and a failed commit leaves exactly the committed snapshot.

module LoaderProps {
  import opened Wrappers
  import opened Values
  import opened Store
  import opened Keys
  import opened Loader

  // ---------------------------------------------------------- invariants

  /** Some statement of the log inserted bien `b` under location `l`. */
  predicate LoggedBien(log: seq<Stmt>, b: nat, l: int) {
    exists x :: 0 <= x < |log| && log[x].BienStmt? && log[x].bien == b && log[x].loc == l
  }

  lemma LoggedBienGrows(log: seq<Stmt>, more: seq<Stmt>, b: nat, l: int)
    requires LoggedBien(log, b, l)
    ensures LoggedBien(log + more, b, l)
  {
    var x :| 0 <= x < |log| && log[x].BienStmt? && log[x].bien == b && log[x].loc == l;
    assert (log + more)[x] == log[x];
  }

  /** Bien ids are written once, so a logged bien has one location. */
  lemma LoggedBienUnique(log: seq<Stmt>, seen: set<string>, b: nat, l1: int, l2: int)
    requires LogOk(log, seen) && LoggedBien(log, b, l1) && LoggedBien(log, b, l2)
    ensures l1 == l2
  {
    var x :| 0 <= x < |log| && log[x].BienStmt? && log[x].bien == b && log[x].loc == l1;
    var y :| 0 <= y < |log| && log[y].BienStmt? && log[y].bien == b && log[y].loc == l2;
    assert !(x < y) && !(y < x);
  }

  /** The caches and the log only name rows the database holds. */
  predicate Live(db: Db, c: Caches, log: seq<Stmt>) {
    c.seen <= db.mutations.Keys
    && (forall k :: k in c.locs ==> ValidLoc(db, c.locs[k]))
    && (forall k :: k in c.biens ==> ValidBien(db, c.biens[k]))
    && (forall x :: 0 <= x < |log| && log[x].LocStmt? ==> ValidLoc(db, log[x].loc))
    && (forall x :: 0 <= x < |log| && log[x].BienStmt? ==> ValidBien(db, log[x].bien))
  }

  predicate MutationsOnce(log: seq<Stmt>) {
    forall x, y :: 0 <= x < y < |log| && log[x].MutationStmt? && log[y].MutationStmt? ==> log[x].id != log[y].id
  }

  /** Mutation ids are non-empty, cached and written once; location and bien ids only grow. */
  predicate LogOk(log: seq<Stmt>, seen: set<string>) {
    MutationsOnce(log)
    && (forall x :: 0 <= x < |log| && log[x].MutationStmt? ==> log[x].id in seen && log[x].id != "")
    && (forall x :: 0 <= x < |log| && log[x].LinkStmt? ==> log[x].mutation != "")
    && (forall x, y :: 0 <= x < y < |log| && log[x].LocStmt? && log[y].LocStmt? ==> log[x].loc < log[y].loc)
    && (forall x, y :: 0 <= x < y < |log| && log[x].BienStmt? && log[y].BienStmt? ==> log[x].bien < log[y].bien)
  }

  /** Every cached bien was inserted under the location its key ends with. */
  predicate BienCacheLogged(c: Caches, log: seq<Stmt>) {
    forall ck :: ck in c.biens ==> KeyLoc(ck).Some? && LoggedBien(log, c.biens[ck], KeyLoc(ck).value)
  }

  /** `insert_main_data` only ever writes serialized location keys. */
  predicate LocKeysShape(p: Policy, c: Caches) {
    p.InsertData? ==> forall k :: k in c.locs ==> k.StrKey?
  }

  predicate AccInv(p: Policy, log: seq<Stmt>, a: Acc) {
    var full := log + a.stmts;
    Consistent(a.db) && LotsUnique(a.db.lots)
    && Live(a.db, a.caches, full) && LogOk(full, a.caches.seen) && BienCacheLogged(a.caches, full)
    && LocKeysShape(p, a.caches)
    && (a.loc.Some? ==> ValidLoc(a.db, a.loc.value))
    && (a.bien.Some? ==> ValidBien(a.db, a.bien.value) && a.loc.Some? && LoggedBien(full, a.bien.value, a.loc.value))
  }

  // --------------------------------------------------------- stage proofs

  lemma LogExtend(log: seq<Stmt>, st: Stmt, seen: set<string>, seen': set<string>)
    requires LogOk(log, seen) && seen <= seen'
    requires st.MutationStmt? ==> st.id !in seen && st.id != "" && st.id in seen'
    requires st.LinkStmt? ==> st.mutation != ""
    requires st.LocStmt? ==> forall x :: 0 <= x < |log| && log[x].LocStmt? ==> log[x].loc < st.loc
    requires st.BienStmt? ==> forall x :: 0 <= x < |log| && log[x].BienStmt? ==> log[x].bien < st.bien
    ensures LogOk(log + [st], seen')
  {
    var l' := log + [st];
    assert forall x :: 0 <= x < |log| ==> l'[x] == log[x];
    assert l'[|log|] == st;
  }

  lemma CacheLogExtend(c: Caches, log: seq<Stmt>, st: Stmt)
    requires BienCacheLogged(c, log)
    ensures BienCacheLogged(c, log + [st])
  {
    forall ck | ck in c.biens
      ensures LoggedBien(log + [st], c.biens[ck], KeyLoc(ck).value)
    {
      LoggedBienGrows(log, [st], c.biens[ck], KeyLoc(ck).value);
    }
  }

  /** Live survives a database that only grows and one more statement naming existing rows. */
  lemma LiveExtend(db: Db, db': Db, c: Caches, log: seq<Stmt>, st: Stmt)
    requires Live(db, c, log)
    requires db.mutations.Keys <= db'.mutations.Keys && |db.locs| <= |db'.locs| && |db.biens| <= |db'.biens|
    requires st.LocStmt? ==> ValidLoc(db', st.loc)
    requires st.BienStmt? ==> ValidBien(db', st.bien)
    ensures Live(db', c, log + [st])
  {
    var l' := log + [st];
    assert forall x :: 0 <= x < |log| ==> l'[x] == log[x];
  }

  /** The bien an accumulator resolved stays logged when a statement is appended. */
  lemma IdsExtend(a: Acc, log: seq<Stmt>, st: Stmt)
    requires a.bien.Some? ==> a.loc.Some? && LoggedBien(log, a.bien.value, a.loc.value)
    ensures a.bien.Some? ==> LoggedBien(log + [st], a.bien.value, a.loc.value)
  {
    if a.bien.Some? {
      LoggedBienGrows(log, [st], a.bien.value, a.loc.value);
    }
  }

  lemma MutationStageKeeps(p: Policy, log: seq<Stmt>, row: Row, faults: set<Op>, a: Acc)
    requires AccInv(p, log, a)
    ensures AccInv(p, log, MutationStage(row, faults, a))
  {
    var r := MutationStage(row, faults, a);
    if r.stmts != a.stmts {
      var st := MutationStmt(MutationId(row).s);
      var full := log + a.stmts;
      assert log + r.stmts == full + [st];
      LogExtend(full, st, a.caches.seen, r.caches.seen);
      CacheLogExtend(a.caches, full, st);
      LiveExtend(a.db, r.db, a.caches, full, st);
      IdsExtend(a, full, st);
      assert Consistent(r.db);
    }
  }

  lemma LocStageKeeps(p: Policy, log: seq<Stmt>, row: Row, faults: set<Op>, a: Acc)
    requires AccInv(p, log, a) && a.bien.None?
    ensures AccInv(p, log, LocStage(p, row, faults, a))
  {
    var r := LocStage(p, row, faults, a);
    if r.stmts != a.stmts {
      var id := |a.db.locs| + 1;
      var st := LocStmt(id);
      var full := log + a.stmts;
      assert log + r.stmts == full + [st];
      LogExtend(full, st, a.caches.seen, r.caches.seen);
      CacheLogExtend(a.caches, full, st);
      LiveExtend(a.db, r.db, a.caches, full, st);
      IdsExtend(a, full, st);
      ConsistentSteps(a.db);
      assert r.db == InsertLoc(a.db, LocRecord(row)).0;
    }
  }

  lemma BienInsertKeeps(p: Policy, log: seq<Stmt>, row: Row, a: Acc, key: seq<Value>)
    requires AccInv(p, log, a) && a.loc.Some? && ValidLoc(a.db, a.loc.value)
    requires |key| == 5 && key[4] == Int(a.loc.value)
    ensures var loc := a.loc.value;
      var id := |a.db.biens| + 1;
      AccInv(p, log, a.(db := a.db.(biens := a.db.biens + [BienRecord(row, key[3], loc)]),
                        caches := a.caches.(biens := a.caches.biens[StoreKey(p, key) := id]),
                        stmts := a.stmts + [BienStmt(id, loc)], bien := Some(id)))
  {
    var loc := a.loc.value;
    var id := |a.db.biens| + 1;
    var ck := StoreKey(p, key);
    var r := a.(db := a.db.(biens := a.db.biens + [BienRecord(row, key[3], loc)]),
                caches := a.caches.(biens := a.caches.biens[ck := id]),
                stmts := a.stmts + [BienStmt(id, loc)], bien := Some(id));
    var st := BienStmt(id, loc);
    var full := log + a.stmts;
    var full' := full + [st];
    assert log + r.stmts == full';
    assert Consistent(r.db) by {
      ConsistentSteps(a.db);
      assert r.db == InsertBien(a.db, BienRecord(row, key[3], loc)).0;
    }
    assert LogOk(full', r.caches.seen) by {
      LogExtend(full, st, a.caches.seen, r.caches.seen);
    }
    assert Live(r.db, r.caches, full') by {
      LiveExtend(a.db, r.db, a.caches, full, st);
    }
    assert LoggedBien(full', id, loc) by {
      assert full'[|full|] == st;
    }
    assert BienCacheLogged(r.caches, full') by {
      CacheLogExtend(a.caches, full, st);
      if p.InsertData? {
        SerializedLoc(key, loc);
      } else {
        TupleKeyLoc(key, loc);
      }
      assert KeyLoc(ck) == Some(loc);
    }
  }

  lemma BienStageKeeps(p: Policy, log: seq<Stmt>, row: Row, faults: set<Op>, a: Acc)
    requires AccInv(p, log, a)
    ensures AccInv(p, log, BienStage(p, row, faults, a))
  {
    var r := BienStage(p, row, faults, a);
    if r.stmts != a.stmts {
      BienInsertKeeps(p, log, row, a, BienKeyOf(p, row, a.loc.value).value);
    } else if r.bien != a.bien {
      var loc := a.loc.value;
      var key := BienKeyOf(p, row, loc).value;
      if p.InsertData? {
        SerializedLoc(key, loc);
      } else {
        TupleKeyLoc(key, loc);
      }
    }
  }

  lemma LinkStageKeeps(p: Policy, log: seq<Stmt>, row: Row, faults: set<Op>, a: Acc)
    requires AccInv(p, log, a)
    requires !a.failed && Filled(MutationId(row)) ==> MutationId(row).s in a.caches.seen
    ensures AccInv(p, log, LinkStage(row, faults, a))
  {
    var r := LinkStage(row, faults, a);
    if r.stmts != a.stmts {
      var st := LinkStmt(MutationId(row).s, a.bien.value);
      var full := log + a.stmts;
      assert log + r.stmts == full + [st];
      LogExtend(full, st, a.caches.seen, r.caches.seen);
      CacheLogExtend(a.caches, full, st);
      LiveExtend(a.db, r.db, a.caches, full, st);
      IdsExtend(a, full, st);
      ConsistentSteps(a.db);
    }
  }

  lemma LotSlotKeeps(p: Policy, log: seq<Stmt>, row: Row, faults: set<Op>, a: Acc, slot: nat)
    requires 1 <= slot <= 5 && a.bien.Some?
    requires AccInv(p, log, a)
    ensures AccInv(p, log, LotSlot(row, faults, a, slot))
  {
    var r := LotSlot(row, faults, a, slot);
    if r.stmts != a.stmts {
      var numero := LotNumero(row, slot).s;
      var surface := NumberCell(CleanNumeric(Get(row, LotCarrezColumns[slot - 1])));
      var st := LotStmt(a.bien.value, numero);
      var full := log + a.stmts;
      assert log + r.stmts == full + [st];
      LogExtend(full, st, a.caches.seen, a.caches.seen);
      CacheLogExtend(a.caches, full, st);
      LiveExtend(a.db, r.db, a.caches, full, st);
      IdsExtend(a, full, st);
      ConsistentSteps(a.db);
      UpsertLotKeepsUnique(a.db, a.bien.value, numero, surface);
    }
  }

  lemma {:induction false} LotStageKeeps(p: Policy, log: seq<Stmt>, row: Row, faults: set<Op>, a: Acc, slot: nat)
    requires 1 <= slot <= 6 && a.bien.Some? && a.bien.value != 0
    requires AccInv(p, log, a)
    ensures AccInv(p, log, LotStage(row, faults, a, slot))
    decreases 6 - slot
  {
    if !a.failed && slot < 6 {
      LotSlotKeeps(p, log, row, faults, a, slot);
      LotStageKeeps(p, log, row, faults, LotSlot(row, faults, a, slot), slot + 1);
    }
  }

  lemma RowStepKeeps(p: Policy, log: seq<Stmt>, row: Row, faults: set<Op>, db: Db, c: Caches)
    requires AccInv(p, log, Acc(db, c, [], false, None, None))
    ensures AccInv(p, log, RowStep(p, row, faults, db, c))
  {
    var a0 := Acc(db, c, [], false, None, None);
    var a1 := MutationStage(row, faults, a0);
    MutationStageKeeps(p, log, row, faults, a0);
    var a2 := LocStage(p, row, faults, a1);
    LocStageKeeps(p, log, row, faults, a1);
    var a3 := BienStage(p, row, faults, a2);
    BienStageKeeps(p, log, row, faults, a2);
    assert !a3.failed ==> !a1.failed && a3.caches.seen == a1.caches.seen;
    LinkStageKeeps(p, log, row, faults, a3);
    var a4 := LinkStage(row, faults, a3);
    if p.PopulateDb? && a4.bien.Some? && a4.bien.value != 0 {
      LotStageKeeps(p, log, row, faults, a4, 1);
    }
  }

  // ---------------------------------------------------------- one row

  /**
   * How a row may change the location cache and table: it leaves both as
   * they are, having read its id from the cache under the key the policy
   * stores, or its membership test missed and it inserted one location,
   * cached under that key.
   */
  predicate LocChange(p: Policy, key: seq<Value>, s: State, a: Acc) {
    (a.caches.locs == s.caches.locs && |a.db.locs| == |s.db.locs|
     && (a.loc.Some? ==> LocProbe(p, key) in s.caches.locs && StoreKey(p, key) in s.caches.locs
                         && a.loc.value == s.caches.locs[StoreKey(p, key)]))
    || (LocProbe(p, key) !in s.caches.locs && a.caches.locs == s.caches.locs[StoreKey(p, key) := |s.db.locs| + 1]
        && |a.db.locs| == |s.db.locs| + 1 && a.loc == Some(|s.db.locs| + 1))
  }

  lemma RowLocs(p: Policy, row: Row, faults: set<Op>, s: State)
    ensures LocChange(p, LocKey(row), s, RowStep(p, row, faults, s.db, s.caches))
  {
    var a0 := Acc(s.db, s.caches, [], false, None, None);
    var a1 := MutationStage(row, faults, a0);
    var a2 := LocStage(p, row, faults, a1);
    var a3 := BienStage(p, row, faults, a2);
    var a4 := LinkStage(row, faults, a3);
    assert a1.db.locs == s.db.locs && a1.caches.locs == s.caches.locs && a1.loc.None?;
    assert a4.db.locs == a2.db.locs && a4.caches.locs == a2.caches.locs && a4.loc == a2.loc;
  }

  /**
   * How a row may change the bien cache: entries are only ever added, and a
   * bien the row resolved is cached under its key, built from the row's
   * location id.
   */
  predicate BienChange(p: Policy, row: Row, s: State, a: Acc) {
    (forall k :: k in s.caches.biens ==> k in a.caches.biens && a.caches.biens[k] == s.caches.biens[k])
    && (a.bien.Some? ==>
          a.loc.Some? && BienKeyOf(p, row, a.loc.value).Some?
          && StoreKey(p, BienKeyOf(p, row, a.loc.value).value) in a.caches.biens
          && a.caches.biens[StoreKey(p, BienKeyOf(p, row, a.loc.value).value)] == a.bien.value)
  }

  lemma RowBiens(p: Policy, row: Row, faults: set<Op>, s: State)
    ensures BienChange(p, row, s, RowStep(p, row, faults, s.db, s.caches))
  {
    var a0 := Acc(s.db, s.caches, [], false, None, None);
    var a1 := MutationStage(row, faults, a0);
    var a2 := LocStage(p, row, faults, a1);
    var a3 := BienStage(p, row, faults, a2);
    var a4 := LinkStage(row, faults, a3);
    assert a2.caches.biens == s.caches.biens && a2.bien.None?;
    assert a4.caches.biens == a3.caches.biens && a4.bien == a3.bien && a4.loc == a3.loc;
  }

  // ---------------------------------------------------------- the loop

  predicate Inv(p: Policy, s: State) {
    Consistent(s.committed) && LotsUnique(s.committed.lots)
    && Consistent(s.db) && LotsUnique(s.db.lots)
    && (s.halted ==> s.db == s.committed)
    && LogOk(s.issued, s.caches.seen) && BienCacheLogged(s.caches, s.issued) && LocKeysShape(p, s.caches)
    && (!s.halted ==> Live(s.db, s.caches, s.issued))
  }

  lemma ApplyInv(p: Policy, s: State, a: Acc, faults: set<Op>)
    requires Inv(p, s) && !s.halted && AccInv(p, s.issued, a)
    ensures Inv(p, Apply(p, s, a, faults))
  {
  }

  lemma StepInv(p: Policy, s: State, row: Row, faults: set<Op>)
    requires Inv(p, s)
    ensures Inv(p, Step(p, s, row, faults))
  {
    if !s.halted {
      assert s.issued + [] == s.issued;
      RowStepKeeps(p, s.issued, row, faults, s.db, s.caches);
      ApplyInv(p, s, RowStep(p, row, faults, s.db, s.caches), faults);
    }
  }

  function Multiples(n: nat): (m: seq<nat>)
    ensures |m| == n
  {
    seq(n, k requires 0 <= k < n => (k + 1) * BatchSize)
  }

  /**
   * The counters: every row is counted once; `insert_main_data` commits at
   * exactly the multiples of the batch size; the bulk script commits at
   * every multiple too, and only at multiples.
   */
  predicate Counted(p: Policy, s: State) {
    |s.results| == s.inserted + s.skipped
    && (p.InsertData? ==> s.commits == Multiples(s.inserted / BatchSize))
    && (p.PopulateDb? ==>
          (forall k :: 0 <= k < |s.commits| ==> 0 < s.commits[k] <= s.inserted && s.commits[k] % BatchSize == 0)
          && (forall m :: 1 <= m <= s.inserted / BatchSize ==> m * BatchSize in s.commits))
  }

  lemma NextQuotient(i: nat)
    ensures (i + 1) % BatchSize == 0 ==> (i + 1) / BatchSize == i / BatchSize + 1 && (i + 1) / BatchSize * BatchSize == i + 1
    ensures (i + 1) % BatchSize != 0 ==> (i + 1) / BatchSize == i / BatchSize
  {
  }

  lemma ApplyCounts(p: Policy, s: State, a: Acc, faults: set<Op>)
    requires Counted(p, s)
    ensures Counted(p, Apply(p, s, a, faults))
  {
    var r := Apply(p, s, a, faults);
    NextQuotient(s.inserted);
    if !a.failed && (s.inserted + 1) % BatchSize == 0 {
      assert r.commits == s.commits + [s.inserted + 1];
      if p.InsertData? {
        assert Multiples((s.inserted + 1) / BatchSize) == Multiples(s.inserted / BatchSize) + [s.inserted + 1];
      }
    }
  }

  lemma StepCounts(p: Policy, s: State, row: Row, faults: set<Op>)
    requires Counted(p, s)
    ensures Counted(p, Step(p, s, row, faults))
  {
    if !s.halted {
      ApplyCounts(p, s, RowStep(p, row, faults, s.db, s.caches), faults);
    }
  }

  predicate LocsResolved(p: Policy, rows: seq<Row>, s: State)
    requires |s.results| <= |rows|
  {
    forall i :: 0 <= i < |s.results| && s.results[i].loc.Some? ==>
      StoreKey(p, LocKey(rows[i])) in s.caches.locs && s.caches.locs[StoreKey(p, LocKey(rows[i]))] == s.results[i].loc.value
  }

  predicate LocsIncrease(s: State) {
    forall i, j :: 0 <= i < j < |s.results| && s.results[i].loc.Some? && s.results[j].loc.Some? ==>
      s.results[i].loc.value < s.results[j].loc.value
  }

  predicate LocsBelow(s: State) {
    forall i :: 0 <= i < |s.results| && s.results[i].loc.Some? ==> s.results[i].loc.value <= |s.db.locs|
  }

  predicate BiensLogged(s: State) {
    forall i :: 0 <= i < |s.results| && s.results[i].bien.Some? ==>
      s.results[i].loc.Some? && LoggedBien(s.issued, s.results[i].bien.value, s.results[i].loc.value)
  }

  /** Every location id a row resolved is truthy, so the bien step is never skipped for a resolved row. */
  predicate LocsPositive(s: State) {
    forall i :: 0 <= i < |s.results| && s.results[i].loc.Some? ==> s.results[i].loc.value >= 1
  }

  /** Some row after row i resolved a location under the same serialized key. */
  predicate ResolvedLater(rows: seq<Row>, s: State, i: nat)
    requires |s.results| <= |rows|
  {
    exists j :: i < j < |s.results| && s.results[j].loc.Some? && Serialize(LocKey(rows[j])) == Serialize(LocKey(rows[i]))
  }

  /** As written, the cache holds, for each serialized key, the id of the last row that inserted under it. */
  predicate LastWins(rows: seq<Row>, s: State)
    requires |s.results| <= |rows|
  {
    forall i :: 0 <= i < |s.results| && s.results[i].loc.Some? ==>
      StrKey(Serialize(LocKey(rows[i]))) in s.caches.locs
      && (s.caches.locs[StrKey(Serialize(LocKey(rows[i])))] == s.results[i].loc.value || ResolvedLater(rows, s, i))
  }

  /** Every bien a row resolved is truthy and is still cached under the key that row built. */
  predicate BiensResolved(p: Policy, rows: seq<Row>, s: State)
    requires |s.results| <= |rows|
  {
    forall i :: 0 <= i < |s.results| && s.results[i].bien.Some? ==>
      s.results[i].bien.value >= 1 && s.results[i].loc.Some?
      && BienKeyOf(p, rows[i], s.results[i].loc.value).Some?
      && StoreKey(p, BienKeyOf(p, rows[i], s.results[i].loc.value).value) in s.caches.biens
      && s.caches.biens[StoreKey(p, BienKeyOf(p, rows[i], s.results[i].loc.value).value)] == s.results[i].bien.value
  }

  lemma ApplyBiensResolved(p: Policy, rows: seq<Row>, s: State, a: Acc, faults: set<Op>)
    requires |rows| > 0 && |s.results| == |rows| - 1 && !s.halted
    requires BiensResolved(p, rows[..|rows| - 1], s)
    requires BienChange(p, rows[|rows| - 1], s, a)
    requires a.bien.Some? ==> ValidBien(a.db, a.bien.value)
    ensures BiensResolved(p, rows, Apply(p, s, a, faults))
  {
    var n := |rows| - 1;
    var r := Apply(p, s, a, faults);
    assert r.results == s.results + [RowResult(!a.failed, a.loc, a.bien)];
    assert r.caches == a.caches;
    forall i | 0 <= i < |r.results| && r.results[i].bien.Some?
      ensures r.results[i].bien.value >= 1 && r.results[i].loc.Some?
      ensures BienKeyOf(p, rows[i], r.results[i].loc.value).Some?
      ensures StoreKey(p, BienKeyOf(p, rows[i], r.results[i].loc.value).value) in r.caches.biens
      ensures r.caches.biens[StoreKey(p, BienKeyOf(p, rows[i], r.results[i].loc.value).value)] == r.results[i].bien.value
    {
      if i < n {
        assert rows[..n][i] == rows[i];
        assert r.results[i] == s.results[i];
      }
    }
  }

  predicate ResultsOk(p: Policy, rows: seq<Row>, db0: Db, s: State) {
    |s.results| <= |rows| && (!s.halted ==> |s.results| == |rows|)
    && BiensLogged(s) && LocsPositive(s) && BiensResolved(p, rows, s)
    && (p != InsertData(false) ==>
          LocsResolved(p, rows, s) && (!s.halted ==> |s.db.locs| == |db0.locs| + |s.caches.locs|))
    && (p == InsertData(false) ==> LocsIncrease(s) && LastWins(rows, s) && (!s.halted ==> LocsBelow(s)))
  }

  lemma ApplyBiens(p: Policy, s: State, a: Acc, faults: set<Op>)
    requires BiensLogged(s) && LocsPositive(s) && AccInv(p, s.issued, a)
    ensures BiensLogged(Apply(p, s, a, faults)) && LocsPositive(Apply(p, s, a, faults))
  {
    var r := Apply(p, s, a, faults);
    assert r.issued == s.issued + a.stmts;
    forall i | 0 <= i < |r.results| && r.results[i].bien.Some?
      ensures r.results[i].loc.Some? && LoggedBien(r.issued, r.results[i].bien.value, r.results[i].loc.value)
    {
      if i < |s.results| {
        assert r.results[i] == s.results[i];
        LoggedBienGrows(s.issued, a.stmts, s.results[i].bien.value, s.results[i].loc.value);
      }
    }
  }

  /** What the bookkeeping after a row records, whether or not it commits. */
  lemma ApplyFields(p: Policy, s: State, a: Acc, faults: set<Op>)
    ensures Apply(p, s, a, faults).results == s.results + [RowResult(!a.failed, a.loc, a.bien)]
    ensures Apply(p, s, a, faults).caches == a.caches
    ensures Apply(p, s, a, faults).issued == s.issued + a.stmts
    ensures !Apply(p, s, a, faults).halted ==> Apply(p, s, a, faults).db == a.db
  {
  }

  lemma ApplyDedup(p: Policy, rows: seq<Row>, db0: Db, s: State, a: Acc, faults: set<Op>)
    requires p != InsertData(false)
    requires |rows| > 0 && |s.results| == |rows| - 1 && !s.halted
    requires LocsResolved(p, rows[..|rows| - 1], s) && |s.db.locs| == |db0.locs| + |s.caches.locs|
    requires LocChange(p, LocKey(rows[|rows| - 1]), s, a)
    ensures var r := Apply(p, s, a, faults);
      LocsResolved(p, rows, r) && (!r.halted ==> |r.db.locs| == |db0.locs| + |r.caches.locs|)
  {
    var r := Apply(p, s, a, faults);
    ApplyFields(p, s, a, faults);
    assert LocProbe(p, LocKey(rows[|rows| - 1])) == StoreKey(p, LocKey(rows[|rows| - 1]));
    DedupResolved(p, rows, s, a, r);
  }

  /** A row's location is cached under its key and no earlier entry is overwritten, so every resolved row stays resolved. */
  lemma DedupResolved(p: Policy, rows: seq<Row>, s: State, a: Acc, r: State)
    requires |rows| > 0 && |s.results| == |rows| - 1
    requires LocsResolved(p, rows[..|rows| - 1], s)
    requires LocProbe(p, LocKey(rows[|rows| - 1])) == StoreKey(p, LocKey(rows[|rows| - 1]))
    requires LocChange(p, LocKey(rows[|rows| - 1]), s, a)
    requires r.results == s.results + [RowResult(!a.failed, a.loc, a.bien)] && r.caches == a.caches
    ensures LocsResolved(p, rows, r)
  {
    var n := |rows| - 1;
    forall i | 0 <= i < |r.results| && r.results[i].loc.Some?
      ensures StoreKey(p, LocKey(rows[i])) in r.caches.locs
        && r.caches.locs[StoreKey(p, LocKey(rows[i]))] == r.results[i].loc.value
    {
      if i < n {
        assert rows[..n][i] == rows[i];
        assert r.results[i] == s.results[i];
      }
    }
  }

  lemma ApplyAsWritten(rows: seq<Row>, s: State, a: Acc, faults: set<Op>)
    requires |rows| > 0 && !s.halted
    requires LocKeysShape(InsertData(false), s.caches)
    requires LocsIncrease(s) && LocsBelow(s)
    requires LocChange(InsertData(false), LocKey(rows[|rows| - 1]), s, a)
    ensures var r := Apply(InsertData(false), s, a, faults);
      LocsIncrease(r) && (!r.halted ==> LocsBelow(r))
  {
    var r := Apply(InsertData(false), s, a, faults);
    assert TupleKey(LocKey(rows[|rows| - 1])) !in s.caches.locs;
    assert r.results == s.results + [RowResult(!a.failed, a.loc, a.bien)];
    assert !r.halted ==> r.db == a.db;
  }

  lemma LaterGrows(rows: seq<Row>, s: State, r: State, i: nat)
    requires |rows| > 0 && |s.results| == |rows| - 1 && |r.results| == |rows|
    requires r.results[..|s.results|] == s.results
    requires ResolvedLater(rows[..|rows| - 1], s, i)
    ensures ResolvedLater(rows, r, i)
  {
    var n := |rows| - 1;
    var j :| i < j < |s.results| && s.results[j].loc.Some?
      && Serialize(LocKey(rows[..n][j])) == Serialize(LocKey(rows[..n][i]));
    assert rows[..n][j] == rows[j] && rows[..n][i] == rows[i];
    assert r.results[..|s.results|][j] == r.results[j];
  }

  lemma ApplyLastWins(rows: seq<Row>, s: State, a: Acc, faults: set<Op>)
    requires |rows| > 0 && |s.results| == |rows| - 1 && !s.halted
    requires LocKeysShape(InsertData(false), s.caches)
    requires LastWins(rows[..|rows| - 1], s)
    requires LocChange(InsertData(false), LocKey(rows[|rows| - 1]), s, a)
    ensures LastWins(rows, Apply(InsertData(false), s, a, faults))
  {
    var n := |rows| - 1;
    var r := Apply(InsertData(false), s, a, faults);
    var kn := StrKey(Serialize(LocKey(rows[n])));
    assert TupleKey(LocKey(rows[n])) !in s.caches.locs;
    assert r.results == s.results + [RowResult(!a.failed, a.loc, a.bien)];
    assert r.caches == a.caches;
    forall i | 0 <= i < |r.results| && r.results[i].loc.Some?
      ensures StrKey(Serialize(LocKey(rows[i]))) in r.caches.locs
      ensures r.caches.locs[StrKey(Serialize(LocKey(rows[i])))] == r.results[i].loc.value || ResolvedLater(rows, r, i)
    {
      if i < n {
        assert rows[..n][i] == rows[i];
        assert r.results[i] == s.results[i];
        var ki := StrKey(Serialize(LocKey(rows[i])));
        if r.caches.locs[ki] != r.results[i].loc.value {
          if a.loc.Some? && ki == kn {
            assert r.results[n].loc.Some?;
          } else {
            assert r.results[..|s.results|] == s.results;
            LaterGrows(rows, s, r, i);
          }
        }
      }
    }
  }

  lemma ApplyResults(p: Policy, rows: seq<Row>, db0: Db, s: State, a: Acc, faults: set<Op>)
    requires |rows| > 0 && !s.halted && Inv(p, s) && AccInv(p, s.issued, a)
    requires ResultsOk(p, rows[..|rows| - 1], db0, s)
    requires LocChange(p, LocKey(rows[|rows| - 1]), s, a)
    requires BienChange(p, rows[|rows| - 1], s, a)
    ensures ResultsOk(p, rows, db0, Apply(p, s, a, faults))
  {
    ApplyBiens(p, s, a, faults);
    ApplyBiensResolved(p, rows, s, a, faults);
    if p != InsertData(false) {
      ApplyDedup(p, rows, db0, s, a, faults);
    } else {
      ApplyAsWritten(rows, s, a, faults);
      ApplyLastWins(rows, s, a, faults);
    }
  }

  lemma StepResults(p: Policy, rows: seq<Row>, db0: Db, s: State, faults: set<Op>)
    requires |rows| > 0 && Inv(p, s)
    requires ResultsOk(p, rows[..|rows| - 1], db0, s)
    ensures ResultsOk(p, rows, db0, Step(p, s, rows[|rows| - 1], faults))
  {
    if !s.halted {
      RowResults(p, rows, db0, s, faults);
    } else {
      HaltedResults(p, rows, db0, s);
    }
  }

  /** The checks made along one row, carried over to the bookkeeping after it. */
  lemma RowResults(p: Policy, rows: seq<Row>, db0: Db, s: State, faults: set<Op>)
    requires |rows| > 0 && Inv(p, s) && !s.halted
    requires ResultsOk(p, rows[..|rows| - 1], db0, s)
    ensures ResultsOk(p, rows, db0, Apply(p, s, RowStep(p, rows[|rows| - 1], faults, s.db, s.caches), faults))
  {
    var row := rows[|rows| - 1];
    assert s.issued + [] == s.issued;
    RowStepKeeps(p, s.issued, row, faults, s.db, s.caches);
    RowLocs(p, row, faults, s);
    RowBiens(p, row, faults, s);
    ApplyResults(p, rows, db0, s, RowStep(p, row, faults, s.db, s.caches), faults);
  }

  /** A halted loop records no further result, so what held of the earlier rows still holds. */
  lemma HaltedResults(p: Policy, rows: seq<Row>, db0: Db, s: State)
    requires |rows| > 0 && s.halted
    requires ResultsOk(p, rows[..|rows| - 1], db0, s)
    ensures ResultsOk(p, rows, db0, s)
  {
    var n := |rows| - 1;
    assert forall i :: 0 <= i < |s.results| ==> rows[..n][i] == rows[i];
    if p == InsertData(false) {
      forall i | 0 <= i < |s.results| && ResolvedLater(rows[..n], s, i) ensures ResolvedLater(rows, s, i) {
        var j :| i < j < |s.results| && s.results[j].loc.Some?
          && Serialize(LocKey(rows[..n][j])) == Serialize(LocKey(rows[..n][i]));
      }
    }
  }

  lemma {:induction false} RunInv(p: Policy, rows: seq<Row>, faults: seq<set<Op>>, db0: Db)
    requires Consistent(db0) && LotsUnique(db0.lots)
    ensures Inv(p, Run(p, rows, faults, Start(db0)))
    decreases |rows|
  {
    if |rows| > 0 {
      var n := |rows| - 1;
      RunInv(p, rows[..n], faults, db0);
      StepInv(p, Run(p, rows[..n], faults, Start(db0)), rows[n], FaultsAt(faults, n));
    }
  }

  lemma {:induction false} RunCounts(p: Policy, rows: seq<Row>, faults: seq<set<Op>>, db0: Db)
    ensures Counted(p, Run(p, rows, faults, Start(db0)))
    decreases |rows|
  {
    if |rows| > 0 {
      var n := |rows| - 1;
      RunCounts(p, rows[..n], faults, db0);
      StepCounts(p, Run(p, rows[..n], faults, Start(db0)), rows[n], FaultsAt(faults, n));
    }
  }

  lemma {:induction false} RunResults(p: Policy, rows: seq<Row>, faults: seq<set<Op>>, db0: Db)
    requires Consistent(db0) && LotsUnique(db0.lots)
    ensures ResultsOk(p, rows, db0, Run(p, rows, faults, Start(db0)))
    decreases |rows|, 1
  {
    if |rows| > 0 {
      var n := |rows| - 1;
      var s := Run(p, rows[..n], faults, Start(db0));
      assert Run(p, rows, faults, Start(db0)) == Step(p, s, rows[n], FaultsAt(faults, n));
      LastStepResults(p, rows, faults, db0);
    }
  }

  /** The step over the last row keeps what the run over the earlier rows established. */
  lemma {:induction false} LastStepResults(p: Policy, rows: seq<Row>, faults: seq<set<Op>>, db0: Db)
    requires Consistent(db0) && LotsUnique(db0.lots) && |rows| > 0
    ensures ResultsOk(p, rows, db0, Step(p, Run(p, rows[..|rows| - 1], faults, Start(db0)), rows[|rows| - 1], FaultsAt(faults, |rows| - 1)))
    decreases |rows|, 0
  {
    var n := |rows| - 1;
    RunResults(p, rows[..n], faults, db0);
    RunInv(p, rows[..n], faults, db0);
    StepResults(p, rows, db0, Run(p, rows[..n], faults, Start(db0)), FaultsAt(faults, n));
  }
}

=== FILE: lots.dfy ===
// The lot pass of the two-pass scripts, `insert_lots_data`: for each cleaned
// row it rebuilds the location and bien keys exactly as `insert_main_data`
// serialized them, looks them up in the two caches that pass saved to JSON,
// and upserts the row's five lot slots under the bien it finds. A slot whose
// statement raises is skipped on its own; a bien key whose conversion raises
// reaches the outer handler, which rolls back and ends the pass.

module Lots {
  import opened Wrappers
  import opened Values
  import opened Store
  import opened Keys
  import opened Loader
  import opened LoaderProps
  import opened LoaderFacts

  /** A cache as written to JSON by the first pass and loaded back: serialized key to id. */
  type Persisted = map<string, nat>

  /** The JSON image of a cache of `insert_main_data`: its string keys, as strings. */
  function Persist(m: map<CacheKey, nat>): (r: Persisted)
    ensures forall t :: t in r <==> StrKey(t) in m
    ensures forall t :: t in r ==> r[t] == m[StrKey(t)]
  {
    map k | k in m && k.StrKey? :: k.text := m[k]
  }

  /** `cache.get(key)` followed by a truth test: present and non-zero. */
  function Hit(m: Persisted, key: string): (r: Option<nat>)
    ensures r.Some? <==> key in m && m[key] != 0
    ensures r.Some? ==> r.value == m[key] && r.value >= 1
  {
    if key in m && m[key] != 0 then Some(m[key]) else None
  }

  /** What a row's key lookups come to: no bien, the bien id, or a conversion that raises. */
  datatype Resolve = NoBien | Found(bien: nat) | Raises

  /**
   * The two lookups: the location key string, then, under a truthy
   * location id, the bien key string built with that id. `int()` or
   * `float()` raising on the bien fields is `Raises`.
   */
  function ResolveBien(row: Row, locs: Persisted, biens: Persisted): Resolve {
    match Hit(locs, Serialize(LocKey(row)))
    case None => NoBien
    case Some(loc) =>
      match MainBienKey(row, loc)
      case None => Raises
      case Some(key) =>
        match Hit(biens, Serialize(key))
        case None => NoBien
        case Some(b) => Found(b)
  }

  // --------------------------------------------------------- lot slots

  /** The lot slots of one row so far: the database, the statements that ran, and the slots whose upsert went through. */
  datatype Slots = Slots(db: Db, stmts: seq<Stmt>, done: set<nat>)

  /**
   * Slot `slot` upserts when its number is present and the statement does
   * not raise; it raises on the oracle, or on a bien id BIEN does not hold
   * (the foreign key of LOT).
   */
  predicate SlotSucceeds(row: Row, faults: set<Op>, db: Db, b: nat, slot: nat)
    requires 1 <= slot <= 5
  {
    Filled(LotNumero(row, slot)) && LotOp(slot) !in faults && ValidBien(db, b)
  }

  /** The Carrez surface of a slot, passed through as the cleaned file holds it. */
  function SlotSurface(row: Row, slot: nat): Value
    requires 1 <= slot <= 5
  {
    Get(row, LotCarrezColumns[slot - 1])
  }

  function LotsSlot(row: Row, faults: set<Op>, b: nat, acc: Slots, slot: nat): (r: Slots)
    requires 1 <= slot <= 5
    ensures r.db == acc.db.(lots := r.db.lots)
  {
    if SlotSucceeds(row, faults, acc.db, b, slot) then
      var numero := LotNumero(row, slot).s;
      Slots(UpsertLot(acc.db, b, numero, SlotSurface(row, slot)),
            acc.stmts + [LotStmt(b, numero)], acc.done + {slot})
    else acc
  }

  /** Slots `slot` to 5, each in its own `try`. */
  function LotsSlots(row: Row, faults: set<Op>, b: nat, acc: Slots, slot: nat): (r: Slots)
    requires 1 <= slot <= 6
    ensures r.db == acc.db.(lots := r.db.lots)
    decreases 6 - slot
  {
    if slot == 6 then acc else LotsSlots(row, faults, b, LotsSlot(row, faults, b, acc, slot), slot + 1)
  }

  /** The slots of a row whose bien was found; nothing for a row without one. */
  function RowSlots(row: Row, faults: set<Op>, res: Resolve, db: Db): Slots {
    if res.Found? then LotsSlots(row, faults, res.bien, Slots(db, [], {}), 1) else Slots(db, [], {})
  }

  // ----------------------------------------------------------- the loop

  datatype LotsState = LotsState(
    db: Db, committed: Db, lots: nat, processed: nat, commits: seq<nat>, halted: bool,
    found: seq<Resolve>, issued: seq<Stmt>)

  function LotsStart(db0: Db): LotsState {
    LotsState(db0, db0, 0, 0, [], false, [], [])
  }

  /**
   * One row: a conversion that raises rolls back and ends the pass; any
   * other row is counted as processed, adds its successful upserts, and
   * commits at every multiple of 10000 processed rows.
   */
  function LotsStep(row: Row, faults: set<Op>, locs: Persisted, biens: Persisted, s: LotsState): (r: LotsState)
    ensures s.halted ==> r == s
  {
    if s.halted then s
    else
      var res := ResolveBien(row, locs, biens);
      if res.Raises? then s.(db := s.committed, halted := true)
      else
        LotsBatch(AddRow(s, res, RowSlots(row, faults, res, s.db)), faults)
  }

  /** The counters after a row that did not raise: one more processed row, its upserts and its statements. */
  function AddRow(s: LotsState, res: Resolve, sl: Slots): LotsState {
    s.(db := sl.db, lots := s.lots + |sl.done|, processed := s.processed + 1,
       found := s.found + [res], issued := s.issued + sl.stmts)
  }

  /** The commit test after a row: every multiple of 10000 processed rows commits, and a commit that raises rolls back and ends the pass. */
  function LotsBatch(s1: LotsState, faults: set<Op>): LotsState {
    if s1.processed % BatchSize == 0 then
      var s2 := s1.(commits := s1.commits + [s1.processed]);
      if CommitOp in faults then s2.(db := s2.committed, halted := true) else s2.(committed := s2.db)
    else s1
  }

  function LotsRun(rows: seq<Row>, faults: seq<set<Op>>, locs: Persisted, biens: Persisted, s0: LotsState): LotsState
    decreases |rows|
  {
    if |rows| == 0 then s0
    else
      var n := |rows| - 1;
      LotsStep(rows[n], FaultsAt(faults, n), locs, biens, LotsRun(rows[..n], faults, locs, biens, s0))
  }

  /** `insert_lots_data`: nothing without rows or with an empty cache; otherwise the loop and the final commit. */
  function InsertLots(rows: seq<Row>, faults: seq<set<Op>>, finalFails: bool, locs: Persisted, biens: Persisted, db0: Db): LotsState {
    if |rows| == 0 || |locs| == 0 || |biens| == 0 then LotsStart(db0)
    else
      var s := LotsRun(rows, faults, locs, biens, LotsStart(db0));
      if s.halted then s
      else if finalFails then s.(db := s.committed, halted := true)
      else s.(committed := s.db)
  }

  // ------------------------------------------------------------ lemmas

  /** Without rows, or with either cache empty, the pass returns before issuing anything. */
  lemma LotsEarlyReturn(rows: seq<Row>, faults: seq<set<Op>>, finalFails: bool, locs: Persisted, biens: Persisted, db0: Db)
    requires |rows| == 0 || |locs| == 0 || |biens| == 0
    ensures var s := InsertLots(rows, faults, finalFails, locs, biens, db0);
      s.db == db0 && s.committed == db0 && s.issued == [] && s.processed == 0 && !s.halted
  {
  }

  /** The lookups find a bien exactly when both rebuilt key strings are in the caches with truthy ids. */
  lemma ResolveFinds(row: Row, locs: Persisted, biens: Persisted, b: nat)
    ensures ResolveBien(row, locs, biens) == Found(b) <==>
      var lk := Serialize(LocKey(row));
      lk in locs && locs[lk] != 0 && MainBienKey(row, locs[lk]).Some?
      && Serialize(MainBienKey(row, locs[lk]).value) in biens
      && biens[Serialize(MainBienKey(row, locs[lk]).value)] == b && b != 0
  {
  }

  /**
   * Each slot stands on its own: slot i's upsert went through exactly when
   * its number is present, its statement did not raise and the bien
   * exists, whatever the other slots did; the count of lots is the count
   * of such slots, and one statement ran per slot.
   */
  lemma {:induction false} SlotsIndependent(row: Row, faults: set<Op>, b: nat, acc: Slots, slot: nat)
    requires 1 <= slot <= 6
    requires forall i :: i in acc.done ==> 1 <= i < slot
    ensures var r := LotsSlots(row, faults, b, acc, slot);
      (forall i :: i in r.done <==> i in acc.done || (slot <= i <= 5 && SlotSucceeds(row, faults, acc.db, b, i)))
      && |r.done| >= |acc.done| && |r.stmts| - |acc.stmts| == |r.done| - |acc.done|
    decreases 6 - slot
  {
    if slot < 6 {
      var next := LotsSlot(row, faults, b, acc, slot);
      assert slot !in acc.done;
      assert ValidBien(next.db, b) == ValidBien(acc.db, b);
      SlotsIndependent(row, faults, b, next, slot + 1);
    }
  }

  /**
   * Every statement the slots run is a lot of the found bien with a
   * non-empty number, and the upserts keep (bien, number) unique and the
   * lot's foreign key valid.
   */
  lemma {:induction false} SlotsKeep(row: Row, faults: set<Op>, b: nat, acc: Slots, slot: nat)
    requires 1 <= slot <= 6 && Consistent(acc.db) && LotsUnique(acc.db.lots)
    ensures var r := LotsSlots(row, faults, b, acc, slot);
      Consistent(r.db) && LotsUnique(r.db.lots)
      && |acc.stmts| <= |r.stmts| && r.stmts[..|acc.stmts|] == acc.stmts
      && forall x :: |acc.stmts| <= x < |r.stmts| ==>
           r.stmts[x].LotStmt? && r.stmts[x].lotBien == b && r.stmts[x].numero != ""
    decreases 6 - slot
  {
    if slot < 6 {
      var next := LotsSlot(row, faults, b, acc, slot);
      if SlotSucceeds(row, faults, acc.db, b, slot) {
        ConsistentSteps(acc.db);
        UpsertLotKeepsUnique(acc.db, b, LotNumero(row, slot).s, SlotSurface(row, slot));
      }
      SlotsKeep(row, faults, b, next, slot + 1);
      var r := LotsSlots(row, faults, b, next, slot + 1);
      assert r.stmts[..|acc.stmts|] == r.stmts[..|next.stmts|][..|acc.stmts|];
      forall x | |acc.stmts| <= x < |r.stmts|
        ensures r.stmts[x].LotStmt? && r.stmts[x].lotBien == b && r.stmts[x].numero != ""
      {
        if x < |next.stmts| {
          assert r.stmts[x] == r.stmts[..|next.stmts|][x];
        }
      }
    }
  }

  /** A slot that goes through leaves exactly one lot with its (bien, number), holding the slot's surface as it was. */
  lemma SlotUpserts(row: Row, faults: set<Op>, b: nat, acc: Slots, slot: nat)
    requires 1 <= slot <= 5 && LotsUnique(acc.db.lots) && SlotSucceeds(row, faults, acc.db, b, slot)
    ensures var r := LotsSlot(row, faults, b, acc, slot);
      var numero := LotNumero(row, slot).s;
      FindLot(r.db.lots, b, numero).Some?
      && r.db.lots[FindLot(r.db.lots, b, numero).value] == Lot(b, numero, SlotSurface(row, slot))
      && |r.db.lots| == |acc.db.lots| + (if FindLot(acc.db.lots, b, numero).Some? then 0 else 1)
  {
    UpsertLotKeepsUnique(acc.db, b, LotNumero(row, slot).s, SlotSurface(row, slot));
  }

  /** The loop invariant of the pass. */
  predicate LotsInv(s: LotsState) {
    LotsBody(s) && s.commits == Multiples(s.processed / BatchSize)
  }

  /** The loop invariant but for the batch commits, which the commit test after each row restores. */
  predicate LotsBody(s: LotsState) {
    Consistent(s.db) && LotsUnique(s.db.lots) && Consistent(s.committed) && LotsUnique(s.committed.lots)
    && (s.halted ==> s.db == s.committed)
    && s.processed == |s.found| && s.lots == |s.issued|
    && (forall k :: 0 <= k < |s.found| ==> !s.found[k].Raises?)
    && (forall x :: 0 <= x < |s.issued| ==> s.issued[x].LotStmt? && s.issued[x].numero != "")
  }

  lemma LotsStepKeeps(row: Row, faults: set<Op>, locs: Persisted, biens: Persisted, s: LotsState)
    requires LotsInv(s)
    ensures LotsInv(LotsStep(row, faults, locs, biens, s))
  {
    if !s.halted {
      var res := ResolveBien(row, locs, biens);
      if !res.Raises? {
        AddRowKeeps(row, faults, res, s);
      }
    }
  }

  /** A row that did not raise keeps the invariant, its commit test included. */
  lemma AddRowKeeps(row: Row, faults: set<Op>, res: Resolve, s: LotsState)
    requires LotsInv(s) && !s.halted && !res.Raises?
    ensures LotsInv(LotsBatch(AddRow(s, res, RowSlots(row, faults, res, s.db)), faults))
  {
    var sl := RowSlots(row, faults, res, s.db);
    RowSlotsKeep(row, faults, res, s.db);
    AppendLotStmts(s.issued, sl.stmts);
    LotsBatchKeeps(AddRow(s, res, sl), faults);
  }

  /** The commit test after a row restores the batch part of the invariant: a commit at every multiple of the batch size. */
  lemma LotsBatchKeeps(s1: LotsState, faults: set<Op>)
    requires LotsBody(s1) && !s1.halted && s1.processed >= 1
    requires s1.commits == Multiples((s1.processed - 1) / BatchSize)
    ensures LotsInv(LotsBatch(s1, faults))
  {
    NextQuotient(s1.processed - 1);
    if s1.processed % BatchSize == 0 {
      assert Multiples(s1.processed / BatchSize) == Multiples((s1.processed - 1) / BatchSize) + [s1.processed];
    }
  }

  /** A row's slots keep the database consistent, run one lot statement per upsert, and nothing else. */
  lemma RowSlotsKeep(row: Row, faults: set<Op>, res: Resolve, db: Db)
    requires Consistent(db) && LotsUnique(db.lots)
    ensures var sl := RowSlots(row, faults, res, db);
      Consistent(sl.db) && LotsUnique(sl.db.lots) && |sl.done| == |sl.stmts|
      && forall x :: 0 <= x < |sl.stmts| ==> sl.stmts[x].LotStmt? && sl.stmts[x].numero != ""
  {
    if res.Found? {
      SlotsIndependent(row, faults, res.bien, Slots(db, [], {}), 1);
      SlotsKeep(row, faults, res.bien, Slots(db, [], {}), 1);
    }
  }

  /** Two logs of non-empty lot statements make one. */
  lemma AppendLotStmts(a: seq<Stmt>, b: seq<Stmt>)
    requires forall x :: 0 <= x < |a| ==> a[x].LotStmt? && a[x].numero != ""
    requires forall x :: 0 <= x < |b| ==> b[x].LotStmt? && b[x].numero != ""
    ensures forall x :: 0 <= x < |a + b| ==> (a + b)[x].LotStmt? && (a + b)[x].numero != ""
  {
  }

  lemma {:induction false} LotsRunKeeps(rows: seq<Row>, faults: seq<set<Op>>, locs: Persisted, biens: Persisted, db0: Db)
    requires Consistent(db0) && LotsUnique(db0.lots)
    ensures LotsInv(LotsRun(rows, faults, locs, biens, LotsStart(db0)))
    decreases |rows|
  {
    if |rows| > 0 {
      var n := |rows| - 1;
      LotsRunKeeps(rows[..n], faults, locs, biens, db0);
      LotsStepKeeps(rows[n], FaultsAt(faults, n), locs, biens, LotsRun(rows[..n], faults, locs, biens, LotsStart(db0)));
    }
  }

  /**
   * The whole pass: it ends on the committed database with every lot's
   * bien existing and no duplicate (bien, number); every row it got
   * through is counted as processed, batch commits happen exactly at the
   * multiples of 10000 processed rows, and the lot counter equals the
   * number of lot statements that went through.
   */
  lemma InsertLotsSound(rows: seq<Row>, faults: seq<set<Op>>, finalFails: bool, locs: Persisted, biens: Persisted, db0: Db)
    requires Consistent(db0) && LotsUnique(db0.lots)
    ensures var s := InsertLots(rows, faults, finalFails, locs, biens, db0);
      s.db == s.committed && Consistent(s.db) && LotsUnique(s.db.lots)
      && s.processed == |s.found| <= |rows| && s.lots == |s.issued|
      && |s.commits| == s.processed / BatchSize
      && (forall k :: 0 <= k < |s.commits| ==> s.commits[k] == (k + 1) * BatchSize)
      && (forall x :: 0 <= x < |s.issued| ==> s.issued[x].LotStmt? && s.issued[x].numero != "")
  {
    if !(|rows| == 0 || |locs| == 0 || |biens| == 0) {
      LotsRunKeeps(rows, faults, locs, biens, db0);
      LotsRunLength(rows, faults, locs, biens, LotsStart(db0));
    }
  }

  lemma {:induction false} LotsRunLength(rows: seq<Row>, faults: seq<set<Op>>, locs: Persisted, biens: Persisted, s0: LotsState)
    ensures |LotsRun(rows, faults, locs, biens, s0).found| <= |s0.found| + |rows|
    decreases |rows|
  {
    if |rows| > 0 {
      LotsRunLength(rows[..|rows| - 1], faults, locs, biens, s0);
    }
  }

  /** A row with no location id or no bien id issues no lot statement and leaves the database as it was. */
  lemma NoBienNoLots(row: Row, faults: set<Op>, locs: Persisted, biens: Persisted, s: LotsState)
    requires !s.halted && ResolveBien(row, locs, biens).NoBien?
    ensures var r := LotsStep(row, faults, locs, biens, s);
      r.issued == s.issued && r.lots == s.lots && r.processed == s.processed + 1
      && (!r.halted ==> r.db == s.db)
  {
  }

  /**
   * The two passes fit together: after `insert_main_data` with the
   * corrected membership test, whether or not it rolled back, every row
   * that resolved a bien finds that same bien id again when the lot pass
   * rebuilds its keys from the caches that were saved.
   */
  lemma CrossRunFindsBien(rows: seq<Row>, faults: seq<set<Op>>, finalFails: bool, db0: Db, i: nat)
    requires Consistent(db0) && LotsUnique(db0.lots) && i < |rows|
    requires var s := Load(InsertData(true), rows, faults, finalFails, db0);
      i < |s.results| && s.results[i].bien.Some?
    ensures var s := Load(InsertData(true), rows, faults, finalFails, db0);
      ResolveBien(rows[i], Persist(s.caches.locs), Persist(s.caches.biens)) == Found(s.results[i].bien.value)
  {
    var s := Load(InsertData(true), rows, faults, finalFails, db0);
    LoadFacts(InsertData(true), rows, faults, finalFails, db0);
    var loc := s.results[i].loc.value;
    assert loc >= 1;
    FoundFromCaches(rows[i], s.caches.locs, s.caches.biens, loc, s.results[i].bien.value);
  }

  /** Keys cached by the first pass under their serialized form are found again by the lot pass. */
  lemma FoundFromCaches(row: Row, locs: map<CacheKey, nat>, biens: map<CacheKey, nat>, loc: nat, b: nat)
    requires loc >= 1 && b >= 1
    requires StrKey(Serialize(LocKey(row))) in locs && locs[StrKey(Serialize(LocKey(row)))] == loc
    requires MainBienKey(row, loc).Some?
    requires StrKey(Serialize(MainBienKey(row, loc).value)) in biens
    requires biens[StrKey(Serialize(MainBienKey(row, loc).value))] == b
    ensures ResolveBien(row, Persist(locs), Persist(biens)) == Found(b)
  {
  }
}

=== FILE: numbers.dfy ===
/**
 * Exact decimal numbers standing in for the Python floats the cleaner
 * produces, with the two parsers the scripts rely on (`float(str)` and
 * `int(str)`) and the `str()` rendering used when cache keys are serialized.
 * Only the fixed-point notation is modelled: exponents, `inf`, `nan` and
 * digit-group underscores are rejected.
 */
module Numbers {
  import opened Wrappers
  import opened Text

  /** The number `mantissa * 10^-scale`. */
  datatype Decimal = Decimal(mantissa: int, scale: nat)

  /** No trailing zero after the decimal point. */
  predicate Canonical(d: Decimal) {
    d.scale == 0 || d.mantissa % 10 != 0
  }

  /** `a` and `b` denote the same number. */
  predicate SameValue(a: Decimal, b: Decimal) {
    a.mantissa * Pow10(b.scale) == b.mantissa * Pow10(a.scale)
  }

  function Abs(x: int): nat {
    if x < 0 then -x else x
  }

  lemma TimesTen(x: int, p: int)
    ensures x * (10 * p) == 10 * (x * p)
    ensures (10 * x) * p == 10 * (x * p)
  {
  }

  lemma DropTen(m: int)
    requires m % 10 == 0
    ensures 10 * (m / 10) == m
  {
  }

  /** One trailing zero removed from the mantissa and the scale keeps the value. */
  lemma ScaleDown(dm: int, m: int, s: nat, ds: nat)
    requires s > 0 && m % 10 == 0
    requires dm * Pow10(s - 1) == (m / 10) * Pow10(ds)
    ensures dm * Pow10(s) == m * Pow10(ds)
  {
    var p, q := Pow10(s - 1), Pow10(ds);
    assert Pow10(s) == 10 * p;
    TimesTen(dm, p);
    TimesTen(m / 10, q);
    DropTen(m);
  }

  /** Strips trailing fractional zeros, keeping the value. */
  function Normalize(m: int, s: nat): (d: Decimal)
    ensures Canonical(d)
    ensures d.scale <= s
    ensures SameValue(d, Decimal(m, s))
    ensures (d.mantissa < 0 <==> m < 0) && (d.mantissa == 0 <==> m == 0)
    decreases s
  {
    if s > 0 && m % 10 == 0 then
      var d := Normalize(m / 10, s - 1);
      ScaleDown(d.mantissa, m, s, d.scale);
      d
    else
      Decimal(m, s)
  }

  lemma MulPowTenDivisible(x: int, k: nat)
    requires k >= 1
    ensures (x * Pow10(k)) % 10 == 0
  {
    var p := Pow10(k - 1);
    assert Pow10(k) == 10 * p;
    TimesTen(x, p);
  }

  /** A decimal equal in value to one of smaller scale ends in a zero digit. */
  lemma {:induction false} ExtraZeros(lo: Decimal, hi: Decimal)
    requires lo.scale < hi.scale
    requires SameValue(lo, hi)
    ensures hi.mantissa % 10 == 0
  {
    var k: nat := hi.scale - lo.scale;
    var pk, pl := Pow10(k), Pow10(lo.scale);
    Pow10Add(lo.scale, k);
    assert Pow10(hi.scale) == pl * pk;
    assert lo.mantissa * (pl * pk) == hi.mantissa * pl;
    assert (lo.mantissa * pk) * pl == hi.mantissa * pl by {
      assert lo.mantissa * (pl * pk) == (lo.mantissa * pk) * pl;
    }
    CancelRight(lo.mantissa * pk, hi.mantissa, pl);
    MulPowTenDivisible(lo.mantissa, k);
  }

  /** Canonical decimals are equal exactly when they denote the same number,
      so comparing cleaned values by representation is comparing numbers. */
  lemma CanonicalUnique(a: Decimal, b: Decimal)
    requires Canonical(a) && Canonical(b)
    ensures SameValue(a, b) <==> a == b
  {
    if SameValue(a, b) {
      if a.scale < b.scale {
        ExtraZeros(a, b);
      } else if b.scale < a.scale {
        ExtraZeros(b, a);
      } else {
        CancelRight(a.mantissa, b.mantissa, Pow10(a.scale));
      }
    }
  }

  /** A canonical decimal is its own normal form. */
  lemma NormalizeCanonical(x: Decimal)
    requires Canonical(x)
    ensures Normalize(x.mantissa, x.scale) == x
  {
    CanonicalUnique(Normalize(x.mantissa, x.scale), x);
  }

  function Negate(d: Decimal): (r: Decimal)
    ensures Canonical(d) ==> Canonical(r)
  {
    assert (-d.mantissa) % 10 == 0 ==> d.mantissa % 10 == 0 by {
      if (-d.mantissa) % 10 == 0 {
        assert d.mantissa == -(10 * ((-d.mantissa) / 10));
      }
    }
    Decimal(-d.mantissa, d.scale)
  }

  lemma NatProduct(a: nat, b: nat)
    ensures a * b >= 0
  {
  }

  /** Python's `float()` on an unsigned fixed-point literal: digits with at
      most one point and at least one digit ("5", "5.", ".5", "44.50"). */
  function ParseUnsigned(t: string): (r: Option<Decimal>)
    ensures r.Some? ==> Canonical(r.value) && r.value.mantissa >= 0
  {
    if '.' in t then
      var k := IndexOf(t, '.');
      var ip, fp := t[..k], t[k + 1..];
      if AllDigits(ip) && AllDigits(fp) && |ip| + |fp| > 0 then
        var m := ValueOf(ip) * Pow10(|fp|) + ValueOf(fp);
        NatProduct(ValueOf(ip), Pow10(|fp|));
        Some(Normalize(m, |fp|))
      else None
    else if |t| > 0 && AllDigits(t) then Some(Decimal(ValueOf(t), 0))
    else None
  }

  /** Python's `float(s)` for fixed-point text: surrounding whitespace is
      ignored and a leading sign is accepted; anything else raises, modelled
      as `None`. */
  function ParseFloat(s: string): (r: Option<Decimal>)
    ensures r.Some? ==> Canonical(r.value)
    ensures IsBlank(s) ==> r.None?
  {
    var t := Strip(s);
    if |t| > 0 && t[0] == '-' then
      match ParseUnsigned(t[1..])
      case Some(u) => Some(Negate(u))
      case None => None
    else if |t| > 0 && t[0] == '+' then ParseUnsigned(t[1..])
    else ParseUnsigned(t)
  }

  /** Python's `int(s)`: optional whitespace and sign around one or more digits. */
  function ParseInt(s: string): Option<int> {
    var t := Strip(s);
    if |t| > 0 && (t[0] == '-' || t[0] == '+') then
      var u := t[1..];
      if |u| > 0 && AllDigits(u) then
        var v: int := if t[0] == '-' then 0 - ValueOf(u) else ValueOf(u);
        Some(v)
      else None
    else if |t| > 0 && AllDigits(t) then Some(ValueOf(t))
    else None
  }

  /** Integer text produced by `str(i)` reads back as `i`. */
  lemma IntRoundTrip(i: int)
    ensures ParseInt(ShowInt(i)) == Some(i)
  {
    var t := ShowInt(i);
    StripNoop(t);
    if i < 0 {
      assert t == "-" + DigitsOf(-i);
      assert t[1..] == DigitsOf(-i);
    } else {
      assert t == DigitsOf(i);
      assert IsDigit(t[0]);
    }
  }

  /** Python's `int(x)` on a float: truncation toward zero (not Dafny's
      Euclidean division). */
  function Trunc(d: Decimal): (r: int)
    ensures Abs(r) * Pow10(d.scale) <= Abs(d.mantissa) < (Abs(r) + 1) * Pow10(d.scale)
    ensures (r < 0 ==> d.mantissa < 0) && (r > 0 ==> d.mantissa > 0)
  {
    DivBounds(Abs(d.mantissa), Pow10(d.scale));
    var q := Abs(d.mantissa) / Pow10(d.scale);
    if d.mantissa < 0 then -q else q
  }

  lemma PositiveProduct(q: nat, p: nat)
    requires p >= 1
    ensures q >= 1 ==> q * p >= 1
  {
  }

  lemma DivBounds(a: nat, p: nat)
    requires p >= 1
    ensures 0 <= a / p && 0 <= a % p < p
    ensures a < p ==> a / p == 0
    ensures (a / p) * p <= a < (a / p + 1) * p
    ensures a == (a / p) * p + a % p
  {
  }

  /** Integer part of `a * 10^-s`. */
  function Quot(a: nat, s: nat): nat {
    DivBounds(a, Pow10(s));
    a / Pow10(s)
  }

  /** Fractional digits of `a * 10^-s`, as an integer below `10^s`. */
  function Rem(a: nat, s: nat): (r: nat)
    ensures r < Pow10(s)
  {
    a % Pow10(s)
  }

  lemma QuotRem(a: nat, s: nat)
    ensures Quot(a, s) * Pow10(s) + Rem(a, s) == a
  {
    DivBounds(a, Pow10(s));
  }

  /** The digits printed after the point for a canonical decimal. */
  function Fraction(a: nat, s: nat): (f: string)
    ensures AllDigits(f) && |f| >= 1
  {
    if s == 0 then "0" else PadLeft(DigitsOf(Rem(a, s)), s)
  }

  function ShowUnsigned(a: nat, s: nat): (t: string)
    ensures |t| >= 3 && IsDigit(t[0]) && IsDigit(t[|t| - 1])
  {
    var ip := DigitsOf(Quot(a, s));
    var t := ip + "." + Fraction(a, s);
    assert t[0] == ip[0];
    t
  }

  /** `str(x)` for a float in fixed notation: shortest form, always with a
      point and at least one fractional digit ("45.0", "44.5", "-0.25"). */
  function ShowDecimal(d: Decimal): (t: string)
    ensures |t| >= 1 && !IsSpace(t[0]) && !IsSpace(t[|t| - 1])
    ensures ',' !in t && '|' !in t
  {
    ShowCanonical(Normalize(d.mantissa, d.scale))
  }

  /** The text of a canonical decimal: its magnitude, after a minus sign when negative. */
  function ShowCanonical(c: Decimal): (t: string)
    ensures |t| >= 1 && !IsSpace(t[0]) && !IsSpace(t[|t| - 1])
    ensures ',' !in t && '|' !in t
  {
    var u := ShowUnsigned(Abs(c.mantissa), c.scale);
    var t := if c.mantissa < 0 then "-" + u else u;
    assert forall i :: 0 <= i < |t| ==> t[i] == '-' || t[i] == '.' || IsDigit(t[i]) by {
      var ip := DigitsOf(Quot(Abs(c.mantissa), c.scale));
      var f := Fraction(Abs(c.mantissa), c.scale);
      assert u == ip + "." + f;
      forall i | 0 <= i < |u| ensures u[i] == '.' || IsDigit(u[i]) {
        if i < |ip| { assert u[i] == ip[i]; }
        else if i > |ip| { assert u[i] == f[i - |ip| - 1]; }
      }
    }
    t
  }

  /** A point between two digit strings is read as integer and fraction parts. */
  lemma {:induction false} ParsePointed(ip: string, f: string)
    requires AllDigits(ip) && AllDigits(f) && |ip| > 0
    ensures ParseUnsigned(ip + "." + f) == Some(Normalize(ValueOf(ip) * Pow10(|f|) + ValueOf(f), |f|))
  {
    var t := ip + "." + f;
    assert '.' !in ip;
    IndexOfSplit(ip, '.', f);
    assert t[|ip|] == '.';
    assert t[..|ip|] == ip && t[|ip| + 1..] == f;
  }

  lemma {:induction false} ParseShowUnsigned(a: nat, s: nat)
    requires s == 0 || a % 10 != 0
    ensures ParseUnsigned(ShowUnsigned(a, s)) == Some(Decimal(a, s))
  {
    var ip, f := DigitsOf(Quot(a, s)), Fraction(a, s);
    ParsePointed(ip, f);
    if s == 0 {
      ParseWholeNumber(a, ip, f);
    } else {
      FractionValue(a, s);
    }
  }

  lemma {:induction false} ParseWholeNumber(a: nat, ip: string, f: string)
    requires ip == DigitsOf(Quot(a, 0)) && f == Fraction(a, 0)
    ensures Normalize(ValueOf(ip) * Pow10(|f|) + ValueOf(f), |f|) == Decimal(a, 0)
  {
    assert f == "0";
    assert ValueOf(f) == 0 by {
      assert f[..0] == [];
    }
    assert ValueOf(ip) == a;
    assert Normalize(a * 10, 1) == Decimal(a, 0) by {
      assert (a * 10) % 10 == 0;
      assert (a * 10) / 10 == a;
    }
  }

  lemma {:induction false} FractionValue(a: nat, s: nat)
    requires s > 0
    ensures |Fraction(a, s)| == s
    ensures ValueOf(DigitsOf(Quot(a, s))) * Pow10(s) + ValueOf(Fraction(a, s)) == a
  {
    var r := Rem(a, s);
    QuotRem(a, s);
    PadLeftValue(DigitsOf(r), s);
    DigitsOfLength(r, s);
  }

  /** Round trip: the text `str()` prints for a number parses back to the
      same (canonical) number. */
  lemma ParseShow(d: Decimal)
    ensures ParseFloat(ShowDecimal(d)) == Some(Normalize(d.mantissa, d.scale))
  {
    ParseShowCanonical(Normalize(d.mantissa, d.scale));
  }

  lemma ParseShowCanonical(c: Decimal)
    requires Canonical(c)
    ensures ParseFloat(ShowCanonical(c)) == Some(c)
  {
    var u := ShowUnsigned(Abs(c.mantissa), c.scale);
    ParseShowMagnitude(c);
    if c.mantissa < 0 {
      assert ShowCanonical(c) == "-" + u;
      assert Negate(Decimal(Abs(c.mantissa), c.scale)) == c;
    } else {
      assert ShowCanonical(c) == u;
    }
  }

  /** Both sign forms of a canonical decimal's text parse back to the number they stand for. */
  lemma ParseShowMagnitude(c: Decimal)
    requires Canonical(c)
    ensures var x := Decimal(Abs(c.mantissa), c.scale); var u := ShowUnsigned(Abs(c.mantissa), c.scale);
      ParseFloat(u) == Some(x) && ParseFloat("-" + u) == Some(Negate(x))
  {
    AbsCanonical(c);
    ParseShowUnsigned(Abs(c.mantissa), c.scale);
    ParseSigned(ShowUnsigned(Abs(c.mantissa), c.scale), Decimal(Abs(c.mantissa), c.scale));
  }

  /** How `float()` reads an unsigned literal with and without a minus sign. */
  lemma ParseSigned(u: string, x: Decimal)
    requires |u| > 0 && IsDigit(u[0]) && IsDigit(u[|u| - 1])
    requires ParseUnsigned(u) == Some(x)
    ensures ParseFloat(u) == Some(x)
    ensures ParseFloat("-" + u) == Some(Negate(x))
  {
    ParseUnsignedAlone(u, x);
    ParseMinus(u, x);
  }

  lemma ParseUnsignedAlone(u: string, x: Decimal)
    requires |u| > 0 && IsDigit(u[0]) && IsDigit(u[|u| - 1])
    requires ParseUnsigned(u) == Some(x)
    ensures ParseFloat(u) == Some(x)
  {
    StripNoop(u);
    assert u[0] != '-' && u[0] != '+';
  }

  lemma ParseMinus(u: string, x: Decimal)
    requires |u| > 0 && IsDigit(u[|u| - 1])
    requires ParseUnsigned(u) == Some(x)
    ensures ParseFloat("-" + u) == Some(Negate(x))
  {
    var t := "-" + u;
    assert t[|t| - 1] == u[|u| - 1];
    StripNoop(t);
    assert t[0] == '-' && t[1..] == u;
  }

  lemma AbsCanonical(c: Decimal)
    requires Canonical(c)
    ensures c.scale == 0 || Abs(c.mantissa) % 10 != 0
  {
  }

  /** Value equality is decided by the canonical form. */
  lemma ShowRespectsValue(a: Decimal, b: Decimal)
    requires SameValue(a, b)
    ensures ShowDecimal(a) == ShowDecimal(b)
  {
    var ca, cb := Normalize(a.mantissa, a.scale), Normalize(b.mantissa, b.scale);
    assert SameValue(ca, cb) by {
      SameValueTransitive(ca, a, b);
      SameValueTransitive(ca, b, cb);
    }
    CanonicalUnique(ca, cb);
  }

  lemma SameValueTransitive(a: Decimal, b: Decimal, c: Decimal)
    requires SameValue(a, b) || SameValue(b, a)
    requires SameValue(b, c) || SameValue(c, b)
    ensures SameValue(a, c)
  {
    var pa, pb, pc := Pow10(a.scale), Pow10(b.scale), Pow10(c.scale);
    assert a.mantissa * pb == b.mantissa * pa;
    assert b.mantissa * pc == c.mantissa * pb;
    assert (a.mantissa * pc) * pb == (c.mantissa * pa) * pb by {
      Swap(a.mantissa, pc, pb);
      Swap(b.mantissa, pa, pc);
      Swap(c.mantissa, pb, pa);
    }
    CancelRight(a.mantissa * pc, c.mantissa * pa, pb);
  }

  lemma Swap(x: int, y: int, z: int)
    ensures (x * y) * z == (x * z) * y
  {
  }

  lemma CancelRight(x: int, y: int, p: int)
    requires p >= 1 && x * p == y * p
    ensures x == y
  {
    assert (x - y) * p == 0;
  }

  predicate IsZero(d: Decimal) {
    d.mantissa == 0
  }
}

=== FILE: sqlite_dims.dfy ===
// Dimension counts and first-row locations for the test suite's SQLite
// loader: LOCALISATION and BIEN grow by one row per distinct key, and a
// bien keeps the location of the first row that carried its key.

module SqliteDims {
  import opened Wrappers
  import opened Values
  import opened Store
  import opened Keys
  import opened Loader
  import opened SqliteLoader
  import opened SqliteFacts

  /** The bien keys of `rows`, in order. */
  function BienKeys(rows: seq<Row>): (ks: seq<Option<seq<Value>>>)
    ensures |ks| == |rows|
  {
    if |rows| == 0 then [] else BienKeys(rows[..|rows| - 1]) + [SqliteBienKey(rows[|rows| - 1])]
  }

  lemma {:induction false} BienKeysAt(rows: seq<Row>, i: nat)
    requires i < |rows|
    ensures BienKeys(rows)[i] == SqliteBienKey(rows[i])
    decreases |rows|
  {
    var n := |rows| - 1;
    if i < n {
      BienKeysAt(rows[..n], i);
      assert rows[..n][i] == rows[i];
    }
  }

  /** The first index holding `Some(k)`, or `|keys|` if there is none. */
  function FirstIndex(keys: seq<Option<seq<Value>>>, k: seq<Value>): (f: nat)
    ensures f <= |keys|
    ensures f < |keys| ==> keys[f] == Some(k)
    ensures forall j :: 0 <= j < f ==> keys[j] != Some(k)
  {
    if |keys| == 0 then 0
    else
      var n := |keys| - 1;
      var f := FirstIndex(keys[..n], k);
      if f < n then f else if keys[n] == Some(k) then n else n + 1
  }

  /** The index of the first row whose bien key is `k`, or `|rows|` if there is none. */
  function FirstBien(rows: seq<Row>, k: seq<Value>): nat {
    FirstIndex(BienKeys(rows), k)
  }

  /** `FirstBien` is the first row with that key. */
  lemma FirstBienIsFirst(rows: seq<Row>, k: seq<Value>)
    ensures var f := FirstBien(rows, k);
      f <= |rows| && (f < |rows| ==> SqliteBienKey(rows[f]) == Some(k))
      && forall j :: 0 <= j < f ==> SqliteBienKey(rows[j]) != Some(k)
  {
    var f := FirstBien(rows, k);
    if f < |rows| {
      BienKeysAt(rows, f);
    }
    forall j | 0 <= j < f
      ensures SqliteBienKey(rows[j]) != Some(k)
    {
      BienKeysAt(rows, j);
    }
  }

  /**
   * While the loop runs: LOCALISATION and BIEN grew by exactly one row per
   * cached key, and each cached bien points at the location resolved by
   * the first row that had its key.
   */
  predicate SDims(db0: Db, rows: seq<Row>, s: SState) {
    s.outcome == Running ==> DimsOf(db0, BienKeys(rows), s.db, s.caches, s.results)
  }

  predicate DimsOf(db0: Db, keys: seq<Option<seq<Value>>>, db: Db, c: SCaches, results: seq<Resolved>) {
    |db.locs| == |db0.locs| + |c.locs| && |db.biens| == |db0.biens| + |c.biens|
    && forall k :: k in c.biens ==>
      FirstIndex(keys, k) < |results| && ValidBien(db, c.biens[k])
      && db.biens[c.biens[k] - 1].loc == results[FirstIndex(keys, k)].loc
  }

  /** What a completed row did to LOCALISATION, BIEN and their caches: an insert exactly on a cache miss. */
  predicate DimsStep(lkey: seq<Value>, bkey: seq<Value>, db: Db, c: SCaches, a: SAcc) {
    (lkey in c.locs ==> a.db.locs == db.locs && a.caches.locs == c.locs)
    && (lkey !in c.locs ==> |a.db.locs| == |db.locs| + 1 && a.caches.locs == c.locs[lkey := |db.locs| + 1])
    && (bkey in c.biens ==> a.db.biens == db.biens && a.caches.biens == c.biens)
    && (bkey !in c.biens ==>
          |a.db.biens| == |db.biens| + 1 && a.db.biens[..|db.biens|] == db.biens
          && a.db.biens[|db.biens|].loc == a.loc
          && a.caches.biens == c.biens[bkey := |db.biens| + 1])
  }

  lemma SLocBienDims(row: Row, faults: set<Op>, a: SAcc)
    requires a.stop == Go
    ensures var r := SBien(row, faults, SLoc(row, faults, a));
      r.stop == Go ==>
        SqliteBienKey(row).Some? && DimsStep(SqliteLocKey(row), SqliteBienKey(row).value, a.db, a.caches, r)
  {
    var a2 := SLoc(row, faults, a);
    var r := SBien(row, faults, a2);
    if r.stop == Go && r.stmts != a2.stmts {
      assert r.db.biens[..|a.db.biens|] == a.db.biens;
    }
  }

  lemma DimsStepSame(lkey: seq<Value>, bkey: seq<Value>, db: Db, c: SCaches, a: SAcc, b: SAcc)
    requires DimsStep(lkey, bkey, db, c, a)
    requires b.db.locs == a.db.locs && b.db.biens == a.db.biens && b.caches == a.caches && b.loc == a.loc
    ensures DimsStep(lkey, bkey, db, c, b)
  {
  }

  /** The step facts only read the LOCALISATION and BIEN tables and caches of the starting point. */
  lemma DimsStepRebase(lkey: seq<Value>, bkey: seq<Value>, db: Db, c: SCaches, db': Db, c': SCaches, a: SAcc)
    requires DimsStep(lkey, bkey, db, c, a)
    requires db'.locs == db.locs && db'.biens == db.biens && c'.locs == c.locs && c'.biens == c.biens
    ensures DimsStep(lkey, bkey, db', c', a)
  {
  }

  /** What one completed row does to LOCALISATION, BIEN and their caches. */
  lemma SRowDims(row: Row, faults: set<Op>, db: Db, c: SCaches)
    ensures var a := SRowStep(row, faults, db, c);
      a.stop == Go ==> SqliteBienKey(row).Some? && DimsStep(SqliteLocKey(row), SqliteBienKey(row).value, db, c, a)
  {
    var a1 := SMutation(row, faults, SAcc(db, c, [], Go, 0, 0));
    var a3 := SBien(row, faults, SLoc(row, faults, a1));
    var a4 := SLink(row, faults, a3);
    var a := SRowStep(row, faults, db, c);
    assert a == if a4.bien != 0 then SLots(row, faults, a4, 1) else a4;
    if a.stop == Go {
      assert a4.stop == Go;
      assert a1.stop == Go;
      SMutationDims(row, faults, SAcc(db, c, [], Go, 0, 0));
      SLocBienDims(row, faults, a1);
      DimsStepRebase(SqliteLocKey(row), SqliteBienKey(row).value, a1.db, a1.caches, db, c, a3);
      DimsStepSame(SqliteLocKey(row), SqliteBienKey(row).value, db, c, a3, a);
    }
  }

  /** Adding a key leaves an earlier first index alone, and otherwise finds the key at the new index or not at all. */
  lemma FirstIndexSnoc(keys: seq<Option<seq<Value>>>, k: seq<Value>)
    requires |keys| > 0
    ensures var n := |keys| - 1; var f := FirstIndex(keys[..n], k);
      (f < n ==> FirstIndex(keys, k) == f)
      && (f == n && keys[n] == Some(k) ==> FirstIndex(keys, k) == n)
  {
  }

  /** A key that an earlier completed row had is cached. */
  lemma CachedIfSeen(rows: seq<Row>, s: SState, k: seq<Value>)
    requires SResolved(rows, s) && |s.results| == |rows|
    ensures FirstIndex(BienKeys(rows), k) < |rows| ==> k in s.caches.biens
  {
    var f := FirstIndex(BienKeys(rows), k);
    if f < |rows| {
      BienKeysAt(rows, f);
      assert ResolvedIn(rows[f], s.caches, s.results[f]);
    }
  }

  /** The keys of a longer frame extend the keys of its prefix by the new row's key. */
  lemma BienKeysSnoc(rows: seq<Row>)
    requires |rows| > 0
    ensures BienKeys(rows)[..|rows| - 1] == BienKeys(rows[..|rows| - 1])
    ensures BienKeys(rows)[|rows| - 1] == SqliteBienKey(rows[|rows| - 1])
  {
  }

  /** A bien key first seen in the new row is first found at that row. */
  lemma DimsNewKey(rows: seq<Row>, s: SState, bkey: seq<Value>)
    requires |rows| > 0 && SResolved(rows[..|rows| - 1], s) && |s.results| == |rows| - 1
    requires BienKeys(rows)[..|rows| - 1] == BienKeys(rows[..|rows| - 1])
    requires BienKeys(rows)[|rows| - 1] == Some(bkey) && bkey !in s.caches.biens
    ensures FirstIndex(BienKeys(rows), bkey) == |rows| - 1
  {
    var n := |rows| - 1;
    CachedIfSeen(rows[..n], s, bkey);
    FirstIndexSnoc(BienKeys(rows), bkey);
  }

  /** A cached bien keeps its first row and its location when a later row completes. */
  lemma DimsOldKey(keys: seq<Option<seq<Value>>>, s: SState, a: SAcc, k: seq<Value>)
    requires |keys| > 0 && |s.results| == |keys| - 1
    requires k in s.caches.biens && FirstIndex(keys[..|keys| - 1], k) < |s.results|
    requires ValidBien(s.db, s.caches.biens[k])
    requires k in a.caches.biens && a.caches.biens[k] == s.caches.biens[k]
    requires |s.db.biens| <= |a.db.biens| && a.db.biens[..|s.db.biens|] == s.db.biens
    ensures FirstIndex(keys, k) == FirstIndex(keys[..|keys| - 1], k)
    ensures a.db.biens[a.caches.biens[k] - 1] == s.db.biens[s.caches.biens[k] - 1]
  {
    FirstIndexSnoc(keys, k);
    assert a.db.biens[s.caches.biens[k] - 1] == a.db.biens[..|s.db.biens|][s.caches.biens[k] - 1];
  }

  /** A bien cached before the row keeps its id, its row of BIEN and the location of its first row. */
  lemma DimsKeepKey(keys: seq<Option<seq<Value>>>, s: SState, a: SAcc, r: Resolved, k: seq<Value>)
    requires |keys| > 0 && |s.results| == |keys| - 1
    requires k in s.caches.biens && FirstIndex(keys[..|keys| - 1], k) < |s.results|
    requires ValidBien(s.db, s.caches.biens[k])
    requires s.db.biens[s.caches.biens[k] - 1].loc == s.results[FirstIndex(keys[..|keys| - 1], k)].loc
    requires k in a.caches.biens && a.caches.biens[k] == s.caches.biens[k]
    requires |s.db.biens| <= |a.db.biens| && a.db.biens[..|s.db.biens|] == s.db.biens
    ensures FirstIndex(keys, k) < |s.results| + 1 && ValidBien(a.db, a.caches.biens[k])
    ensures a.db.biens[a.caches.biens[k] - 1].loc == (s.results + [r])[FirstIndex(keys, k)].loc
  {
    DimsOldKey(keys, s, a, k);
  }

  /** A completed row whose bien key was cached keeps the dimension counts and the first-row locations. */
  lemma DimsNextOld(db0: Db, keys: seq<Option<seq<Value>>>, s: SState, a: SAcc, lkey: seq<Value>, bkey: seq<Value>)
    requires |keys| > 0 && |s.results| == |keys| - 1 && keys[|keys| - 1] == Some(bkey)
    requires DimsOf(db0, keys[..|keys| - 1], s.db, s.caches, s.results)
    requires DimsStep(lkey, bkey, s.db, s.caches, a) && bkey in s.caches.biens
    ensures DimsOf(db0, keys, a.db, a.caches, s.results + [Resolved(a.loc, a.bien)])
  {
    var results := s.results + [Resolved(a.loc, a.bien)];
    assert a.db.biens == s.db.biens && a.caches.biens == s.caches.biens;
    forall k | k in a.caches.biens
      ensures FirstIndex(keys, k) < |results| && ValidBien(a.db, a.caches.biens[k])
      ensures a.db.biens[a.caches.biens[k] - 1].loc == results[FirstIndex(keys, k)].loc
    {
      DimsKeepKey(keys, s, a, Resolved(a.loc, a.bien), k);
    }
  }

  /** The bien a row inserted lies at the new end of BIEN and carries the row's location. */
  lemma DimsAddKey(keys: seq<Option<seq<Value>>>, s: SState, a: SAcc, bkey: seq<Value>)
    requires |keys| > 0 && |s.results| == |keys| - 1 && FirstIndex(keys, bkey) == |keys| - 1
    requires |a.db.biens| == |s.db.biens| + 1 && a.db.biens[|s.db.biens|].loc == a.loc
    requires bkey in a.caches.biens && a.caches.biens[bkey] == |s.db.biens| + 1
    ensures FirstIndex(keys, bkey) < |s.results| + 1 && ValidBien(a.db, a.caches.biens[bkey])
    ensures a.db.biens[a.caches.biens[bkey] - 1].loc == (s.results + [Resolved(a.loc, a.bien)])[FirstIndex(keys, bkey)].loc
  {
  }

  /** A completed row whose bien key was new keeps the dimension counts and the first-row locations. */
  lemma DimsNextNew(db0: Db, keys: seq<Option<seq<Value>>>, s: SState, a: SAcc, lkey: seq<Value>, bkey: seq<Value>)
    requires |keys| > 0 && |s.results| == |keys| - 1 && keys[|keys| - 1] == Some(bkey)
    requires DimsOf(db0, keys[..|keys| - 1], s.db, s.caches, s.results)
    requires DimsStep(lkey, bkey, s.db, s.caches, a) && bkey !in s.caches.biens
    requires FirstIndex(keys, bkey) == |keys| - 1
    ensures DimsOf(db0, keys, a.db, a.caches, s.results + [Resolved(a.loc, a.bien)])
  {
    DimsNewKeys(keys, s, a, bkey);
  }

  /** After a row that inserted a bien, every cached bien still points at the location of its first row. */
  lemma DimsNewKeys(keys: seq<Option<seq<Value>>>, s: SState, a: SAcc, bkey: seq<Value>)
    requires |keys| > 0 && |s.results| == |keys| - 1
    requires forall k :: k in s.caches.biens ==>
      FirstIndex(keys[..|keys| - 1], k) < |s.results| && ValidBien(s.db, s.caches.biens[k])
      && s.db.biens[s.caches.biens[k] - 1].loc == s.results[FirstIndex(keys[..|keys| - 1], k)].loc
    requires FirstIndex(keys, bkey) == |keys| - 1 && bkey !in s.caches.biens
    requires |a.db.biens| == |s.db.biens| + 1 && a.db.biens[..|s.db.biens|] == s.db.biens
    requires a.db.biens[|s.db.biens|].loc == a.loc
    requires a.caches.biens == s.caches.biens[bkey := |s.db.biens| + 1]
    ensures forall k :: k in a.caches.biens ==>
      FirstIndex(keys, k) < |s.results| + 1 && ValidBien(a.db, a.caches.biens[k])
      && a.db.biens[a.caches.biens[k] - 1].loc == (s.results + [Resolved(a.loc, a.bien)])[FirstIndex(keys, k)].loc
  {
    forall k | k in a.caches.biens
      ensures FirstIndex(keys, k) < |s.results| + 1 && ValidBien(a.db, a.caches.biens[k])
      ensures a.db.biens[a.caches.biens[k] - 1].loc == (s.results + [Resolved(a.loc, a.bien)])[FirstIndex(keys, k)].loc
    {
      if k == bkey {
        DimsAddKey(keys, s, a, bkey);
      } else {
        DimsKeepKey(keys, s, a, Resolved(a.loc, a.bien), k);
      }
    }
  }

  /** The dimension invariant survives the application of a row's outcome, for any key sequence. */
  lemma SApplyDims(db0: Db, keys: seq<Option<seq<Value>>>, s: SState, a: SAcc, faults: set<Op>, lkey: seq<Value>, bkey: seq<Value>)
    requires |keys| > 0 && s.outcome == Running && |s.results| == |keys| - 1
    requires DimsOf(db0, keys[..|keys| - 1], s.db, s.caches, s.results)
    requires a.stop == Go ==> keys[|keys| - 1] == Some(bkey) && DimsStep(lkey, bkey, s.db, s.caches, a)
    requires a.stop == Go && bkey !in s.caches.biens ==> FirstIndex(keys, bkey) == |keys| - 1
    ensures var t := SApply(s, a, faults);
      t.outcome == Running ==> DimsOf(db0, keys, t.db, t.caches, t.results)
  {
    if a.stop == Go {
      if bkey in s.caches.biens {
        DimsNextOld(db0, keys, s, a, lkey, bkey);
      } else {
        DimsNextNew(db0, keys, s, a, lkey, bkey);
      }
    }
  }

  lemma SStepDims(db0: Db, rows: seq<Row>, s: SState, faults: set<Op>)
    requires |rows| > 0 && SDims(db0, rows[..|rows| - 1], s) && SResolved(rows[..|rows| - 1], s)
    requires s.outcome == Running ==> |s.results| == |rows| - 1
    ensures SDims(db0, rows, SStep(s, rows[|rows| - 1], faults))
  {
    var n := |rows| - 1;
    if s.outcome == Running {
      var a := SRowStep(rows[n], faults, s.db, s.caches);
      SRowDims(rows[n], faults, s.db, s.caches);
      BienKeysSnoc(rows);
      if a.stop == Go {
        var bkey := SqliteBienKey(rows[n]).value;
        if bkey !in s.caches.biens {
          DimsNewKey(rows, s, bkey);
        }
        SApplyDims(db0, BienKeys(rows), s, a, faults, SqliteLocKey(rows[n]), bkey);
      } else {
        SApplyDims(db0, BienKeys(rows), s, a, faults, [], []);
      }
    }
  }

  lemma {:induction false} SRunDims(rows: seq<Row>, faults: seq<set<Op>>, db0: Db)
    requires Consistent(db0)
    ensures SDims(db0, rows, SRun(rows, faults, SStart(db0)))
    decreases |rows|
  {
    if |rows| > 0 {
      var n := |rows| - 1;
      var s := SRun(rows[..n], faults, SStart(db0));
      assert SRun(rows, faults, SStart(db0)) == SStep(s, rows[n], FaultsAt(faults, n));
      SRunDims(rows[..n], faults, db0);
      SRunResolved(rows[..n], faults, db0);
      SRunInv(rows[..n], faults, db0);
      SStepDims(db0, rows, s, FaultsAt(faults, n));
    } else {
      assert SRun(rows, faults, SStart(db0)) == SStart(db0);
    }
  }

  /** Every completed row's bien key, read from a key sequence, is cached under the bien it resolved. */
  predicate KeysResolved(keys: seq<Option<seq<Value>>>, c: SCaches, results: seq<Resolved>) {
    |results| <= |keys|
    && forall i :: 0 <= i < |results| ==>
      keys[i].Some? && keys[i].value in c.biens && c.biens[keys[i].value] == results[i].bien
  }

  lemma SResolvedKeys(rows: seq<Row>, s: SState)
    requires SResolved(rows, s)
    ensures KeysResolved(BienKeys(rows), s.caches, s.results)
  {
    forall i | 0 <= i < |s.results|
      ensures BienKeys(rows)[i] == SqliteBienKey(rows[i])
    {
      BienKeysAt(rows, i);
    }
  }

  /** With every key resolved, each index shares its bien with the first index of its key. */
  lemma FirstSharesBien(keys: seq<Option<seq<Value>>>, c: SCaches, results: seq<Resolved>, i: nat)
    requires KeysResolved(keys, c, results) && |results| == |keys| && i < |keys|
    ensures keys[i].Some? && keys[i].value in c.biens && c.biens[keys[i].value] == results[i].bien
    ensures FirstIndex(keys, keys[i].value) <= i
    ensures results[FirstIndex(keys, keys[i].value)].bien == results[i].bien
  {
    ResolvedAt(keys, c, results, i);
    var k := keys[i].value;
    FirstIndexAtMost(keys, k, i);
    ResolvedAt(keys, c, results, FirstIndex(keys, k));
  }

  /** The resolution invariant read at one index. */
  lemma ResolvedAt(keys: seq<Option<seq<Value>>>, c: SCaches, results: seq<Resolved>, j: nat)
    requires KeysResolved(keys, c, results) && j < |results|
    ensures keys[j].Some? && keys[j].value in c.biens && c.biens[keys[j].value] == results[j].bien
  {
  }

  /** The dimension invariant read at one cached bien key. */
  lemma DimsAt(db0: Db, keys: seq<Option<seq<Value>>>, db: Db, c: SCaches, results: seq<Resolved>, k: seq<Value>)
    requires DimsOf(db0, keys, db, c, results) && k in c.biens
    ensures FirstIndex(keys, k) < |results| && ValidBien(db, c.biens[k])
    ensures db.biens[c.biens[k] - 1].loc == results[FirstIndex(keys, k)].loc
  {
  }

  /** A key present at index `i` is first found no later than `i`. */
  lemma FirstIndexAtMost(keys: seq<Option<seq<Value>>>, k: seq<Value>, i: nat)
    requires i < |keys| && keys[i] == Some(k)
    ensures FirstIndex(keys, k) <= i
  {
  }

  /**
   * After a completed load, LOCALISATION and BIEN grew by one row per
   * distinct key, and every row's bien is the one created by the first row
   * with its bien key, carrying that first row's location: a later row
   * with the same key but another location does not move it.
   */
  lemma BienKeepsFirstLocation(rows: seq<Row>, faults: seq<set<Op>>, finalFails: bool, db0: Db, i: nat)
    requires Consistent(db0)
    requires SLoad(rows, faults, finalFails, db0).outcome == Done && i < |rows|
    ensures var s := SLoad(rows, faults, finalFails, db0);
      |s.db.locs| == |db0.locs| + |s.caches.locs| && |s.db.biens| == |db0.biens| + |s.caches.biens|
    ensures SqliteBienKey(rows[i]).Some?
    ensures var s := SLoad(rows, faults, finalFails, db0);
      var f := FirstBien(rows, SqliteBienKey(rows[i]).value);
      |s.results| == |rows| && f <= i && s.results[f].bien == s.results[i].bien && ValidBien(s.db, s.results[i].bien)
      && s.db.biens[s.results[i].bien - 1].loc == s.results[f].loc
  {
    SLoadFacts(rows, faults, finalFails, db0);
    SRunDims(rows, faults, db0);
    var s := SLoad(rows, faults, finalFails, db0);
    SResolvedKeys(rows, s);
    BienKeysAt(rows, i);
    FirstSharesBien(BienKeys(rows), s.caches, s.results, i);
    DimsAt(db0, BienKeys(rows), s.db, s.caches, s.results, BienKeys(rows)[i].value);
  }
}

=== FILE: sqlite_facts.dfy ===
// What the test suite's SQLite loader guarantees, and where it parts from
// the MySQL scripts: no per-row isolation, a location key without the
// address, a bien key without the location, and plain lot inserts.

module SqliteFacts {
  import opened Wrappers
  import opened Values
  import opened Store
  import opened Keys
  import opened Loader
  import opened SqliteLoader

  // ------------------------------------------------------------ one row

  /** Every cached id names a row of `db`. */
  predicate CachesValid(db: Db, c: SCaches) {
    (forall v :: v in c.seen ==> PyStr(v) in db.mutations)
    && (forall k :: k in c.locs ==> ValidLoc(db, c.locs[k]))
    && (forall k :: k in c.biens ==> ValidBien(db, c.biens[k]))
  }

  /** `c` extends `b` without overwriting an entry. */
  predicate Extends(b: SCaches, c: SCaches) {
    b.seen <= c.seen
    && (forall k :: k in b.locs ==> k in c.locs && c.locs[k] == b.locs[k])
    && (forall k :: k in b.biens ==> k in c.biens && c.biens[k] == b.biens[k])
  }

  /** The lots a row appends: each for bien `b`, with a non-empty number and a non-zero surface. */
  predicate NewLotsOk(lots: seq<Lot>, b: nat) {
    forall k :: 0 <= k < |lots| ==>
      lots[k].bien == b && lots[k].numero != [] && lots[k].surface.Float? && lots[k].surface.x.mantissa != 0
  }

  /** `r` only appends to `a`'s lots and statements: lots that passed the test, LOT statements. */
  predicate AppendsLots(a: SAcc, r: SAcc) {
    |a.db.lots| <= |r.db.lots| && r.db.lots[..|a.db.lots|] == a.db.lots
    && NewLotsOk(r.db.lots[|a.db.lots|..], a.bien)
    && |a.stmts| <= |r.stmts| && r.stmts[..|a.stmts|] == a.stmts
    && (forall k :: |a.stmts| <= k < |r.stmts| ==> r.stmts[k].LotStmt?)
  }

  lemma AppendsLotsTrans(a: SAcc, b: SAcc, r: SAcc)
    requires AppendsLots(a, b) && AppendsLots(b, r) && b.bien == a.bien
    ensures AppendsLots(a, r)
  {
    var n, m := |a.db.lots|, |b.db.lots|;
    assert r.db.lots[..n] == r.db.lots[..m][..n];
    assert r.db.lots[n..] == b.db.lots[n..] + r.db.lots[m..] by {
      assert r.db.lots[n..m] == b.db.lots[n..];
    }
    assert r.stmts[..|a.stmts|] == r.stmts[..|b.stmts|][..|a.stmts|];
  }

  /** One slot appends at most one lot, and only one that passed the number and surface test. */
  lemma SLotSlotAppends(row: Row, faults: set<Op>, a: SAcc, slot: nat)
    requires 1 <= slot <= 5
    ensures AppendsLots(a, SLotSlot(row, faults, a, slot))
  {
    var r := SLotSlot(row, faults, a, slot);
    if r.stop == Go && r.stmts != a.stmts {
      var numero := StrOrNone(Get(row, LotNumeroColumns[slot - 1]));
      var surface := SqliteCleanNumeric(Get(row, LotCarrezColumns[slot - 1]));
      assert r.db.lots == a.db.lots + [Lot(a.bien, numero.s, Float(surface.value))];
      assert r.db.lots[|a.db.lots|..] == [Lot(a.bien, numero.s, Float(surface.value))];
    } else {
      assert r.db == a.db && r.stmts == a.stmts;
    }
  }

  /** Slots `slot` to 5 only append lots that passed the number and surface test, and only issue LOT statements. */
  lemma {:induction false} SLotsAppends(row: Row, faults: set<Op>, a: SAcc, slot: nat)
    requires 1 <= slot <= 6
    ensures AppendsLots(a, SLots(row, faults, a, slot))
    decreases 6 - slot
  {
    if slot == 6 {
      assert SLots(row, faults, a, slot) == a;
    } else {
      var b := SLotSlot(row, faults, a, slot);
      SLotSlotAppends(row, faults, a, slot);
      SLotsAppends(row, faults, b, slot + 1);
      AppendsLotsTrans(a, b, SLots(row, faults, b, slot + 1));
    }
  }

  /** The row's work so far is consistent, and every cached id names a row. */
  predicate Sound(a: SAcc) {
    Consistent(a.db) && CachesValid(a.db, a.caches)
  }

  lemma SMutationKeeps(row: Row, faults: set<Op>, a: SAcc)
    requires Sound(a)
    ensures var r := SMutation(row, faults, a);
      r.stop == Go ==> Sound(r) && Extends(a.caches, r.caches) && |r.db.locs| == |a.db.locs| && r.db.biens == a.db.biens
  {
    var r := SMutation(row, faults, a);
    if r.stop == Go && r.stmts != a.stmts {
      assert r.db.mutations.Keys == a.db.mutations.Keys + {PyStr(row["id_mutation"])};
    }
  }

  lemma SLocKeeps(row: Row, faults: set<Op>, a: SAcc)
    requires Sound(a)
    ensures var r := SLoc(row, faults, a);
      r.stop == Go ==>
        Sound(r) && Extends(a.caches, r.caches) && ValidLoc(r.db, r.loc) && r.db.biens == a.db.biens
        && SqliteLocKey(row) in r.caches.locs && r.caches.locs[SqliteLocKey(row)] == r.loc
  {
  }

  lemma SBienKeeps(row: Row, faults: set<Op>, a: SAcc)
    requires Sound(a) && ValidLoc(a.db, a.loc)
    ensures var r := SBien(row, faults, a);
      r.stop == Go ==>
        Sound(r) && Extends(a.caches, r.caches) && ValidBien(r.db, r.bien) && r.loc == a.loc
        && SqliteBienKey(row).Some? && SqliteBienKey(row).value in r.caches.biens
        && r.caches.biens[SqliteBienKey(row).value] == r.bien
  {
    var r := SBien(row, faults, a);
    if r.stop == Go && r.stmts != a.stmts {
      assert r.db.biens == a.db.biens + [r.db.biens[|a.db.biens|]];
      forall k | 0 <= k < |r.db.biens|
        ensures ValidLoc(r.db, r.db.biens[k].loc)
      {
        if k < |a.db.biens| {
          assert r.db.biens[k] == a.db.biens[k];
        }
      }
    }
  }

  lemma SLinkKeeps(row: Row, faults: set<Op>, a: SAcc)
    requires Sound(a) && ValidBien(a.db, a.bien)
    requires "id_mutation" in row && row["id_mutation"] in a.caches.seen
    ensures var r := SLink(row, faults, a);
      r.stop == Go ==> Sound(r) && r.db.lots == a.db.lots && r.db.biens == a.db.biens && r.db.locs == a.db.locs
  {
    assert PyStr(Get(row, "id_mutation")) in a.db.mutations;
  }

  lemma SLotsKeep(row: Row, faults: set<Op>, a: SAcc)
    requires Sound(a) && ValidBien(a.db, a.bien)
    ensures Sound(SLots(row, faults, a, 1))
  {
    var r := SLots(row, faults, a, 1);
    SLotsAppends(row, faults, a, 1);
    forall k | 0 <= k < |r.db.lots|
      ensures ValidBien(r.db, r.db.lots[k].bien)
    {
      if k >= |a.db.lots| {
        assert r.db.lots[k] == r.db.lots[|a.db.lots|..][k - |a.db.lots|];
      } else {
        assert r.db.lots[k] == r.db.lots[..|a.db.lots|][k];
      }
    }
  }

  /** A completed row keeps the database consistent, extends the caches, and resolves ids that exist. */
  lemma SRowKeeps(row: Row, faults: set<Op>, db: Db, c: SCaches)
    requires Consistent(db) && CachesValid(db, c)
    ensures var a := SRowStep(row, faults, db, c);
      a.stop == Go ==>
        Sound(a) && Extends(c, a.caches) && ResolvedIn(row, a.caches, Resolved(a.loc, a.bien))
  {
    var a0 := SAcc(db, c, [], Go, 0, 0);
    var a1 := SMutation(row, faults, a0);
    var a2 := SLoc(row, faults, a1);
    var a3 := SBien(row, faults, a2);
    var a4 := SLink(row, faults, a3);
    var a := SRowStep(row, faults, db, c);
    if a.stop == Go {
      assert a4.stop == Go && a3.stop == Go && a2.stop == Go && a1.stop == Go;
      SMutationKeeps(row, faults, a0);
      SLocKeeps(row, faults, a1);
      SBienKeeps(row, faults, a2);
      SLinkKeeps(row, faults, a3);
      SLotsKeep(row, faults, a4);
    }
  }

  /** A row whose location and bien keys are both cached writes no LOCALISATION or BIEN row. */
  lemma CachedRowAddsNoLocOrBien(row: Row, faults: set<Op>, db: Db, c: SCaches)
    requires SqliteLocKey(row) in c.locs
    requires SqliteBienKey(row).Some? && SqliteBienKey(row).value in c.biens
    ensures var a := SRowStep(row, faults, db, c);
      a.db.locs == db.locs && a.db.biens == db.biens && a.caches.locs == c.locs && a.caches.biens == c.biens
      && (a.stop == Go ==> a.loc == c.locs[SqliteLocKey(row)] && a.bien == c.biens[SqliteBienKey(row).value])
  {
    var a0 := SAcc(db, c, [], Go, 0, 0);
    var a1 := SMutation(row, faults, a0);
    var a2 := SLoc(row, faults, a1);
    var a3 := SBien(row, faults, a2);
    var a4 := SLink(row, faults, a3);
    assert SRowStep(row, faults, db, c) == if a4.bien != 0 then SLots(row, faults, a4, 1) else a4;
    SMutationDims(row, faults, a0);
    SLocCached(row, faults, a1);
    SBienCached(row, faults, a2);
    SAfterBien(row, faults, a3);
  }

  /** The mutation statement leaves LOCALISATION, BIEN and their caches alone. */
  lemma SMutationDims(row: Row, faults: set<Op>, a: SAcc)
    ensures var r := SMutation(row, faults, a);
      r.db.locs == a.db.locs && r.db.biens == a.db.biens && r.caches.locs == a.caches.locs && r.caches.biens == a.caches.biens
  {
  }

  /** The link and lot steps leave LOCALISATION, BIEN, the caches and the resolved ids alone. */
  lemma SAfterBien(row: Row, faults: set<Op>, a: SAcc)
    ensures var a4 := SLink(row, faults, a);
      var r := if a4.bien != 0 then SLots(row, faults, a4, 1) else a4;
      r.db.locs == a.db.locs && r.db.biens == a.db.biens && r.caches == a.caches && r.loc == a.loc && r.bien == a.bien
  {
  }

  /** A cached location key: the location step, raising or not, writes nothing and reads the cache. */
  lemma SLocCached(row: Row, faults: set<Op>, a: SAcc)
    requires SqliteLocKey(row) in a.caches.locs
    ensures var r := SLoc(row, faults, a);
      r.db == a.db && r.caches == a.caches
      && (r.stop == Go ==> r.loc == a.caches.locs[SqliteLocKey(row)])
  {
  }

  /** A cached bien key: the bien step, raising or not, writes nothing and reads the cache. */
  lemma SBienCached(row: Row, faults: set<Op>, a: SAcc)
    requires SqliteBienKey(row).Some? && SqliteBienKey(row).value in a.caches.biens
    ensures var r := SBien(row, faults, a);
      r.db == a.db && r.caches == a.caches
      && (r.stop == Go ==> r.bien == a.caches.biens[SqliteBienKey(row).value])
  {
  }

  /** Steps 2 to 4 issue no MUTATION statement and leave MUTATION alone. */
  lemma LaterStagesNoMutation(row: Row, faults: set<Op>, a: SAcc)
    requires NoMutationStmt(a.stmts)
    ensures var r := SLink(row, faults, SBien(row, faults, SLoc(row, faults, a)));
      NoMutationStmt(r.stmts) && r.db.mutations == a.db.mutations
  {
    var a2 := SLoc(row, faults, a);
    assert NoMutationStmt(a2.stmts);
    var a3 := SBien(row, faults, a2);
    assert NoMutationStmt(a3.stmts);
    var a4 := SLink(row, faults, a3);
    assert NoMutationStmt(a4.stmts);
  }

  /** A row whose raw mutation id is already cached issues no MUTATION statement. */
  lemma SeenIdWritesNoMutation(row: Row, faults: set<Op>, db: Db, c: SCaches)
    requires "id_mutation" in row && row["id_mutation"] in c.seen
    ensures var a := SRowStep(row, faults, db, c);
      a.db.mutations == db.mutations && NoMutationStmt(a.stmts)
  {
    var a1 := SMutation(row, faults, SAcc(db, c, [], Go, 0, 0));
    assert a1.stmts == [] && a1.db == db;
    LaterStagesNoMutation(row, faults, a1);
    var a4 := SLink(row, faults, SBien(row, faults, SLoc(row, faults, a1)));
    var a := SRowStep(row, faults, db, c);
    if a4.bien != 0 {
      SLotsAppends(row, faults, a4, 1);
      assert a == SLots(row, faults, a4, 1);
      forall k | 0 <= k < |a.stmts|
        ensures !a.stmts[k].MutationStmt?
      {
        if k < |a4.stmts| {
          assert a.stmts[k] == a.stmts[..|a4.stmts|][k];
        }
      }
    }
  }

  /** No statement in `stmts` writes MUTATION. */
  predicate NoMutationStmt(stmts: seq<Stmt>) {
    forall k :: 0 <= k < |stmts| ==> !stmts[k].MutationStmt?
  }

  // ----------------------------------------------------------- the loop

  /** The counting and transaction invariant of the loop. */
  predicate SInv(s: SState) {
    Consistent(s.db) && Consistent(s.committed)
    && (s.outcome != Running ==> s.db == s.committed)
    && (s.outcome == Running ==> CachesValid(s.db, s.caches))
    && |s.results| == s.inserted
    && |s.commits| == s.inserted / SqliteBatchSize
    && (forall k :: 0 <= k < |s.commits| ==> s.commits[k] == (k + 1) * SqliteBatchSize)
  }

  /** The row's two keys are cached under the ids it resolved. */
  predicate ResolvedIn(row: Row, c: SCaches, r: Resolved) {
    SqliteLocKey(row) in c.locs && c.locs[SqliteLocKey(row)] == r.loc
    && SqliteBienKey(row).Some? && SqliteBienKey(row).value in c.biens
    && c.biens[SqliteBienKey(row).value] == r.bien
  }

  /** Every completed row's keys are cached under the ids it resolved. */
  predicate SResolved(rows: seq<Row>, s: SState) {
    |s.results| <= |rows|
    && forall i :: 0 <= i < |s.results| ==> ResolvedIn(rows[i], s.caches, s.results[i])
  }

  lemma ResolvedInExtends(row: Row, b: SCaches, c: SCaches, r: Resolved)
    requires ResolvedIn(row, b, r) && Extends(b, c)
    ensures ResolvedIn(row, c, r)
  {
  }

  lemma SResolvedPrefix(rows: seq<Row>, s: SState)
    requires |rows| > 0 && SResolved(rows[..|rows| - 1], s)
    ensures SResolved(rows, s)
  {
    var n := |rows| - 1;
    forall i | 0 <= i < |s.results|
      ensures ResolvedIn(rows[i], s.caches, s.results[i])
    {
      assert rows[..n][i] == rows[i];
    }
  }

  /** After a row, whatever its end, the invariant still holds. */
  lemma SApplyInv(s: SState, a: SAcc, faults: set<Op>)
    requires SInv(s) && s.outcome == Running
    requires a.stop == Go ==> Sound(a)
    ensures var t := SApply(s, a, faults);
      SInv(t) && t.outcome != Done && t.inserted <= s.inserted + 1
      && (t.outcome == Running ==> t.inserted == s.inserted + 1)
  {
    if a.stop == Go {
      var inserted := s.inserted + 1;
      if inserted % SqliteBatchSize == 0 {
        assert inserted / SqliteBatchSize == s.inserted / SqliteBatchSize + 1;
      } else {
        assert inserted / SqliteBatchSize == s.inserted / SqliteBatchSize;
      }
    }
  }

  lemma SStepInv(s: SState, row: Row, faults: set<Op>)
    requires SInv(s) && s.outcome != Done
    ensures var t := SStep(s, row, faults);
      SInv(t) && t.outcome != Done && t.inserted <= s.inserted + 1
      && (s.outcome == Running && t.outcome == Running ==> t.inserted == s.inserted + 1)
  {
    if s.outcome == Running {
      SRowKeeps(row, faults, s.db, s.caches);
      SApplyInv(s, SRowStep(row, faults, s.db, s.caches), faults);
    }
  }

  /** After a completed row, its keys are cached under the ids it resolved, and so are all earlier rows'. */
  lemma SApplyResolved(rows: seq<Row>, s: SState, a: SAcc, faults: set<Op>)
    requires |rows| > 0 && SResolved(rows[..|rows| - 1], s)
    requires s.outcome == Running && |s.results| == |rows| - 1
    requires a.stop == Go ==> Extends(s.caches, a.caches) && ResolvedIn(rows[|rows| - 1], a.caches, Resolved(a.loc, a.bien))
    ensures SResolved(rows, SApply(s, a, faults))
  {
    var n := |rows| - 1;
    var t := SApply(s, a, faults);
    if a.stop == Go {
      assert t.results == s.results + [Resolved(a.loc, a.bien)] && t.caches == a.caches;
      forall i | 0 <= i < |t.results|
        ensures ResolvedIn(rows[i], t.caches, t.results[i])
      {
        if i < n {
          assert rows[..n][i] == rows[i];
          ResolvedInExtends(rows[i], s.caches, a.caches, s.results[i]);
        }
      }
    } else {
      SResolvedPrefix(rows, s);
    }
  }

  lemma SStepResolved(rows: seq<Row>, s: SState, faults: set<Op>)
    requires |rows| > 0 && SInv(s) && SResolved(rows[..|rows| - 1], s)
    requires s.outcome == Running ==> |s.results| == |rows| - 1
    ensures SResolved(rows, SStep(s, rows[|rows| - 1], faults))
  {
    var row := rows[|rows| - 1];
    if s.outcome == Running {
      SRowKeeps(row, faults, s.db, s.caches);
      SApplyResolved(rows, s, SRowStep(row, faults, s.db, s.caches), faults);
    } else {
      SResolvedPrefix(rows, s);
    }
  }

  /** The loop's invariant, from a consistent database. */
  lemma {:induction false} SRunInv(rows: seq<Row>, faults: seq<set<Op>>, db0: Db)
    requires Consistent(db0)
    ensures var s := SRun(rows, faults, SStart(db0));
      SInv(s) && s.outcome != Done && s.inserted <= |rows| && (s.outcome == Running ==> s.inserted == |rows|)
    decreases |rows|
  {
    if |rows| > 0 {
      var n := |rows| - 1;
      var s := SRun(rows[..n], faults, SStart(db0));
      assert SRun(rows, faults, SStart(db0)) == SStep(s, rows[n], FaultsAt(faults, n));
      SRunInv(rows[..n], faults, db0);
      SStepInv(s, rows[n], FaultsAt(faults, n));
    } else {
      assert SRun(rows, faults, SStart(db0)) == SStart(db0);
    }
  }

  /** Every row the loop completed has its keys cached under the ids it resolved. */
  lemma {:induction false} SRunResolved(rows: seq<Row>, faults: seq<set<Op>>, db0: Db)
    requires Consistent(db0)
    ensures SResolved(rows, SRun(rows, faults, SStart(db0)))
    decreases |rows|
  {
    if |rows| > 0 {
      var n := |rows| - 1;
      var s := SRun(rows[..n], faults, SStart(db0));
      assert SRun(rows, faults, SStart(db0)) == SStep(s, rows[n], FaultsAt(faults, n));
      SRunResolved(rows[..n], faults, db0);
      SRunInv(rows[..n], faults, db0);
      SStepResolved(rows, s, FaultsAt(faults, n));
    }
  }

  /** Once the run has stopped, later rows are never read: there is no per-row recovery. */
  lemma {:induction false} SRunStopsAtFailure(rows: seq<Row>, faults: seq<set<Op>>, s0: SState, n: nat)
    requires n <= |rows| && SRun(rows[..n], faults, s0).outcome != Running
    ensures SRun(rows, faults, s0) == SRun(rows[..n], faults, s0)
    decreases |rows| - n
  {
    if n < |rows| {
      var s := SRun(rows[..n], faults, s0);
      assert rows[..n + 1][..n] == rows[..n];
      assert SRun(rows[..n + 1], faults, s0) == SStep(s, rows[n], FaultsAt(faults, n));
      SRunStopsAtFailure(rows, faults, s0, n + 1);
    } else {
      assert rows[..n] == rows;
    }
  }

  /**
   * The whole load: the database ends consistent and equal to what was
   * last committed, commits fall every 1000 rows, and a completed load
   * processed every row. An empty frame, or one without `date_mutation`,
   * fails before anything is written.
   */
  lemma SLoadFacts(rows: seq<Row>, faults: seq<set<Op>>, finalFails: bool, db0: Db)
    requires Consistent(db0)
    ensures var s := SLoad(rows, faults, finalFails, db0);
      SInv(s) && SResolved(rows, s) && s.outcome != Running && s.db == s.committed
      && (s.outcome == Done <==> (|rows| > 0 && "date_mutation" in rows[0] && !finalFails
                                  && SRun(rows, faults, SStart(db0)).outcome == Running))
      && (s.outcome == Done ==> s.inserted == |rows| && |s.results| == |rows|)
      && (|rows| == 0 || "date_mutation" !in rows[0] ==> s.outcome == Crashed && s.db == db0 && s.results == [])
  {
    if |rows| > 0 && "date_mutation" in rows[0] {
      SRunInv(rows, faults, db0);
      SRunResolved(rows, faults, db0);
    }
  }

  /**
   * A row that fails ends the load there: the earlier rows count, the
   * later ones are never read, and the database is what the last batch
   * commit left.
   */
  lemma RowFailureStopsLoad(rows: seq<Row>, faults: seq<set<Op>>, finalFails: bool, db0: Db, n: nat)
    requires n < |rows| && "date_mutation" in rows[0]
    requires SRun(rows[..n], faults, SStart(db0)).outcome == Running
    requires var s := SRun(rows[..n], faults, SStart(db0));
      SRowStep(rows[n], FaultsAt(faults, n), s.db, s.caches).stop != Go
    ensures var s := SRun(rows[..n], faults, SStart(db0));
      var r := SLoad(rows, faults, finalFails, db0);
      r.outcome != Done && r.inserted == s.inserted && r.results == s.results && r.db == s.committed
  {
    var s := SRun(rows[..n], faults, SStart(db0));
    assert rows[..n + 1][..n] == rows[..n];
    assert SRun(rows[..n + 1], faults, SStart(db0)) == SStep(s, rows[n], FaultsAt(faults, n));
    SRunStopsAtFailure(rows, faults, SStart(db0), n + 1);
  }

  // ------------------------------------------------------- key policy

  /** Completed rows with the same six-field location key share one LOCALISATION id. */
  lemma SameSqliteKeySameLocation(rows: seq<Row>, faults: seq<set<Op>>, finalFails: bool, db0: Db, i: nat, j: nat)
    requires Consistent(db0)
    requires var s := SLoad(rows, faults, finalFails, db0); i < |s.results| && j < |s.results|
    requires i < |rows| && j < |rows| && SqliteLocKey(rows[i]) == SqliteLocKey(rows[j])
    ensures var s := SLoad(rows, faults, finalFails, db0); s.results[i].loc == s.results[j].loc
  {
    SLoadFacts(rows, faults, finalFails, db0);
  }

  /** Hence rows that differ only in the street address share one location. */
  lemma AddressIgnoredSameLocation(rows: seq<Row>, faults: seq<set<Op>>, finalFails: bool, db0: Db, i: nat, j: nat)
    requires Consistent(db0)
    requires var s := SLoad(rows, faults, finalFails, db0); i < |s.results| && j < |s.results|
    requires i < |rows| && j < |rows| && AgreeOn(rows[i], rows[j], SqliteLocColumns)
    ensures var s := SLoad(rows, faults, finalFails, db0); s.results[i].loc == s.results[j].loc
  {
    SqliteLocKeyIgnoresAddress(rows[i], rows[j]);
    SameSqliteKeySameLocation(rows, faults, finalFails, db0, i, j);
  }

  /**
   * Completed rows with the same bien key share one BIEN id, even when
   * their locations differ: the key has no location in it.
   */
  lemma SameBienKeySameBien(rows: seq<Row>, faults: seq<set<Op>>, finalFails: bool, db0: Db, i: nat, j: nat)
    requires Consistent(db0)
    requires var s := SLoad(rows, faults, finalFails, db0); i < |s.results| && j < |s.results|
    requires i < |rows| && j < |rows| && SqliteBienKey(rows[i]) == SqliteBienKey(rows[j])
    ensures var s := SLoad(rows, faults, finalFails, db0);
      s.results[i].bien == s.results[j].bien
  {
    SLoadFacts(rows, faults, finalFails, db0);
  }
}

=== FILE: sqlite_loader.dfy ===
// The test suite's SQLite loader, `insert_data_to_db` of
// tests/populate_db_sqlite.py. It differs from the MySQL scripts in its key
// policy: the location key has no address fields, and the bien key carries
// the first lot's number and surface but no location id. It also differs in
// its failure handling: there is no per-row `try`, so any error ends the
// run. An sqlite3.Error rolls back to the last commit; any other exception
// (KeyError on a missing column, ValueError from `int()`) escapes, and
// closing the connection discards the open transaction.
//
// Schema (create_tables): MUTATION keyed by ID_Mutation; LOCALISATION, BIEN
// and LOT keyed by an auto-increment id; MUTATION_BIEN keyed by
// (ID_Mutation, ID_Bien); foreign keys enforced. LOT has no unique key on
// (ID_Bien, Numero_lot). Store.Db is this schema.

module SqliteLoader {
  import opened Wrappers
  import opened Values
  import opened Store
  import opened Keys
  import opened Loader

  const SqliteBatchSize: nat := 1000

  /** How a row's statements end: all ran, an sqlite3.Error, or another exception. */
  datatype Stop = Go | SqlError | PyError

  /** `mutations_cache` holds the raw ids; the other two caches hold tuple keys. */
  datatype SCaches = SCaches(seen: set<Value>, locs: map<seq<Value>, nat>, biens: map<seq<Value>, nat>)

  const NoSCaches := SCaches({}, map[], map[])

  /** The work of one row so far; `loc` and `bien` are 0 until resolved. */
  datatype SAcc = SAcc(db: Db, caches: SCaches, stmts: seq<Stmt>, stop: Stop, loc: nat, bien: nat)

  const AddressColumns: set<string> := {"adresse_numero", "adresse_suffixe", "adresse_nom_voie"}

  const BienKeyColumns: set<string> :=
    {"id_parcelle", "type_local", "surface_reelle_bati", "nombre_pieces_principales", "lot1_numero", "lot1_surface_carrez"}

  /** `row['date_mutation'].strftime(...)` when not NaT: anything but a timestamp raises. */
  predicate DateFormats(v: Value) {
    v.Null? || v.Stamp?
  }

  // ------------------------------------------------------------ one row

  /**
   * Step 1: for a raw id not in the cache, `INSERT OR IGNORE` the mutation
   * under `str(id)` (a missing id prints as "nan"). A missing column or
   * `int()` raising on the disposition number is a Python error.
   */
  function SMutation(row: Row, faults: set<Op>, a: SAcc): (r: SAcc)
    ensures a.stop != Go ==> r == a
    ensures r.caches.locs == a.caches.locs && r.caches.biens == a.caches.biens && r.loc == a.loc && r.bien == a.bien
    ensures r.stop == Go ==> "id_mutation" in row && row["id_mutation"] in r.caches.seen
    ensures r.stop == Go && r.stmts != a.stmts ==>
      (row["id_mutation"] !in a.caches.seen
       && r.stmts == a.stmts + [MutationStmt(PyStr(row["id_mutation"]))]
       && r.caches.seen == a.caches.seen + {row["id_mutation"]}
       && r.db == a.db.(mutations := r.db.mutations)
       && r.db.mutations.Keys == a.db.mutations.Keys + {PyStr(row["id_mutation"])})
    ensures r.stop == Go && r.stmts == a.stmts ==> r == a
  {
    if a.stop != Go then a
    else if !({"date_mutation", "id_mutation"} <= row.Keys) || !DateFormats(row["date_mutation"]) then a.(stop := PyError)
    else
      var id := row["id_mutation"];
      if id in a.caches.seen then a
      else if !({"numero_disposition", "nature_mutation"} <= row.Keys) then a.(stop := PyError)
      else
        var disp := row["numero_disposition"];
        if !disp.Null? && PyInt(disp).None? then a.(stop := PyError)
        else if MutationOp in faults then a.(stop := SqlError)
        else
          var m := Mutation(row["date_mutation"], if disp.Null? then Null else Int(PyInt(disp).value),
                            StrOrNone(row["nature_mutation"]));
          a.(db := InsertMutationOrIgnore(a.db, PyStr(id), m),
             caches := a.caches.(seen := a.caches.seen + {id}),
             stmts := a.stmts + [MutationStmt(PyStr(id))])
  }

  function SqliteLocRecord(row: Row): Localisation {
    Localisation(
      StrOrNone(Get(row, "adresse_numero")), StrOrNone(Get(row, "adresse_suffixe")),
      StrOrNone(Get(row, "adresse_nom_voie")), StrOrNone(Get(row, "code_departement")),
      StrOrNone(Get(row, "code_postal")), StrOrNone(Get(row, "code_commune")),
      StrOrNone(Get(row, "nom_commune")),
      NumberCell(SqliteCleanNumeric(Get(row, "longitude"))), NumberCell(SqliteCleanNumeric(Get(row, "latitude"))),
      Get(row, "date_mutation"))
  }

  /** Step 2: resolve the six-field location key, inserting on a miss. */
  function SLoc(row: Row, faults: set<Op>, a: SAcc): (r: SAcc)
    ensures a.stop != Go ==> r == a
    ensures r.caches.seen == a.caches.seen && r.caches.biens == a.caches.biens && r.bien == a.bien
    ensures r.stop == Go && r.stmts == a.stmts ==>
      (r.db == a.db && r.caches == a.caches
       && SqliteLocKey(row) in a.caches.locs && r.loc == a.caches.locs[SqliteLocKey(row)])
    ensures r.stop == Go && r.stmts != a.stmts ==>
      (a.stop == Go && SqliteLocKey(row) !in a.caches.locs
       && r.stmts == a.stmts + [LocStmt(|a.db.locs| + 1)]
       && r.db == a.db.(locs := a.db.locs + [SqliteLocRecord(row)])
       && r.caches.locs == a.caches.locs[SqliteLocKey(row) := |a.db.locs| + 1]
       && r.loc == |a.db.locs| + 1)
  {
    if a.stop != Go then a
    else if !(SqliteLocColumns <= row.Keys) then a.(stop := PyError)
    else
      var key := SqliteLocKey(row);
      if key in a.caches.locs then a.(loc := a.caches.locs[key])
      else if !(AddressColumns <= row.Keys) then a.(stop := PyError)
      else if LocOp in faults then a.(stop := SqlError)
      else
        var (db, id) := InsertLoc(a.db, SqliteLocRecord(row));
        a.(db := db, caches := a.caches.(locs := a.caches.locs[key := id]),
           stmts := a.stmts + [LocStmt(id)], loc := id)
  }

  /**
   * Step 3: resolve the bien key, with no location gate and no location
   * in the key; a new bien points at this row's location. `int()` raising
   * on the room count is a Python error.
   */
  function SBien(row: Row, faults: set<Op>, a: SAcc): (r: SAcc)
    ensures a.stop != Go ==> r == a
    ensures r.caches.seen == a.caches.seen && r.caches.locs == a.caches.locs && r.loc == a.loc
    ensures r.stop == Go ==> SqliteBienKey(row).Some?
    ensures r.stop == Go && r.stmts == a.stmts ==>
      (r.db == a.db && r.caches == a.caches
       && SqliteBienKey(row).value in a.caches.biens && r.bien == a.caches.biens[SqliteBienKey(row).value])
    ensures r.stop == Go && r.stmts != a.stmts ==>
      (a.stop == Go && SqliteBienKey(row).value !in a.caches.biens
       && r.stmts == a.stmts + [BienStmt(|a.db.biens| + 1, a.loc)]
       && |r.db.biens| == |a.db.biens| + 1
       && r.db == a.db.(biens := a.db.biens + [r.db.biens[|a.db.biens|]])
       && r.db.biens[|a.db.biens|].loc == a.loc
       && r.caches.biens == a.caches.biens[SqliteBienKey(row).value := |a.db.biens| + 1]
       && r.bien == |a.db.biens| + 1)
  {
    if a.stop != Go then a
    else if !(BienKeyColumns <= row.Keys) then a.(stop := PyError)
    else
      match SqliteBienKey(row)
      case None => a.(stop := PyError)
      case Some(key) =>
        if key in a.caches.biens then a.(bien := a.caches.biens[key])
        else if "surface_terrain" !in row then a.(stop := PyError)
        else if BienOp in faults then a.(stop := SqlError)
        else
          var terrain := NumberCell(SqliteCleanNumeric(row["surface_terrain"]));
          var (db, id) := InsertBien(a.db, Bien(key[0], key[1], key[2], terrain, key[3], a.loc));
          a.(db := db, caches := a.caches.(biens := a.caches.biens[key := id]),
             stmts := a.stmts + [BienStmt(id, a.loc)], bien := id)
  }

  /** Step 4: `INSERT OR IGNORE` the link when the bien id and the raw mutation id are truthy; NaN is truthy. */
  function SLink(row: Row, faults: set<Op>, a: SAcc): (r: SAcc)
    ensures a.stop != Go ==> r == a
    ensures r.caches == a.caches && r.loc == a.loc && r.bien == a.bien
    ensures r.stop == Go && r.stmts == a.stmts ==> r.db == a.db
    ensures r.stop == Go && r.stmts != a.stmts ==>
      (a.stop == Go && a.bien != 0 && RawTruthy(Get(row, "id_mutation"))
       && r.stmts == a.stmts + [LinkStmt(PyStr(Get(row, "id_mutation")), a.bien)]
       && r.db == InsertLinkOrIgnore(a.db, PyStr(Get(row, "id_mutation")), a.bien,
                                     NumberCell(SqliteCleanNumeric(Get(row, "valeur_fonciere")))))
  {
    if a.stop != Go || a.bien == 0 || !RawTruthy(Get(row, "id_mutation")) then a
    else if "valeur_fonciere" !in row then a.(stop := PyError)
    else if LinkOp in faults then a.(stop := SqlError)
    else
      var id := PyStr(Get(row, "id_mutation"));
      a.(db := InsertLinkOrIgnore(a.db, id, a.bien, NumberCell(SqliteCleanNumeric(row["valeur_fonciere"]))),
         stmts := a.stmts + [LinkStmt(id, a.bien)])
  }

  /** One lot slot: a plain INSERT when both the number and the cleaned Carrez surface are truthy. */
  function SLotSlot(row: Row, faults: set<Op>, a: SAcc, slot: nat): (r: SAcc)
    requires 1 <= slot <= 5
    ensures a.stop != Go ==> r == a
    ensures r.caches == a.caches && r.loc == a.loc && r.bien == a.bien
    ensures r.stop == Go && r.stmts == a.stmts ==> r.db == a.db
    ensures r.stop == Go && r.stmts != a.stmts ==>
      var numero := StrOrNone(Get(row, LotNumeroColumns[slot - 1]));
      var surface := SqliteCleanNumeric(Get(row, LotCarrezColumns[slot - 1]));
      a.stop == Go && Filled(numero) && NonZero(surface)
      && r.stmts == a.stmts + [LotStmt(a.bien, numero.s)]
      && r.db == InsertLot(a.db, a.bien, numero.s, Float(surface.value))
  {
    if a.stop != Go then a
    else
      var nc, sc := LotNumeroColumns[slot - 1], LotCarrezColumns[slot - 1];
      if nc !in row || sc !in row then a.(stop := PyError)
      else
        var numero := StrOrNone(row[nc]);
        var surface := SqliteCleanNumeric(row[sc]);
        if !(Filled(numero) && NonZero(surface)) then a
        else if LotOp(slot) in faults then a.(stop := SqlError)
        else a.(db := InsertLot(a.db, a.bien, numero.s, Float(surface.value)),
                stmts := a.stmts + [LotStmt(a.bien, numero.s)])
  }

  /** Step 5: slots `slot` to 5. */
  function SLots(row: Row, faults: set<Op>, a: SAcc, slot: nat): (r: SAcc)
    requires 1 <= slot <= 6
    ensures a.stop != Go ==> r == a
    ensures r.caches == a.caches && r.loc == a.loc && r.bien == a.bien
    ensures r.db == a.db.(lots := r.db.lots)
    decreases 6 - slot
  {
    if slot == 6 then a else SLots(row, faults, SLotSlot(row, faults, a, slot), slot + 1)
  }

  /** The five steps of one row, up to the first statement that raises. */
  function SRowStep(row: Row, faults: set<Op>, db: Db, c: SCaches): SAcc {
    var a3 := SBien(row, faults, SLoc(row, faults, SMutation(row, faults, SAcc(db, c, [], Go, 0, 0))));
    var a4 := SLink(row, faults, a3);
    if a4.bien != 0 then SLots(row, faults, a4, 1) else a4
  }

  // ----------------------------------------------------------- the loop

  datatype Outcome = Running | Done | RolledBack | Crashed

  /** What a completed row resolved. */
  datatype Resolved = Resolved(loc: nat, bien: nat)

  datatype SState = SState(
    db: Db, committed: Db, caches: SCaches, inserted: nat, commits: seq<nat>,
    outcome: Outcome, results: seq<Resolved>, issued: seq<Stmt>)

  function SStart(db0: Db): SState {
    SState(db0, db0, NoSCaches, 0, [], Running, [], [])
  }

  /**
   * After a row: an sqlite3.Error rolls back and ends the run; another
   * exception ends it with the open transaction discarded; a completed
   * row is counted, and every 1000 rows the work is committed.
   */
  function SApply(s: SState, a: SAcc, faults: set<Op>): SState {
    match a.stop
    case SqlError => s.(db := s.committed, outcome := RolledBack)
    case PyError => s.(db := s.committed, outcome := Crashed)
    case Go =>
      var s1 := s.(db := a.db, caches := a.caches, inserted := s.inserted + 1,
                   results := s.results + [Resolved(a.loc, a.bien)], issued := s.issued + a.stmts);
      if s1.inserted % SqliteBatchSize == 0 then
        var s2 := s1.(commits := s1.commits + [s1.inserted]);
        if CommitOp in faults then s2.(db := s2.committed, outcome := RolledBack) else s2.(committed := s2.db)
      else s1
  }

  function SStep(s: SState, row: Row, faults: set<Op>): (r: SState)
    ensures s.outcome != Running ==> r == s
  {
    if s.outcome != Running then s else SApply(s, SRowStep(row, faults, s.db, s.caches), faults)
  }

  function SRun(rows: seq<Row>, faults: seq<set<Op>>, s0: SState): SState
    decreases |rows|
  {
    if |rows| == 0 then s0
    else
      var n := |rows| - 1;
      SStep(SRun(rows[..n], faults, s0), rows[n], FaultsAt(faults, n))
  }

  /**
   * The whole function: `data['date_mutation'].iloc[0]` raises on an
   * empty frame (or a frame without the column) before anything is
   * written; otherwise the loop and the final commit.
   */
  function SLoad(rows: seq<Row>, faults: seq<set<Op>>, finalFails: bool, db0: Db): SState {
    if |rows| == 0 || "date_mutation" !in rows[0] then SStart(db0).(outcome := Crashed)
    else
      var s := SRun(rows, faults, SStart(db0));
      if s.outcome != Running then s
      else if finalFails then s.(db := s.committed, outcome := RolledBack)
      else s.(committed := s.db, outcome := Done)
  }
}

=== FILE: store.dfy ===
// The five tables the loaders write, as immutable values, with the statement
// kinds the scripts issue against them: INSERT ... ON DUPLICATE KEY UPDATE
// (MySQL), INSERT IGNORE / INSERT OR IGNORE, and plain INSERT into a table
// whose key is an auto-increment id. An auto-increment id is the 1-based
// position of the record in its table.

module Store {
  import opened Wrappers
  import opened Values

  /** MUTATION, keyed by ID_Mutation. */
  datatype Mutation = Mutation(date: Value, disposition: Value, nature: Value)

  /** LOCALISATION; ID_Localisation is the position. */
  datatype Localisation = Localisation(
    numero: Value, suffixe: Value, voie: Value,
    departement: Value, postal: Value, commune: Value, nomCommune: Value,
    longitude: Value, latitude: Value, date: Value)

  /** BIEN; ID_Bien is the position, `loc` the ID_Localisation it points to. */
  datatype Bien = Bien(parcelle: Value, typeLocal: Value, surface: Value, terrain: Value, rooms: Value, loc: nat)

  /** LOT; ID_Lot is the position. */
  datatype Lot = Lot(bien: nat, numero: string, surface: Value)

  /** The database. MUTATION_BIEN is keyed by the pair (ID_Mutation, ID_Bien) and holds Valeur_fonciere. */
  datatype Db = Db(
    mutations: map<string, Mutation>,
    locs: seq<Localisation>,
    biens: seq<Bien>,
    links: map<(string, nat), Value>,
    lots: seq<Lot>)

  const Empty := Db(map[], [], [], map[], [])

  predicate ValidLoc(db: Db, id: nat) {
    1 <= id <= |db.locs|
  }

  predicate ValidBien(db: Db, id: nat) {
    1 <= id <= |db.biens|
  }

  /** Every foreign key points at an existing row. */
  predicate Consistent(db: Db) {
    (forall k :: 0 <= k < |db.biens| ==> ValidLoc(db, db.biens[k].loc))
    && (forall key :: key in db.links ==> key.0 in db.mutations && ValidBien(db, key.1))
    && (forall k :: 0 <= k < |db.lots| ==> ValidBien(db, db.lots[k].bien))
  }

  // ------------------------------------------------------------- MUTATION

  /** MySQL `INSERT ... ON DUPLICATE KEY UPDATE Date_mutation = VALUES(Date_mutation)`. */
  function UpsertMutation(db: Db, id: string, m: Mutation): (r: Db)
    ensures r.mutations.Keys == db.mutations.Keys + {id}
    ensures id !in db.mutations ==> r.mutations[id] == m
    ensures id in db.mutations ==> r.mutations[id] == db.mutations[id].(date := m.date)
    ensures forall k :: k in db.mutations && k != id ==> r.mutations[k] == db.mutations[k]
    ensures r == db.(mutations := r.mutations)
  {
    var row := if id in db.mutations then db.mutations[id].(date := m.date) else m;
    db.(mutations := db.mutations[id := row])
  }

  /** SQLite `INSERT OR IGNORE INTO MUTATION`: an existing id keeps its row. */
  function InsertMutationOrIgnore(db: Db, id: string, m: Mutation): (r: Db)
    ensures r.mutations.Keys == db.mutations.Keys + {id}
    ensures id in db.mutations ==> r == db
    ensures id !in db.mutations ==> r.mutations[id] == m && r == db.(mutations := r.mutations)
  {
    if id in db.mutations then db else db.(mutations := db.mutations[id := m])
  }

  // --------------------------------------------------- LOCALISATION / BIEN

  /** A plain INSERT into LOCALISATION, returning `cursor.lastrowid`. */
  function InsertLoc(db: Db, l: Localisation): (r: (Db, nat))
    ensures r.1 == |db.locs| + 1 && ValidLoc(r.0, r.1)
    ensures r.0 == db.(locs := db.locs + [l])
  {
    (db.(locs := db.locs + [l]), |db.locs| + 1)
  }

  /** A plain INSERT into BIEN, returning `cursor.lastrowid`. */
  function InsertBien(db: Db, b: Bien): (r: (Db, nat))
    ensures r.1 == |db.biens| + 1 && ValidBien(r.0, r.1)
    ensures r.0 == db.(biens := db.biens + [b])
  {
    (db.(biens := db.biens + [b]), |db.biens| + 1)
  }

  // -------------------------------------------------------- MUTATION_BIEN

  /** `INSERT IGNORE` (MySQL) or `INSERT OR IGNORE` (SQLite) on the pair key. */
  function InsertLinkOrIgnore(db: Db, m: string, b: nat, valeur: Value): (r: Db)
    ensures r.links.Keys == db.links.Keys + {(m, b)}
    ensures (m, b) in db.links ==> r == db
    ensures (m, b) !in db.links ==> r == db.(links := db.links[(m, b) := valeur])
  {
    if (m, b) in db.links then db else db.(links := db.links[(m, b) := valeur])
  }

  // ------------------------------------------------------------------ LOT

  /** Position of the lot `numero` of bien `b`, if there is one. */
  function FindLot(lots: seq<Lot>, b: nat, numero: string): (r: Option<nat>)
    ensures r.Some? ==> r.value < |lots| && lots[r.value].bien == b && lots[r.value].numero == numero
    ensures r.None? ==> forall k :: 0 <= k < |lots| ==> !(lots[k].bien == b && lots[k].numero == numero)
  {
    if |lots| == 0 then None
    else
      var n := |lots| - 1;
      match FindLot(lots[..n], b, numero)
      case Some(k) => Some(k)
      case None => if lots[n].bien == b && lots[n].numero == numero then Some(n) else None
  }

  /** No two lots share (ID_Bien, Numero_lot). */
  predicate LotsUnique(lots: seq<Lot>) {
    forall i, j :: 0 <= i < j < |lots| ==> !(lots[i].bien == lots[j].bien && lots[i].numero == lots[j].numero)
  }

  /**
   * MySQL `INSERT INTO LOT ... ON DUPLICATE KEY UPDATE Surface_carree`,
   * with (ID_Bien, Numero_lot) as the unique key it relies on: an existing
   * lot gets the new surface, otherwise a lot is appended.
   */
  function UpsertLot(db: Db, b: nat, numero: string, surface: Value): (r: Db)
    ensures r == db.(lots := r.lots)
    ensures FindLot(db.lots, b, numero).None? ==> r.lots == db.lots + [Lot(b, numero, surface)]
    ensures FindLot(db.lots, b, numero).Some? ==>
      var k := FindLot(db.lots, b, numero).value;
      r.lots == db.lots[k := Lot(b, numero, surface)]
  {
    match FindLot(db.lots, b, numero)
    case None => db.(lots := db.lots + [Lot(b, numero, surface)])
    case Some(k) => db.(lots := db.lots[k := Lot(b, numero, surface)])
  }

  /** The test suite's plain `INSERT INTO LOT`: LOT has no key but its auto id. */
  function InsertLot(db: Db, b: nat, numero: string, surface: Value): (r: Db)
    ensures r == db.(lots := db.lots + [Lot(b, numero, surface)])
  {
    db.(lots := db.lots + [Lot(b, numero, surface)])
  }

  // --------------------------------------------------------------- lemmas

  /** The upsert never creates a second lot with the same (bien, numero), and the lot ends up holding the new surface. */
  lemma UpsertLotKeepsUnique(db: Db, b: nat, numero: string, surface: Value)
    requires LotsUnique(db.lots)
    ensures LotsUnique(UpsertLot(db, b, numero, surface).lots)
    ensures FindLot(UpsertLot(db, b, numero, surface).lots, b, numero).Some?
    ensures var r := UpsertLot(db, b, numero, surface);
      r.lots[FindLot(r.lots, b, numero).value] == Lot(b, numero, surface)
  {
    var r := UpsertLot(db, b, numero, surface);
    match FindLot(db.lots, b, numero)
    case None =>
      assert r.lots[|db.lots|] == Lot(b, numero, surface);
      assert FindLot(r.lots, b, numero).Some?;
      assert FindLot(r.lots, b, numero).value == |db.lots|;
    case Some(j) =>
      assert r.lots[j] == Lot(b, numero, surface);
      assert FindLot(r.lots, b, numero).Some?;
      assert FindLot(r.lots, b, numero).value == j;
  }

  /** Upserting the same lot twice is the same as once. */
  lemma UpsertLotIdempotent(db: Db, b: nat, numero: string, surface: Value)
    requires LotsUnique(db.lots)
    ensures UpsertLot(UpsertLot(db, b, numero, surface), b, numero, surface) == UpsertLot(db, b, numero, surface)
  {
    var r := UpsertLot(db, b, numero, surface);
    UpsertLotKeepsUnique(db, b, numero, surface);
    var k := FindLot(r.lots, b, numero).value;
    assert r.lots[k := Lot(b, numero, surface)] == r.lots;
  }

  /** Two plain inserts of the same lot leave two rows with the same (bien, numero). */
  lemma InsertLotDuplicates(db: Db, b: nat, numero: string, surface: Value)
    ensures var r := InsertLot(InsertLot(db, b, numero, surface), b, numero, surface);
      |r.lots| == |db.lots| + 2 && !LotsUnique(r.lots)
  {
    var r := InsertLot(InsertLot(db, b, numero, surface), b, numero, surface);
    assert r.lots[|db.lots|] == r.lots[|db.lots| + 1];
  }

  /** An ignored insert that is repeated changes nothing the second time. */
  lemma IgnoreIdempotent(db: Db, m: string, b: nat, valeur: Value, id: string, mu: Mutation)
    ensures InsertLinkOrIgnore(InsertLinkOrIgnore(db, m, b, valeur), m, b, valeur) == InsertLinkOrIgnore(db, m, b, valeur)
    ensures InsertMutationOrIgnore(InsertMutationOrIgnore(db, id, mu), id, mu) == InsertMutationOrIgnore(db, id, mu)
  {
  }

  /** A repeated MUTATION upsert only refreshes the date; the first disposition and nature stay. */
  lemma UpsertMutationKeepsFirst(db: Db, id: string, m1: Mutation, m2: Mutation)
    ensures UpsertMutation(UpsertMutation(db, id, m1), id, m2).mutations[id]
      == (if id in db.mutations then db.mutations[id] else m1).(date := m2.date)
  {
  }

  /** Each statement keeps every foreign key valid when the ids it writes exist. */
  lemma ConsistentSteps(db: Db)
    requires Consistent(db)
    ensures forall id, m :: Consistent(UpsertMutation(db, id, m))
    ensures forall id, m :: Consistent(InsertMutationOrIgnore(db, id, m))
    ensures forall l :: Consistent(InsertLoc(db, l).0)
    ensures forall b: Bien :: ValidLoc(db, b.loc) ==> Consistent(InsertBien(db, b).0)
    ensures forall m, b, v :: m in db.mutations && ValidBien(db, b) ==> Consistent(InsertLinkOrIgnore(db, m, b, v))
    ensures forall b, n, s :: ValidBien(db, b) ==> Consistent(UpsertLot(db, b, n, s))
    ensures forall b, n, s :: ValidBien(db, b) ==> Consistent(InsertLot(db, b, n, s))
  {
    forall b: Bien | ValidLoc(db, b.loc) ensures Consistent(InsertBien(db, b).0) {
      var r := InsertBien(db, b).0;
      assert forall k :: 0 <= k < |db.biens| ==> r.biens[k] == db.biens[k];
    }
    forall l: Localisation ensures Consistent(InsertLoc(db, l).0) {
      var r := InsertLoc(db, l).0;
      assert forall k :: 0 <= k < |db.biens| ==> r.biens[k] == db.biens[k];
    }
    forall b, n, s | ValidBien(db, b) ensures Consistent(UpsertLot(db, b, n, s)) {
      var r := UpsertLot(db, b, n, s);
      assert forall k :: 0 <= k < |r.lots| ==> r.lots[k].bien == b || r.lots[k] in db.lots;
    }
    forall b, n, s | ValidBien(db, b) ensures Consistent(InsertLot(db, b, n, s)) {
      var r := InsertLot(db, b, n, s);
      assert forall k :: 0 <= k < |db.lots| ==> r.lots[k] == db.lots[k];
    }
  }
}

=== FILE: text.dfy ===
/**
 * Character and string helpers shared by the normalizers and by key
 * serialization: Python's whitespace test, `strip`, Latin-1 `lower`, comma
 * replacement, `"|".join`, and decimal digit strings with their values.
 */
module Text {

  /** Python's `str.isspace`, the whitespace `strip()` and `float()` remove:
      tab .. carriage return, the separator controls 0x1C-0x1F, space, and
      the Unicode spaces (next line, no-break space, ogham space mark, the
      en quad .. hair space block, line and paragraph separators, narrow
      no-break space, medium mathematical space, ideographic space). */
  predicate IsSpace(c: char) {
    var n := c as int;
    (9 <= n <= 13) || (28 <= n <= 32) || n == 0x85 || n == 0xA0 || n == 0x1680
    || (0x2000 <= n <= 0x200A) || n == 0x2028 || n == 0x2029 || n == 0x202F
    || n == 0x205F || n == 0x3000
  }

  /** True when `str(s).strip() == ''`. */
  predicate IsBlank(s: string) {
    forall i :: 0 <= i < |s| ==> IsSpace(s[i])
  }

  /** The length of the run of spaces `s` starts with. */
  function LeadingSpaces(s: string): (n: nat)
    ensures n <= |s|
    ensures forall i :: 0 <= i < n ==> IsSpace(s[i])
    ensures n < |s| ==> !IsSpace(s[n])
  {
    if |s| > 0 && IsSpace(s[0]) then 1 + LeadingSpaces(s[1..]) else 0
  }

  function StripLeft(s: string): (r: string)
    ensures |r| <= |s| && r == s[|s| - |r|..]
    ensures forall i :: 0 <= i < |s| - |r| ==> IsSpace(s[i])
    ensures r == [] || !IsSpace(r[0])
  {
    s[LeadingSpaces(s)..]
  }

  function StripRight(s: string): (r: string)
    ensures |r| <= |s| && r == s[..|r|]
    ensures forall i :: |r| <= i < |s| ==> IsSpace(s[i])
    ensures r == [] || !IsSpace(r[|r| - 1])
  {
    if |s| > 0 && IsSpace(s[|s| - 1]) then StripRight(s[..|s| - 1]) else s
  }

  /** Python's `str.strip()` (whitespace per `IsSpace`): the text after the
      leading run of spaces, up to a trailing run of spaces. */
  function Strip(s: string): (r: string)
    ensures StripsTo(s, LeadingSpaces(s), r)
    ensures r == [] <==> IsBlank(s)
    ensures r != [] ==> !IsSpace(r[0]) && !IsSpace(r[|r| - 1])
  {
    var k := LeadingSpaces(s);
    var l := StripLeft(s);
    var r := StripRight(l);
    PrefixOfDrop(s, k, l, r);
    StripBlank(s, l, r);
    TrimmedEnds(l, r);
    r
  }

  /** `r` is the text of `s` from `k` on with a run of trailing spaces cut off. */
  predicate StripsTo(s: string, k: nat, r: string) {
    k + |r| <= |s| && r == s[k..k + |r|]
    && forall i :: k + |r| <= i < |s| ==> IsSpace(s[i])
  }

  /** A prefix of the suffix of `s` from `k`, followed there by spaces only, is what `s` strips to from `k`. */
  lemma PrefixOfDrop(s: string, k: nat, l: string, r: string)
    requires k <= |s| && l == s[k..]
    requires |r| <= |l| && r == l[..|r|]
    requires forall i :: |r| <= i < |l| ==> IsSpace(l[i])
    ensures StripsTo(s, k, r)
  {
    forall i | k + |r| <= i < |s| ensures IsSpace(s[i]) {
      assert s[i] == l[i - k];
    }
  }

  /** Trimming the end of a text that starts with a non-space leaves a text that starts and ends with one. */
  lemma TrimmedEnds(l: string, r: string)
    requires l == [] || !IsSpace(l[0])
    requires |r| <= |l| && r == l[..|r|]
    requires r == [] || !IsSpace(r[|r| - 1])
    ensures r != [] ==> !IsSpace(r[0]) && !IsSpace(r[|r| - 1])
  {
    if r != [] {
      assert r[0] == l[0];
    }
  }

  /** The stripped text is empty exactly when every character of `s` is a space. */
  lemma StripBlank(s: string, l: string, r: string)
    requires l == StripLeft(s) && r == StripRight(l)
    ensures r == [] <==> IsBlank(s)
  {
    var k := |s| - |l|;
    if r == [] {
      assert l == [];
    } else {
      assert !IsSpace(s[k + |r| - 1]) by {
        assert s[k + |r| - 1] == l[|r| - 1] == r[|r| - 1];
      }
    }
  }

  /** The contract of `Strip` determines it: the only text `s` strips to
      from its leading spaces that does not end in a space is `Strip(s)`. */
  lemma StripDetermined(s: string, r: string)
    requires StripsTo(s, LeadingSpaces(s), r)
    requires r == [] || !IsSpace(r[|r| - 1])
    ensures r == Strip(s)
  {
  }

  /** A string that starts and ends with a non-space character is its own strip. */
  lemma {:induction false} StripNoop(s: string)
    requires s != [] && !IsSpace(s[0]) && !IsSpace(s[|s| - 1])
    ensures Strip(s) == s
  {
    assert StripLeft(s) == s;
    assert StripRight(s) == s;
  }

  /** Python's `str.lower()` on the capitals of ASCII and Latin-1 (A-Z and
      U+00C0 .. U+00DE except the multiplication sign); other characters are
      unchanged. */
  function LowerChar(c: char): char {
    if 'A' <= c <= 'Z' || ('\U{C0}' <= c <= '\U{DE}' && c != '\U{D7}') then (c as int + 32) as char else c
  }

  function Lower(s: string): (r: string)
    ensures |r| == |s|
    ensures forall i :: 0 <= i < |s| ==> r[i] == LowerChar(s[i])
  {
    seq(|s|, i requires 0 <= i < |s| => LowerChar(s[i]))
  }

  /** `s.replace(',', '.')`. */
  function ReplaceCommas(s: string): (r: string)
    ensures |r| == |s|
    ensures ',' !in r
    ensures forall i :: 0 <= i < |s| && s[i] != ',' ==> r[i] == s[i]
    ensures forall i :: 0 <= i < |s| && s[i] == ',' ==> r[i] == '.'
  {
    seq(|s|, i requires 0 <= i < |s| => if s[i] == ',' then '.' else s[i])
  }

  /** A string without commas is left alone, so the replacement is idempotent. */
  lemma ReplaceCommasNoComma(s: string)
    requires ',' !in s
    ensures ReplaceCommas(s) == s
  {
  }

  /** Replacement keeps a blank string blank (commas are not whitespace). */
  lemma ReplaceCommasBlank(s: string)
    ensures IsBlank(ReplaceCommas(s)) <==> IsBlank(s)
  {
    var r := ReplaceCommas(s);
    if IsBlank(r) {
      forall i | 0 <= i < |s| ensures IsSpace(s[i]) {
        assert IsSpace(r[i]);
      }
    }
  }

  function EndsWith(s: string, suffix: string): bool {
    |suffix| <= |s| && s[|s| - |suffix|..] == suffix
  }

  /** Index of the first occurrence of `c`, or `|s|` when absent. */
  function IndexOf(s: string, c: char): (k: nat)
    ensures k <= |s|
    ensures forall i :: 0 <= i < k ==> s[i] != c
    ensures k < |s| <==> c in s
    ensures k < |s| ==> s[k] == c
  {
    if |s| == 0 then 0 else if s[0] == c then 0 else 1 + IndexOf(s[1..], c)
  }

  lemma IndexOfSplit(a: string, c: char, b: string)
    requires c !in a
    ensures IndexOf(a + [c] + b, c) == |a|
  {
    var s := a + [c] + b;
    assert forall i :: 0 <= i < |a| ==> s[i] == a[i];
    assert s[|a|] == c;
  }

  /** Python's `sep.join(parts)`. */
  function Join(sep: char, parts: seq<string>): string
  {
    if |parts| == 0 then []
    else if |parts| == 1 then parts[0]
    else parts[0] + [sep] + Join(sep, parts[1..])
  }

  /** Appending a field appends the separator and the field. */
  lemma {:induction false} JoinSnoc(sep: char, parts: seq<string>, x: string)
    requires |parts| > 0
    ensures Join(sep, parts + [x]) == Join(sep, parts) + [sep] + x
    decreases |parts|
  {
    if |parts| == 1 {
      assert parts + [x] == [parts[0], x];
    } else {
      assert (parts + [x])[1..] == parts[1..] + [x];
      JoinSnoc(sep, parts[1..], x);
    }
  }

  /** The text after the last `sep` (the whole string when there is none). */
  function LastField(sep: char, s: string): (r: string)
    ensures sep !in r
  {
    if |s| == 0 then []
    else if s[|s| - 1] == sep then []
    else LastField(sep, s[..|s| - 1]) + [s[|s| - 1]]
  }

  lemma {:induction false} LastFieldAfterSep(sep: char, a: string, x: string)
    requires sep !in x
    ensures LastField(sep, a + [sep] + x) == x
    decreases |x|
  {
    var s := a + [sep] + x;
    if |x| == 0 {
      assert s[|s| - 1] == sep;
    } else {
      assert s[..|s| - 1] == a + [sep] + x[..|x| - 1];
      assert x[|x| - 1] in x;
      LastFieldAfterSep(sep, a, x[..|x| - 1]);
      assert x[..|x| - 1] + [x[|x| - 1]] == x;
    }
  }

  // ---------------------------------------------------------------- digits

  function Pow10(n: nat): (p: nat)
    ensures p >= 1
  {
    if n == 0 then 1 else 10 * Pow10(n - 1)
  }

  lemma Pow10Add(a: nat, b: nat)
    ensures Pow10(a + b) == Pow10(a) * Pow10(b)
  {
    if a > 0 {
      Pow10Add(a - 1, b);
    }
  }

  predicate IsDigit(c: char) {
    '0' <= c <= '9'
  }

  predicate AllDigits(s: string) {
    forall i :: 0 <= i < |s| ==> IsDigit(s[i])
  }

  function DigitChar(d: nat): (c: char)
    requires d < 10
    ensures IsDigit(c)
  {
    ('0' as int + d) as char
  }

  function DigitVal(c: char): nat
    requires IsDigit(c)
  {
    c as int - '0' as int
  }

  /** The value of a string of decimal digits (leading zeros allowed). */
  function ValueOf(s: string): nat
    requires AllDigits(s)
  {
    if |s| == 0 then 0 else 10 * ValueOf(s[..|s| - 1]) + DigitVal(s[|s| - 1])
  }

  /** Decimal digits of `n` without leading zeros ("0" for zero). */
  function DigitsOf(n: nat): (s: string)
    ensures AllDigits(s) && |s| >= 1
    ensures ValueOf(s) == n
    ensures |s| == 1 || s[0] != '0'
  {
    if n < 10 then
      var s := [DigitChar(n)];
      assert s[..0] == [];
      s
    else
      var p := DigitsOf(n / 10);
      var s := p + [DigitChar(n % 10)];
      assert s[..|s| - 1] == p;
      s
  }

  /** `n` has at most `k` digits when it is below 10^k. */
  lemma {:induction false} DigitsOfLength(n: nat, k: nat)
    requires k >= 1 && n < Pow10(k)
    ensures |DigitsOf(n)| <= k
    decreases k
  {
    if n >= 10 {
      DigitsOfLength(n / 10, k - 1);
    }
  }

  function Zeros(k: nat): (s: string)
    ensures |s| == k && AllDigits(s)
  {
    seq(k, i => '0')
  }

  /** Left-pads a digit string with zeros up to width `k`. */
  function PadLeft(s: string, k: nat): (r: string)
    requires AllDigits(s)
    ensures AllDigits(r)
    ensures |r| == if |s| < k then k else |s|
  {
    if |s| < k then Zeros(k - |s|) + s else s
  }

  lemma AllDigitsConcat(a: string, b: string)
    requires AllDigits(a) && AllDigits(b)
    ensures AllDigits(a + b)
  {
    var s := a + b;
    forall i | 0 <= i < |s| ensures IsDigit(s[i]) {
      if i < |a| { assert s[i] == a[i]; } else { assert s[i] == b[i - |a|]; }
    }
  }

  lemma ShiftDigit(va: int, vb: int, p: int, d: int)
    ensures 10 * (va * p + vb) + d == va * (10 * p) + (10 * vb + d)
  {
    assert 10 * (va * p) == va * (10 * p);
  }

  lemma {:induction false} ValueOfConcat(a: string, b: string)
    requires AllDigits(a) && AllDigits(b)
    ensures AllDigits(a + b)
    ensures ValueOf(a + b) == ValueOf(a) * Pow10(|b|) + ValueOf(b)
    decreases |b|
  {
    AllDigitsConcat(a, b);
    var s := a + b;
    if |b| == 0 {
      assert s == a;
    } else {
      var b' := b[..|b| - 1];
      var d := DigitVal(b[|b| - 1]);
      assert s[..|s| - 1] == a + b';
      assert s[|s| - 1] == b[|b| - 1];
      ValueOfConcat(a, b');
      ConcatStep(ValueOf(s), ValueOf(a + b'), ValueOf(a), ValueOf(b'), ValueOf(b), Pow10(|b'|), Pow10(|b|), d);
    }
  }

  /** The arithmetic of one step of `ValueOfConcat`. */
  lemma ConcatStep(vs: int, vab: int, va: int, vb': int, vb: int, p: int, p': int, d: int)
    requires vs == 10 * vab + d && vab == va * p + vb'
    requires vb == 10 * vb' + d && p' == 10 * p
    ensures vs == va * p' + vb
  {
    ShiftDigit(va, vb', p, d);
  }

  lemma {:induction false} ValueOfZeros(k: nat)
    ensures ValueOf(Zeros(k)) == 0
    decreases k
  {
    if k > 0 {
      assert Zeros(k)[..k - 1] == Zeros(k - 1);
      ValueOfZeros(k - 1);
    }
  }

  lemma ZeroTimes(a: int, p: int)
    requires a == 0
    ensures a * p == 0
  {
  }

  /** Padding with leading zeros does not change the value. */
  lemma PadLeftValue(s: string, k: nat)
    requires AllDigits(s)
    ensures ValueOf(PadLeft(s, k)) == ValueOf(s)
  {
    if |s| < k {
      var z := Zeros(k - |s|);
      assert PadLeft(s, k) == z + s;
      ValueOfConcat(z, s);
      ValueOfZeros(k - |s|);
      ZeroTimes(ValueOf(z), Pow10(|s|));
    }
  }

  /** `str(i)` for a Python int. */
  function ShowInt(i: int): (s: string)
    ensures |s| >= 1 && '|' !in s && !IsSpace(s[0]) && !IsSpace(s[|s| - 1])
  {
    var s := if i < 0 then "-" + DigitsOf(-i) else DigitsOf(i);
    assert forall k :: 0 <= k < |s| ==> s[k] == '-' || IsDigit(s[k]);
    s
  }
}

=== FILE: values.dfy ===
// Cells of a DataFrame row and the per-cell conversions the scripts apply:
// `clean_numeric`, the date conversions, `pd.to_numeric(errors='coerce')`
// followed by `.astype('Int64')`, and Python's `str`, `int` and `float`.

module Values {
  import opened Wrappers
  import opened Text
  import opened Numbers
  import opened Dates

  /**
   * One cell. `Null` is pandas' missing value (NaN, NaT, `pd.NA`) and also
   * what `row.get` gives for an absent column; the model does not tell
   * them apart.
   */
  datatype Value = Null | Str(s: string) | Float(x: Decimal) | Int(i: int) | Stamp(date: Date)

  /** A row: column name to cell. */
  type Row = map<string, Value>

  /** `row.get(col)`: the cell, or missing when the column is absent. */
  function Get(r: Row, col: string): (v: Value)
    ensures col !in r ==> v == Null
  {
    if col in r then r[col] else Null
  }

  /** Python's `str()` of a cell; a missing cell is NaN and prints as "nan". */
  function PyStr(v: Value): string {
    match v
    case Null => "nan"
    case Str(s) => s
    case Float(x) => ShowDecimal(x)
    case Int(i) => ShowInt(i)
    case Stamp(d) => if Printable(d) then IsoText(d) + " 00:00:00" else "NaT"
  }

  /** `str(x) if pd.notna(x) else None`, the idiom every text field goes through. */
  function StrOrNone(v: Value): (r: Value)
    ensures r.Null? <==> v.Null?
    ensures !v.Null? ==> r == Str(PyStr(v))
  {
    if v.Null? then Null else Str(PyStr(v))
  }

  /** Truthiness of a value that went through `StrOrNone`: None and "" are false. */
  predicate Filled(v: Value) {
    v.Str? && v.s != []
  }

  /** Truthiness of a raw cell: NaN is true, as are non-empty text and non-zero numbers. */
  predicate RawTruthy(v: Value) {
    match v
    case Null => true
    case Str(s) => s != []
    case Float(x) => x.mantissa != 0
    case Int(i) => i != 0
    case Stamp(_) => true
  }

  /** Truthiness of `clean_numeric`'s result: None and 0.0 are false. */
  predicate NonZero(o: Option<Decimal>) {
    o.Some? && o.value.mantissa != 0
  }

  // ---------------------------------------------------------- clean_numeric

  /**
   * `clean_numeric`: missing or blank cells give None; text has every ','
   * turned into '.' before `float()` reads it; a failed parse gives None.
   * It never raises.
   */
  function CleanNumeric(v: Value): (r: Option<Decimal>)
    ensures v.Null? ==> r.None?
    ensures v.Str? && IsBlank(v.s) ==> r.None?
    ensures r.Some? ==> Canonical(r.value)
  {
    match v
    case Null => None
    case Str(s) => if IsBlank(s) then None else ParseFloat(ReplaceCommas(s))
    case Float(x) => Some(Normalize(x.mantissa, x.scale))
    case Int(i) => Some(Decimal(i, 0))
    case Stamp(_) => None
  }

  /** What `Series.apply(clean_numeric)` stores back: None becomes a missing cell. */
  function NumberCell(o: Option<Decimal>): (v: Value)
    ensures v.Null? <==> o.None?
  {
    match o
    case None => Null
    case Some(x) => Float(x)
  }

  /**
   * The test-suite variant of `clean_numeric`, which only treats the exact
   * empty string as blank.
   */
  function SqliteCleanNumeric(v: Value): (r: Option<Decimal>)
    ensures v.Null? || v == Str("") ==> r.None?
  {
    match v
    case Null => None
    case Str(s) => if s == "" then None else ParseFloat(ReplaceCommas(s))
    case Float(x) => Some(Normalize(x.mantissa, x.scale))
    case Int(i) => Some(Decimal(i, 0))
    case Stamp(_) => None
  }

  /** The narrower blank test changes nothing: whitespace never parses as a float. */
  lemma SqliteCleanAgrees(v: Value)
    ensures SqliteCleanNumeric(v) == CleanNumeric(v)
  {
    if v.Str? && IsBlank(v.s) {
      ReplaceCommasBlank(v.s);
    }
  }

  /** "44,5" and "44.5" clean to the same number. */
  lemma CommaInsensitive(s: string)
    ensures CleanNumeric(Str(s)) == CleanNumeric(Str(ReplaceCommas(s)))
  {
    ReplaceCommasBlank(s);
    ReplaceCommasNoComma(ReplaceCommas(s));
  }

  /** A thousands separator is not understood: "1 234,56" becomes "1 234.56", which `float()` rejects. */
  lemma GroupedDigitsRejected()
    ensures CleanNumeric(Str("1 234,56")) == None
  {
    var s := "1 234,56";
    assert IsDigit(s[0]) && s[1] == ' ' && IsDigit(s[7]) && s[5] == ',';
    GroupedRejected(s, 5);
  }

  /** Any cell of the shape "digit, space, ..., comma, ..., digit" is rejected. */
  lemma GroupedRejected(s: string, c: nat)
    requires |s| > 2 && IsDigit(s[0]) && s[1] == ' ' && IsDigit(s[|s| - 1])
    requires c < |s| && s[c] == ','
    ensures CleanNumeric(Str(s)) == None
  {
    assert !IsSpace(s[0]);
    var t := ReplaceCommas(s);
    assert t[0] == s[0] && t[1] == ' ' && t[|t| - 1] == s[|s| - 1] && t[c] == '.';
    StripNoop(t);
    SpaceBeforePointRejected(t);
  }

  /** `float()` rejects a digit followed by a space when a point comes later. */
  lemma SpaceBeforePointRejected(t: string)
    requires Strip(t) == t && |t| > 2 && IsDigit(t[0]) && t[1] == ' ' && '.' in t
    ensures ParseFloat(t) == None
  {
    var k := IndexOf(t, '.');
    assert k > 1;
    assert t[..k][1] == ' ';
  }

  /** Cleaning a cleaned cell again gives the same number. */
  lemma CleanIdempotent(v: Value)
    requires CleanNumeric(v).Some?
    ensures CleanNumeric(Float(CleanNumeric(v).value)) == CleanNumeric(v)
  {
    NormalizeCanonical(CleanNumeric(v).value);
  }

  /** `t` with the decimal point written the French way. */
  function French(t: string): (r: string)
    ensures |r| == |t|
    ensures forall i :: 0 <= i < |t| ==> r[i] == (if t[i] == '.' then ',' else t[i])
  {
    seq(|t|, i requires 0 <= i < |t| => if t[i] == '.' then ',' else t[i])
  }

  /** The printed form of a number, in either notation, cleans back to that number. */
  lemma CleanPrinted(x: Decimal)
    ensures CleanNumeric(Str(ShowDecimal(x))) == Some(Normalize(x.mantissa, x.scale))
    ensures CleanNumeric(Str(French(ShowDecimal(x)))) == Some(Normalize(x.mantissa, x.scale))
  {
    var t := ShowDecimal(x);
    var f := French(t);
    ReplaceCommasNoComma(t);
    assert ReplaceCommas(f) == t;
    assert !IsBlank(t) by { assert !IsSpace(t[0]); }
    assert !IsBlank(f) by { assert !IsSpace(f[0]); }
    ParseShow(x);
  }

  // ------------------------------------------------------------------ dates

  /**
   * `convert_date` and `convert_date_string_to_datetime` on a cell read as
   * text: the separator dispatch of `ConvertDateText`. A timestamp is
   * passed through; numbers are not dates.
   */
  function ConvertDate(v: Value): (r: Option<Date>)
    ensures v.Null? ==> r.None?
    ensures r.Some? ==> Representable(r.value)
  {
    match v
    case Null => None
    case Str(s) => ConvertDateText(s)
    case Stamp(d) => Checked(d)
    case _ => None
  }

  /** The nested `convert_date` of the test suite, which has no blank test. */
  function SqliteConvertDate(v: Value): (r: Option<Date>)
    ensures v.Null? ==> r.None?
  {
    match v
    case Null => None
    case Str(s) =>
      if '-' in s then ParseIso(s)
      else if '/' in s then ParseDmy(s)
      else None
    case Stamp(d) => Checked(d)
    case _ => None
  }

  /** Dropping the blank test changes nothing: a blank cell has neither separator. */
  lemma SqliteConvertAgrees(v: Value)
    ensures SqliteConvertDate(v) == ConvertDate(v)
  {
    if v.Str? && IsBlank(v.s) {
      assert '-' !in v.s && '/' !in v.s by {
        assert forall i :: 0 <= i < |v.s| ==> IsSpace(v.s[i]);
      }
    }
  }

  /** What `apply(convert_date)` stores: None becomes NaT. */
  function DateCell(o: Option<Date>): (v: Value)
    ensures v.Null? <==> o.None?
  {
    match o
    case None => Null
    case Some(d) => Stamp(d)
  }

  // --------------------------------------------------------------- int/float

  /** Python's `int(x)`; `None` is the exception it raises. */
  function PyInt(v: Value): (r: Option<int>)
    ensures v.Int? ==> r == Some(v.i)
    ensures v.Float? ==> r == Some(Trunc(v.x))
    ensures v.Str? ==> r == ParseInt(v.s)
    ensures v.Null? || v.Stamp? ==> r.None?
  {
    match v
    case Null => None
    case Str(s) => ParseInt(s)
    case Float(x) => Some(Trunc(x))
    case Int(i) => Some(i)
    case Stamp(_) => None
  }

  /** `int(str(i))` and `int(float(i))` both give `i` back. */
  lemma PyIntRoundTrip(i: int)
    ensures PyInt(Str(ShowInt(i))) == Some(i)
    ensures PyInt(Float(Decimal(i, 0))) == Some(i)
  {
    IntRoundTrip(i);
  }

  /** Python's `float(x)`; `None` is the exception it raises. */
  function PyFloat(v: Value): (r: Option<Decimal>)
    ensures r.Some? ==> Canonical(r.value)
    ensures v.Float? ==> r.Some? && SameValue(r.value, v.x)
  {
    match v
    case Null => None
    case Str(s) => ParseFloat(s)
    case Float(x) => Some(Normalize(x.mantissa, x.scale))
    case Int(i) => Some(Decimal(i, 0))
    case Stamp(_) => None
  }

  /** `pd.to_numeric(errors='coerce')` on one cell: unparsable text becomes missing. */
  function ToNumeric(v: Value): (r: Value)
    ensures r.Null? || r.Float? || r.Int?
    ensures v.Str? ==> (r.Null? <==> ParseFloat(v.s).None?)
  {
    match v
    case Str(s) => NumberCell(ParseFloat(s))
    case Float(x) => Float(x)
    case Int(i) => Int(i)
    case _ => Null
  }

  /**
   * `.astype('Int64')` on one cell: missing stays missing, whole numbers
   * become integers, and a number with a fractional part raises, which
   * fails the whole file (`None`).
   */
  function CastInt64(v: Value): (r: Option<Value>)
    requires v.Null? || v.Float? || v.Int?
    ensures v.Null? ==> r == Some(Null)
    ensures r.Some? && !v.Null? ==> r.value.Int?
    ensures v.Float? ==> (r.Some? <==> Normalize(v.x.mantissa, v.x.scale).scale == 0)
    ensures r.Some? && v.Float? ==> SameValue(Decimal(r.value.i, 0), v.x)
  {
    match v
    case Null => Some(Null)
    case Int(i) => Some(Int(i))
    case Float(x) =>
      var c := Normalize(x.mantissa, x.scale);
      if c.scale == 0 then Some(Int(c.mantissa)) else None
  }
}

=== FILE: wrappers.dfy ===
/** Optional values, used for every "value or absent" result. */
module Wrappers {

  /** `None` plays the role of Python's `None` / pandas' missing marker. */
  datatype Option<+T> = None | Some(value: T)
}
